=== FILE: README.md ===
# Clinic appointment scheduling, modelled in Dafny

This project models the scheduling core of a small clinic booking
application: an Express/Mongoose server with appointment and doctor
routes, and a browser page that books, reschedules and cancels
appointments. The model has three parts:

- **The server routes.** Booking (`POST /`), rescheduling (`PATCH /:id`) and cancelling (`DELETE /:id`) are pure transitions on an appointment store, a map from id to record. Each returns the reply and the store it leaves behind. The sorted listing (`GET /`), the per-date listing (`GET /date/:date`) and the free-slot listing of a doctor (`GET /:id/slots`) are functions of the store.
- **The page.** The fixed half-hour grid (`generateTimeSlots`) and the booking form's filter (`checkSlotAvailability`, `updateTimeSlots`). The reschedule dialog's filter and kept selection (`updateEditTimeSlots`), and the opening of the dialog (`editAppointment`). The day-by-day list of booked appointments (`fetchBookedAppointments`).
- **The records.** The appointment and doctor schemas, with their defaults and validation.

The application has four different availability tests, and the model keeps
each one as the code writes it:

- The booking routes look for an existing start strictly inside the new span.
- The slot listing drops a 30-minute slot whose start or end lies in an appointment's closed span.
- The booking form drops a label whose minute lies in an appointment's half-open span, and ignores the chosen duration.
- The reschedule dialog drops a label whose slot overlaps any other appointment of the day, whichever doctor that appointment is with.

Module `Compare` states how these tests relate to true half-open overlap.

Time is one local timeline of whole minutes (`Time.Instant`, an `int`). A
day has 1440 minutes, and `day = t / 1440`. `new Date()` is the parameter
`now`. The id Mongo gives a new document is the parameter `newId`. Request
values are `Js.Value` (absent, number or string), so that JavaScript
truthiness, `parseInt` and `|| fallback` behave as in the code.

Modules:

- `Time` and `Js`: `Date`, `setHours` and string primitives.
- `Clock`: date-fns `"HH:mm"` parse and format.
- `Models`: the two records and their validation.
- `Order`: the sorted listing.
- `Appointments`: the server routes for appointments.
- `Doctors`: the slot listing.
- `Client`: the page.
- `Booked`: the grouped list.
- `Compare`: how the availability tests relate.
- `Seqs`, `Wrappers` and `Http`: shared helpers.

The conflict test of the booking routes is a parameter,
`Appointments.ConflictCheck`:

- `StartInside` is the test as written.
- `AnyOverlap` is the overlap test the routes evidently intend. The comment above the query at routes/appointments.js:12 says it looks for "any overlapping appointments".

In the same way, the slot listing takes a `Doctors.SpanRule`:

- `Closed` is the test as written.
- `HalfOpen` is the span [start, end) the handler evidently intends. Its comment at routes/doctors.js:73 asks whether the slot overlaps an appointment, and the page's own availability test at public/app.js:169-173 uses that span.

The handlers' own loops
(`Doctors.ListSlots`, `Client.GenerateTimeSlots`, `Client.UpdateTimeSlots`,
`Appointments.ListAll`) are methods. The first three are proved equal to
functional definitions. `Appointments.ListAll` has none: it is proved to
list every stored record once, sorted by start.

Where a comment and the code disagree, the model follows the code. The
two disagreements are listed under "Findings", together with a reschedule
whose reply and saved record differ.

`parseInt` is called without a radix, so the model reads a `0x` prefix in
base 16 and skips every ECMAScript white-space character in front of the
number. A duration of "0x3C" books an hour (`Appointments.HexDuration`).

The scenario lemmas about double booking (`Appointments.CreateDoubleBooks`,
`Appointments.IntendedRefusesDoubleBooking`) and about rescheduling onto the
appointment's own slot (`Appointments.PatchToOwnSlot`) take the clock string
as a parameter `time`. The string must name the start on the requested day.
`Time.SetClockOnDay` shows that the page's label `hh:mm` of any clock time
is such a string, and `Appointments.WorkingClock` and `Appointments.ClockAt`
show that such a time lies in working hours.

## Model

| member | source | states |
|---|---|---|
| `Time.NewDate` | routes/appointments.js:86 | for a bare `YYYY-MM-DD` date string, `new Date(date)` is the first minute of that day; it is an Invalid Date exactly when the date is missing, empty or not a date |
| `Time.SetClock` | routes/appointments.js:85-87 | `time.split(':')`, then `setHours(parseInt(hours), parseInt(minutes), 0, 0)` on the date; a time without a colon has an undefined minutes part, which is NaN and gives an Invalid Date |
| `Time.SetHours` | routes/appointments.js:87 | `setHours(h, m, 0, 0)` is the day's first minute plus h·60 + m, with out-of-range values carrying into other days; a NaN argument or an Invalid Date gives an Invalid Date |
| `Time.SetClockLabel` | public/app.js:164-166 | splitting a zero-padded `hh:mm` label at `:` and `parseInt`-ing both parts gives back its hour and minute, so setting the label on a date is `setHours(h, m)` |
| `Time.SetClockOnDay` | routes/appointments.js:85-87 | the label `hh:mm` combined with a date names minute h·60 + m of that day |
| `Time.HourOfClock` | routes/appointments.js:27 | `getHours` of the clock time h:m on any day is h, and its minute of the day is h·60 + m |
| `Time.SetHoursInRange` | routes/appointments.js:87 | `setHours` with an hour below 24 and a minute below 60 stays on the same day and reads back that hour and minute |
| `Time.OnDayBounds` | routes/doctors.js:50-51 | an instant falls on a day exactly when it lies between that day's `startOfDay` and `endOfDay` |
| `Js.ParseInt` | routes/appointments.js:87 | `parseInt(s)` without a radix: leading white space skipped, an optional sign, then hexadecimal digits after a `0x` or `0X` prefix or else decimal digits, as many as there are; NaN when there are none |
| `Js.ParseValue` | routes/appointments.js:100 | `parseInt` of a request value: a number is itself, an absent value is `parseInt("undefined")`, which is NaN, and a string is read by `Js.ParseInt` |
| `Js.OrElse` | routes/appointments.js:100 | `parseInt(x) \|\| fallback` gives the fallback for NaN and 0, and the parsed number otherwise |
| `Js.Split` | routes/appointments.js:85 | `split(':')` gives at least one part, and no part holds a colon |
| `Js.JoinSplit` | routes/appointments.js:85 | joining the parts of `split` with the separator gives back the string, so nothing is lost |
| `Js.SplitOnce` | routes/appointments.js:85 | a string `a:b` with no other colon splits into exactly `[a, b]` |
| `Js.PadStart` | public/app.js:146 | `padStart(w, '0')` has length max(w, \|s\|), ends with `s` and is filled with the pad character in front |
| `Js.DecimalValue` | public/app.js:146 | the decimal digits `toString` writes for n denote n |
| `Js.ParsePadded` | public/app.js:164-166 | `parseInt` of a zero-padded `toString` of n is n |
| `Js.ParseDigits` | routes/appointments.js:87 | `parseInt` of a non-empty digit string is the number those digits denote |
| `Js.ParseHex` | routes/appointments.js:100 | `parseInt` with no radix reads the digits after a `0x` or `0X` prefix in base 16 |
| `Js.SpaceSkipped` | routes/appointments.js:87 | any ECMAScript white-space character in front of the number, such as a no-break space, leaves `parseInt` unchanged |
| `Js.HexSixty` | routes/appointments.js:100 | `parseInt("0x3C")` is 60 |
| `Js.HexNeedsDigits` | routes/appointments.js:100 | `parseInt("0x")` is `NaN`: the prefix alone is no number |
| `Clock.TwoDigits` | routes/doctors.js:82 | the two-digit field of `format` for n < 100 is two digits denoting n |
| `Clock.Format` | routes/doctors.js:82 | `format(t, 'HH:mm')` is five characters with `:` in the middle |
| `Clock.Parse` | routes/doctors.js:63-64 | `parse(s, 'HH:mm')` is a minute of the day, from 0 to 1439, or an Invalid Date; white space after the minutes is accepted |
| `Clock.ParseFormat` | routes/doctors.js:63-64 | parsing a formatted minute of the day gives that minute back |
| `Clock.FormatParse` | routes/doctors.js:82 | formatting a parsed five-character time that does not end in white space gives back the same string |
| `Clock.TrailingSpace` | routes/doctors.js:63-64 | white space after a clock string never changes how `parse` reads it |
| `Clock.SpacedHours` | routes/doctors.js:63-64 | working hours starting "09:00 " read as minute 540, so the doctor's slots are listed |
| `Models.ValidAppointment` | models/Appointment.js:3-30 | the schema's validation at `save()`: a non-empty patient name, a duration of 30 or 60, and a type from the enum when one is given; notes are free |
| `Models.ValidDoctor` | models/Doctor.js:3-23 | the schema's validation at `save()`: a non-empty name and both ends of the working hours present; nothing relates the start to the end |
| `Models.NewAppointmentDefaults` | models/Appointment.js:13-27 | an appointment made without a duration gets 30 minutes, and with no other field given it is valid exactly when a non-empty patient name is |
| `Models.DurationDecidesValidity` | models/Appointment.js:13-18 | with the other fields valid, a record is valid exactly when its duration is 30 or 60 |
| `Models.AppointmentTypeRule` | models/Appointment.js:19-23 | the appointment type may be absent, and when present it must be one of the four listed values; the empty string is refused |
| `Models.NotesUnconstrained` | models/Appointment.js:28-30 | changing the notes never changes whether a record is valid |
| `Models.NewDoctorDefaults` | models/Doctor.js:8-22 | a doctor given only a name is valid, with hours "09:00" to "17:00" (minutes 540 and 1020) and specialization "General" |
| `Models.DoctorRequiredFields` | models/Doctor.js:4-18 | a doctor without a name, or with an empty working-hours end, is refused |
| `Models.InvertedHoursAccepted` | models/Doctor.js:8-19 | nothing orders the working hours: a doctor from "17:00" to "09:00" is valid |
| `Models.HoursRead` | models/Doctor.js:12-17 | the default hours "09:00" and "17:00" read as minutes 540 and 1020 |
| `Order.Insert` | routes/appointments.js:52 | inserting into a listing sorted by start keeps it sorted and adds exactly that entry |
| `Order.SortByStart` | public/app.js:47 | sorting by start gives a listing sorted by start that is a permutation of the input |
| `Appointments.RequestedDuration` | routes/appointments.js:100-108 | the booked duration is `parseInt(duration)`, or 30 when that is NaN or 0 |
| `Appointments.ClockOn` | routes/appointments.js:85-87 | combining a date and a time fails exactly when the time is not a string, and the failure answers 500 |
| `Appointments.IsSlotAvailable` | routes/appointments.js:8-23 | `isSlotAvailable`: no stored appointment of the doctor, other than the excluded one, starts strictly after the start and strictly before the start plus the duration |
| `Appointments.IsWithinWorkingHours` | routes/appointments.js:26-29 | `isWithinWorkingHours`: the local hour of the date is 9 to 16; an Invalid Date has a NaN hour and is outside |
| `Appointments.CheckSlot` | routes/appointments.js:89-103 | a start passes only if it is not in the past, is in working hours and passes the conflict test; a past start fails first, then one outside working hours |
| `Appointments.Create` | routes/appointments.js:74-120 | a refused booking leaves the store as it was, and an unknown doctor is refused with 404 exactly; a created booking stores one valid new record under the new id, at the requested day and time, that passed every check |
| `Appointments.CopyFields` | routes/appointments.js:169-174 | every field the body gives is copied onto the record as it is, and the other fields, start and duration keep their values |
| `Appointments.NewStart` | routes/appointments.js:132-163 | without a truthy date or time the start is unchanged. A moved start is the given date, or else the old start, at the given `hh:mm`; with only a date it is that date's midnight. It is not past, is in working hours and is free under the conflict test, with the record itself excluded and with the new duration, or the old one when none is given. A failure only happens on a move; it is 500 exactly when a truthy time is not a string, and otherwise one of the three check failures |
| `Appointments.Patch` | routes/appointments.js:123-182 | the reschedule with its new start saved (the corrected save of the third finding): an unknown id answers 404 with the store unchanged, and a refusal leaves the store unchanged. An update replaces only that record with a valid one. Its start is unchanged unless moved; a moved start is the given date, or else the old start, at the given time, and it passed the past, working-hours and conflict checks. Its duration is the parsed one when given, and its other fields are copied from the body |
| `Appointments.PatchDecision` | routes/appointments.js:123-182 | the reschedule answer follows the order of the checks, first failure deciding: on a move, a time without `split` (500), a past start, a start outside working hours, a taken slot; then a duration that does not parse (500) and a failed save (500); otherwise, with the new start saved, the record with the new start, the new duration and the copied fields replaces the old one |
| `Appointments.PatchAsWritten` | routes/appointments.js:134-176 | the reschedule as the database keeps it: the same reply as `Appointments.Patch`; a refusal leaves the store unchanged; an update changes only that record, which is the reply's record except that with a time and no date it keeps the old start |
| `Appointments.TimeOnlyMoveNotSaved` | routes/appointments.js:134-137 | with a time and no date, an update answers with the time set on the old start's day, the database keeps the old start, and the saved record is the reply exactly when the time names the old start again |
| `Appointments.TimeOnlyMoveAnswers` | routes/appointments.js:133-162 | a lone appointment rescheduled by a time alone to a free working-hours minute of its day answers with the moved appointment |
| `Appointments.TimeOnlyMoveLost` | routes/appointments.js:134-176 | as written, that reschedule answers with the moved appointment while the store is left exactly as it was |
| `Appointments.TimeOnlyMoveSaved` | routes/appointments.js:162 | with the new start saved, that reschedule stores the appointment at the new start, as the reply says |
| `Appointments.Delete` | routes/appointments.js:185-198 | an unknown id answers 404 with the store unchanged; otherwise exactly that record is removed and every other is kept |
| `Appointments.ListAll` | routes/appointments.js:47-57 | the listing holds every stored appointment exactly once, with its stored record, sorted by ascending start |
| `Appointments.OnDate` | routes/appointments.js:31-45 | the appointments of a date are those of every doctor whose start lies between the day's first and last minute, unchanged |
| `Appointments.OtherDoctorsNeverBlock` | routes/appointments.js:13-15 | another doctor's appointment never affects a conflict test |
| `Appointments.ExcludedNeverBlocks` | routes/appointments.js:15 | checking with an excluded id is checking the store without that record |
| `Appointments.WorkingHoursWindow` | routes/appointments.js:26-29 | working hours are exactly the minutes 09:00 to 16:59 of the day, whatever the duration or the doctor's configured hours: 16:59 passes, 17:00 and 08:59 do not |
| `Appointments.CreateDecision` | routes/appointments.js:79-114 | the booking answer follows the order of the checks, first failure deciding: unknown doctor, past start, outside working hours, taken slot, failed save, otherwise created |
| `Appointments.CreateWithoutTimeFails` | routes/appointments.js:84-119 | once the doctor is found, a request whose time is not a string answers 500 and stores nothing |
| `Appointments.CreateRejectsPast` | routes/appointments.js:89-92 | a booking whose start is before now is refused as in the past, and nothing is stored |
| `Appointments.CreateStart` | routes/appointments.js:84-87 | a created booking starts on the requested day at the requested `hh:mm` |
| `Appointments.CreateOddDurationFails` | routes/appointments.js:105-118 | a duration other than 30 or 60 never creates a record, and once every check passes it answers 500 |
| `Appointments.HexDuration` | routes/appointments.js:100 | a duration of "0x3C" books 60 minutes, since `parseInt` reads the `0x` prefix in base 16 |
| `Appointments.CreateDefaultDuration` | routes/appointments.js:100 | an absent, zero or non-numeric duration books 30 minutes |
| `Appointments.CreateRefuses` | routes/appointments.js:99-103 | a booking whose checks fail is refused with that failure and stores nothing |
| `Appointments.CreateAccepts` | routes/appointments.js:105-116 | a booking whose checks pass and whose record is valid is stored under the new id |
| `Appointments.PatchWithoutMoveSkipsChecks` | routes/appointments.js:133-167 | without a date or a time no check runs, even when the duration changes; only the duration and the copied fields change |
| `Appointments.PatchDateOnlyRejected` | routes/appointments.js:134-148 | a bare `YYYY-MM-DD` date without a time moves the start to that day's midnight, which is always refused, as past or outside working hours |
| `Appointments.PatchTouchesOnlyItsRecord` | routes/appointments.js:162-176 | a reschedule never changes any other record |
| `Appointments.PatchToOwnSlot` | routes/appointments.js:150-156 | rescheduling an appointment to its own day, time and duration succeeds and leaves the store as it was: it never conflicts with itself |
| `Appointments.OwnSlotStart` | routes/appointments.js:150-156 | the appointment's own start, excluded from the conflict test, passes every check of a reschedule |
| `Appointments.ClockAt` | routes/appointments.js:136-146 | the label `hh:mm` on a day names that clock time, in hour h |
| `Appointments.DeleteTwiceNotFound` | routes/appointments.js:187-190 | cancelling the same id twice answers 404 the second time and changes nothing |
| `Appointments.CreateKeepsStoreValid` | routes/appointments.js:105-116 | booking keeps every stored record valid for the schema |
| `Appointments.PatchKeepsStoreValid` | routes/appointments.js:165-176 | rescheduling keeps every stored record valid for the schema |
| `Appointments.DeleteKeepsStoreValid` | routes/appointments.js:193 | cancelling keeps every stored record valid for the schema |
| `Appointments.FreeSlotKeepsNoOverlap` | routes/appointments.js:8-23 | writing a record whose span no other record of its doctor overlaps keeps every doctor's appointments pairwise non-overlapping |
| `Appointments.FreeSlotIsAvailable` | routes/appointments.js:13-20 | a slot free of overlaps also passes the routes' start-inside test, so the intended test is the stricter one |
| `Appointments.CreateKeepsNoOverlap` | routes/appointments.js:99-114 | booking with the overlap test never double-books a doctor |
| `Appointments.PatchMoveKeepsNoOverlap` | routes/appointments.js:150-162 | moving an appointment with the overlap test, its doctor unchanged, never double-books a doctor |
| `Appointments.PatchLengthenDoubleBooks` | routes/appointments.js:133-167 | even with the overlap test, lengthening a 30-minute appointment to an hour without moving it runs no check, and it then overlaps the doctor's next appointment |
| `Appointments.PatchDoctorChangeDoubleBooks` | routes/appointments.js:133-174 | even with the overlap test, handing an appointment to another doctor without moving it runs no check, and it lands on top of that doctor's appointment |
| `Appointments.CreateDoubleBooks` | routes/appointments.js:13-20 | as written, a 30-minute booking a quarter of an hour into a 60-minute appointment of the same doctor is stored, and the doctor's appointments then overlap |
| `Appointments.IntendedRefusesDoubleBooking` | routes/appointments.js:99-103 | the same request under the overlap test is refused as a taken slot, and nothing is stored |
| `Appointments.WorkingClock` | routes/appointments.js:26-29 | every clock time from 9:00 to 16:59 of any day is in working hours |
| `Doctors.Blocks` | routes/doctors.js:74-79 | an appointment rules out the 30-minute slot at `slot` when the slot's start or its end lies in the appointment's span, under the chosen end rule |
| `Doctors.IsOpen` | routes/doctors.js:74-79 | `!appointments.some(...)`: no appointment of the doctor on that day rules out the slot |
| `Doctors.Candidates` | routes/doctors.js:67-86 | the loop visits the working-hours start plus 30·i for every i with that value below the end: ceil((end − start)/30) starts when start < end, none otherwise |
| `Doctors.CandidateMinutes` | routes/doctors.js:68-85 | a minute is visited exactly when it is at or after the start, below the end and a multiple of 30 after the start |
| `Doctors.OpenMinutes` | routes/doctors.js:70-86 | the kept starts are visited candidates whose slot no appointment of the doctor that day rules out, in strictly ascending order |
| `Doctors.FormatAll` | routes/doctors.js:82 | each kept start is written as its `HH:mm` label, in order |
| `Doctors.AvailableSlots` | routes/doctors.js:34-92 | a missing date answers 400 and an unknown doctor 404, before anything else; a date that is not a date answers 500; every listed slot is an `HH:mm` label |
| `Doctors.ListSlots` | routes/doctors.js:34-92 | the handler, with its loop, computes exactly the slot listing with the closed span test |
| `Doctors.OpenLabels` | routes/doctors.js:66-86 | the loop from the working-hours start pushes the label of every open candidate, in order, and nothing else |
| `Doctors.SlotsOnDay` | routes/doctors.js:48-86 | with readable working hours, the listing of a day is the labels of its open candidates |
| `Doctors.SlotListed` | routes/doctors.js:74-83 | a label is listed exactly when its minute is a candidate and no appointment of the doctor that day rules out its slot |
| `Doctors.OpenMinutesMember` | routes/doctors.js:70-86 | a minute is kept exactly when it is a candidate whose slot is open |
| `Doctors.FormatAllMember` | routes/doctors.js:82 | a minute's label is among the labels exactly when the minute is among the minutes |
| `Doctors.SlotsAscending` | routes/doctors.js:67-86 | the listed slots read back as strictly ascending minutes of the day |
| `Doctors.AllOpenIsCandidates` | routes/doctors.js:74-83 | with no appointment of the doctor that day, every candidate is kept |
| `Doctors.FreeDayListsEveryCandidate` | routes/doctors.js:54-86 | with no appointment of the doctor that day, every candidate is listed |
| `Doctors.UnrelatedBookingIgnored` | routes/doctors.js:54-60 | an appointment of another doctor, or of another day, never changes the listing |
| `Doctors.NoHoursNoSlots` | routes/doctors.js:63-70 | working hours that do not read as `HH:mm`, or whose start is not before their end, list no slots |
| `Doctors.TouchingSlotsNotListed` | routes/doctors.js:74-79 | as written, a slot that ends exactly when an appointment starts, or starts exactly when one ends, is not listed |
| `Doctors.OneBookingListed` | routes/doctors.js:74-83 | with one appointment that day and hours 09:00 to 17:00, a half-hour label is listed exactly when that appointment does not rule out its slot |
| `Doctors.DayWithOneBooking` | routes/doctors.js:74-79 | hours 09:00 to 17:00 and one 60-minute appointment at 10:00: 09:00 and 11:30 are listed; 09:30, 10:00 and 10:30 are not; 11:00 is listed exactly under the half-open rule |
| `Client.LabelIsFormat` | public/app.js:146 | the page's padded label of h:m is the `HH:mm` label of minute h·60 + m |
| `Client.FormatOnDay` | public/app.js:164-166 | a `HH:mm` label set on a date names that minute of the day, in the label's hour |
| `Client.GridAt` | public/app.js:144-147 | grid entry k is the label of hour 9 + k/2 and minute 0 or 30 as k is even or odd |
| `Client.GridEntry` | public/app.js:144-147 | grid entry i is the label of minute 540 + 30·i of the day |
| `Client.GenerateTimeSlots` | public/app.js:142-151 | the nested loops build exactly the grid of the hours 9 to 16, minutes 0 then 30 |
| `Client.HourLabels` | public/app.js:145-148 | the inner loop builds the labels of minutes 0 and 30 of its hour, in that order |
| `Client.GridFormats` | public/app.js:142-151 | every one of the 16 grid entries is the label of its minute 540 + 30·i |
| `Client.TimeSlotsEnds` | public/app.js:142-151 | the grid starts at "09:00" and ends at "16:30" |
| `Client.TimeSlotsAscend` | public/app.js:142-151 | every grid label is five characters and reads back as minute 540 + 30·i, so the grid ascends in steps of 30 minutes |
| `Client.GridLabelParses` | public/app.js:146 | each grid label reads back as its minute of the day |
| `Client.StringOnDay` | public/app.js:164-166 | a string equal to the label of minute v, split, parsed and set on a date, names minute v of that day |
| `Client.BookingSlots` | public/app.js:181-214 | without a doctor or a date the form offers nothing; otherwise it offers exactly the grid labels `checkSlotAvailability` accepts |
| `Client.UpdateTimeSlots` | public/app.js:181-214 | the handler computes exactly the booking form's options |
| `Client.KeepBookable` | public/app.js:198-204 | the loop keeps the available labels in the order it asks about them |
| `Client.PushIfBookable` | public/app.js:200-203 | one turn of that loop extends the kept labels by the asked label exactly when it is available |
| `Client.CheckSlotAvailability` | public/app.js:154-178 | a label is available exactly when no appointment of that doctor starting on that day covers its minute in its half-open span |
| `Client.OnDateIsDay` | routes/appointments.js:34-40 | the appointments the page fetches for a date are exactly those whose start falls on that day |
| `Client.BookableAt` | public/app.js:161-173 | grid label i is bookable exactly when no appointment of the doctor on that day has start ≤ 540 + 30·i < end; the chosen duration plays no part |
| `Client.FreeDayOffersGrid` | public/app.js:191-204 | with no appointment of the doctor that day the form offers the whole grid |
| `Client.GridIncreasing` | public/app.js:142-151 | the grid labels strictly ascend by the minute they name |
| `Client.BookingSlotsAscend` | public/app.js:198-208 | the booking form's options strictly ascend by time |
| `Client.KeepSelection` | public/app.js:320-329 | after the options are replaced, the select holds the old value if it is still offered, and otherwise the first option, or nothing when there are no options |
| `Client.EditDialog` | public/app.js:282-339 | with no appointment being edited the dialog is left as it is; otherwise it offers exactly the grid labels the edit test keeps, keeping the selection when it is still offered |
| `Client.SelectionKept` | public/app.js:326-329 | the selection survives exactly when it is still offered, or when it was already the value an empty select holds |
| `Client.EditKeepsAt` | public/app.js:304-316 | grid label i stays exactly when no other appointment starting on the day overlaps the half-open slot of the chosen duration at 540 + 30·i |
| `Client.OwnAppointmentNeverBlocks` | public/app.js:292 | whatever is stored under the edited id, the dialog offers the same options |
| `Client.AnyDoctorBlocks` | public/app.js:289-315 | every other appointment of the date counts, whichever doctor it is with: one overlapping the slot at a label removes that label |
| `Client.OwnLabel` | public/app.js:241-243 | the `hh:mm` written from `getHours` and `getMinutes` reads back as the appointment's minute of the day |
| `Client.SelectValue` | public/app.js:244 | writing a value into a select sets it when it is offered and otherwise leaves no selection |
| `Client.OpenEdit` | public/app.js:217-244 | an unknown id ends in the error alert; otherwise the dialog opens with the appointment's own time selected, or with nothing selected |
| `Client.OwnLabelOnGrid` | public/app.js:241-244 | an appointment's own time is a grid label exactly when its minute of the day is one of 540 + 30·i |
| `Client.OpenEditOnGrid` | public/app.js:231-244 | an appointment on a grid half hour that no other appointment of its day overlaps opens with its own time selected |
| `Client.OpenEditOffGrid` | public/app.js:238-244 | an appointment whose time is not a grid half hour, such as 10:15, opens with no time selected |
| `Booked.AddTo` | public/app.js:50-56 | one step of the `reduce` appends the appointment to the group of its day, or opens a new last group for that day; the other groups are untouched |
| `Booked.GroupByDay` | public/app.js:50-57 | no day heading appears twice |
| `Booked.GroupsPartition` | public/app.js:50-57 | each group holds exactly the appointments of its day, in listing order, and is not empty; every appointment's day has a group |
| `Booked.SortedGroupsAscend` | public/app.js:47-57 | grouping a listing sorted by start gives strictly ascending day headings |
| `Booked.BookedList` | public/app.js:47-57 | the rendered list has no repeated day heading |
| `Booked.BookedListShape` | public/app.js:47-60 | the days ascend; every appointment appears under the heading of its own day; nothing else appears |
| `Compare.ServerConflictIsOverlap` | routes/appointments.js:13-20 | every conflict the booking routes report is a real overlap of half-open spans |
| `Compare.OverlapsTheRoutesMiss` | routes/appointments.js:16-19 | an existing appointment starting at or before the new start and still running overlaps, yet the routes do not report it |
| `Compare.ListedSlotIsFree` | routes/doctors.js:74-79 | under either span rule, a listed slot overlaps none of the doctor's appointments of the day that last at least 30 minutes |
| `Compare.ShortAppointmentInsideSlot` | routes/doctors.js:74-79 | a 10-minute appointment inside a slot, touching neither end, does not rule out the slot, yet overlaps it |
| `Compare.FormOffersWhatRouteRefuses` | public/app.js:169-173 | beside a 30-minute appointment at 10:30 the form offers 10:00, and an hour booked there is refused by the route |
| `Compare.RouteRefusesHourAtTen` | routes/appointments.js:99-103 | the route refuses an hour from 10:00 beside a 30-minute appointment at 10:30 |
| `Compare.TenOClock` | public/app.js:164-166 | "10:00" is grid label 2, names minute 600 of the day and lies in hour 10 |
| `Compare.DialogIsIntendedTest` | public/app.js:304-316 | for one doctor's appointments of the day, the dialog keeps a label exactly when the overlap test, with the edited appointment excluded, finds the slot free |

## Left out

- Appointments.PatchMoveKeepsNoOverlap: a reschedule that changes the doctor, or only the duration, is not covered. It can double-book a doctor even under the overlap test, as `Appointments.PatchLengthenDoubleBooks` and `Appointments.PatchDoctorChangeDoubleBooks` show.

- Mongo queries, `populate`, indexes and timestamps are not modelled. The store is a map, and each query is a filter over it.
- ObjectId cast errors, which answer 500, are left out. Ids are natural numbers.
- Body keys outside the schema are left out. Mongoose drops them, and the model copies only the schema's fields.
- `GET /:id` of the appointment and doctor routes, and `GET /` of the doctors, are left out. Each returns a stored record or 404 and computes nothing. Only the page's use of the appointment lookup is modelled (`Client.OpenEdit`).
- The race between the conflict query and `save()` is left out. It is concurrency, and the model is sequential.
- Clocks and time zones are left out. `now` is a parameter. The date strings, `toISOString`, `toLocaleDateString` and `getHours` all share one local timeline, so the ISO date of a local midnight is that local day.
- The model assumes `setHours` on an Invalid Date stays an Invalid Date, and that a comparison with one is false (`Time.SetHours`, `Appointments.CheckSlot`).
- The model assumes date-fns `parse(s, 'HH:mm')` accepts one or two digits, a colon and one or two digits, with the hour at most 23 and the minute at most 59. Anything after them must be white space. `Clock.Parse` states this.
- Clock.FormatParse: the round trip needs a string that does not end in white space. "9:00 " reads as 09:00, which formats as "09:00".
- The model assumes `isWithinInterval` includes both ends. It also throws when the end is before the start. No valid record has a negative duration, so no valid store reaches that throw, and the model treats an inverted span, one whose end is before its start, as containing nothing.
- Appointments.Patch: it saves the new start of every reschedule, which the source does not do for a time given without a date. There `setHours` changes the stored `Date` in place and the same object is assigned back, so Mongoose sees no change and `save()` keeps the old start while the reply shows the new one. `Appointments.PatchAsWritten` is that behaviour, and the third finding records it. The other lemmas about reschedules, `Appointments.PatchDecision` among them, are about `Appointments.Patch`.
- Rendering, modals, alerts, animations, `setTimeout`, `formatDateTime`'s locale strings, `displayDoctors`, `populateDoctorSelect` and `selectDoctor` are left out.
- `saveAppointmentChanges` and `cancelAppointment` on the page are left out. They build the `PATCH` and `DELETE` requests that `Appointments.Patch` and `Appointments.Delete` model.
- The `catch` paths of the page are left out: a failed fetch counts as unavailable or shows an alert. The model's page reads a store that does not change while it asks about the labels.
- The dialog's duration may be the select's string. The model takes it as the number that `duration * 60000` coerces it to.
- Request numbers are integers. A fractional JSON duration is not modelled.
- Time.NewDate: request dates are bare `YYYY-MM-DD` strings, absent or empty, or strings that are not dates. A date-time string, a number or `null` is not represented. With a date-time string, a reschedule that gives a date and no time keeps that string's clock time instead of midnight, so `Appointments.PatchDateOnlyRejected` covers bare dates only. `new Date(null)` is the epoch, which the routes refuse as past.
- Request values are never `null`. In the source, a body field set to `null`, such as `{notes: null}`, clears that field; `Appointments.FieldUpdates` cannot express this.
- Time.SetHours: the range of a JavaScript `Date` is not modelled. A time beyond ±8.64e15 ms from the epoch is an Invalid Date. For example, `setHours(3000000009, 0)` is refused as outside working hours by the source, while the model gives an instant in hour 9.
- Js.ParseValue: a JSON number reads back as itself. `parseInt` of a number of 1e21 or more reads its exponent form instead, so `parseInt(1e21)` is 1.

## Findings

| source | as written | input that shows it | evidently intended | confidence | as-written member | corrected member |
|---|---|---|---|---|---|---|
| routes/appointments.js:13-20 | the conflict query finds only appointments whose start lies strictly inside (start, start + duration) | a 60-minute appointment at t, then a 30-minute booking for the same doctor at t + 15: it is accepted and stored, and the two overlap | refuse any appointment of the doctor whose half-open span overlaps [start, start + duration), so that no two appointments of a doctor overlap | not executed | `Appointments.CreateDoubleBooks` | `Appointments.CreateKeepsNoOverlap` |
| routes/doctors.js:74-79 | `isWithinInterval` includes the appointment's end, so a slot starting exactly when an appointment ends is dropped | hours 09:00 to 17:00 and one 60-minute appointment at 10:00: "11:00" is not listed though that slot is free | test the slot's start and end against the half-open span [start, end), under which "11:00" is listed | not executed | `Doctors.TouchingSlotsNotListed` | `Doctors.DayWithOneBooking` |
| routes/appointments.js:134-162 | with a time and no date, `newDate` is the stored `Date` object itself; `setHours` changes it in place and it is assigned back, so Mongoose marks nothing changed and `save()` keeps the old start, while the reply shows the new one | a lone 30-minute appointment at `t`, rescheduled with only a time naming `t2 != t` on the same day, in working hours and not past: the reply is the appointment at `t2`, and the store still holds it at `t` | save the new start, so that the stored record is the one the reply shows | not executed | `Appointments.TimeOnlyMoveLost` | `Appointments.TimeOnlyMoveSaved` |

For the first row, `Appointments.IntendedRefusesDoubleBooking` and
`Appointments.PatchMoveKeepsNoOverlap` also prove the corrected test
(`ConflictCheck.AnyOverlap`, `Appointments.IsSlotFree`). For the second row,
the corrected rule is `SpanRule.HalfOpen`. It still drops a slot that ends
exactly when an appointment starts ("09:30" above), because the handler
tests the slot's two ends, not overlap. `Compare.ShortAppointmentInsideSlot`
shows what that end test misses.

The corrected test of the first row still leaves two ways for a reschedule
to double-book a doctor, because the handler checks only a move, and only
against the old doctor. A body that changes only the duration runs no check
(`Appointments.PatchLengthenDoubleBooks`). A body that changes the doctor
runs no check without a move, and with a move it checks the old doctor's
appointments (`Appointments.PatchDoctorChangeDoubleBooks`). The corrected
member covers only a move that keeps the doctor.

=== FILE: appointments.dfy ===
/** The appointment routes: booking (create), rescheduling (patch),
    cancelling (delete) and the sorted listing, as pure transitions on the
    appointment store. The clock is the parameter `now`; the id a new
    document receives is the parameter `newId`. */
module Appointments {
  import opened Wrappers
  import opened Time
  import Js
  import opened Models
  import opened Http
  import Order

  /** The booking conflict query: a stored appointment of the doctor whose
      start lies strictly inside (start, start + duration). */
  predicate StartsInside(a: Appointment, doctorId: DoctorId, start: Instant, duration: int) {
    a.doctorId == doctorId && start < a.start < AddMinutes(start, duration)
  }

  /** `isSlotAvailable`: no stored appointment other than `exclude` matches
      the conflict query. */
  predicate IsSlotAvailable(store: Store, doctorId: DoctorId, start: Instant, duration: int,
                            exclude: Option<AppointmentId>)
  {
    forall id :: id in store && exclude != Some(id) ==> !StartsInside(store[id], doctorId, start, duration)
  }

  /** The conflict test a booking route applies: the one the routes
      perform through `isSlotAvailable` (`StartInside`), or the overlap
      test they evidently intend (`AnyOverlap`, see `IsSlotFree`). */
  datatype ConflictCheck = StartInside | AnyOverlap

  /** The slot passes the chosen conflict test. */
  predicate SlotOpen(check: ConflictCheck, store: Store, doctorId: DoctorId, start: Instant, duration: int,
                     exclude: Option<AppointmentId>)
  {
    match check
    case StartInside => IsSlotAvailable(store, doctorId, start, duration, exclude)
    case AnyOverlap => IsSlotFree(store, doctorId, start, duration, exclude)
  }

  /** `isWithinWorkingHours`: the local hour is 9 to 16; an Invalid Date is outside. */
  predicate IsWithinWorkingHours(t: Option<Instant>) {
    t.Some? && 9 <= HourOf(t.value) < 17
  }

  /** The answer to a request, with the store it leaves behind. */
  datatype Reply =
    | Created(id: AppointmentId, appointment: Appointment)
    | Updated(id: AppointmentId, appointment: Appointment)
    | Cancelled
    | Rejected(reason: Rejection)

  datatype Step = Step(reply: Reply, store: Store)

  /** The body of a booking request. */
  datatype CreateBody = CreateBody(
    doctorId: DoctorId,
    date: DateArg,
    time: Js.Value,
    duration: Js.Value,
    appointmentType: Option<string>,
    patientName: Option<string>,
    notes: Option<string>)

  /** The fields of a reschedule body other than date, time and duration;
      each one given is copied onto the record as it is. */
  datatype FieldUpdates = FieldUpdates(
    doctorId: Option<DoctorId>,
    appointmentType: Option<string>,
    patientName: Option<string>,
    notes: Option<string>)

  /** The body of a reschedule request. */
  datatype PatchBody = PatchBody(date: DateArg, time: Js.Value, duration: Js.Value, others: FieldUpdates)

  /** `parseInt(duration) || 30`. */
  function RequestedDuration(v: Js.Value): (minutes: int)
    ensures Js.ParseValue(v).None? ==> minutes == DefaultDuration
    ensures Js.ParseValue(v).Some? ==> minutes == if Js.ParseValue(v).value == 0 then DefaultDuration else Js.ParseValue(v).value
  {
    Js.OrElse(Js.ParseValue(v), DefaultDuration)
  }

  /** The instant named by `time` on the day of `base`. Only a string has a
      `split` method: anything else throws, which the handler answers with 500. */
  function ClockOn(base: Option<Instant>, time: Js.Value): (r: Result<Option<Instant>, Rejection>)
    ensures r.Failure? <==> !time.Str?
    ensures r.Failure? ==> r.error == ServerError
  {
    match time
    case Str(s) => Success(SetClock(base, s))
    case _ => Failure(ServerError)
  }

  /** The checks a new start goes through, in order, the first failure deciding:
      not in the past, inside working hours, free of conflicts. A comparison
      with an Invalid Date is false, so such a start passes the first check
      and fails the second. */
  function CheckSlot(check: ConflictCheck, store: Store, now: Instant, doctorId: DoctorId, start: Option<Instant>,
                     duration: int, exclude: Option<AppointmentId>): (r: Result<Instant, Rejection>)
    ensures r.Success? ==> start == Some(r.value) && now <= r.value && IsWithinWorkingHours(start)
    ensures r.Success? ==> SlotOpen(check, store, doctorId, r.value, duration, exclude)
    ensures r.Failure? ==> r.error in {PastAppointment, OutsideWorkingHours, SlotUnavailable}
    ensures r == Failure(PastAppointment) <==> start.Some? && start.value < now
    ensures r == Failure(OutsideWorkingHours) <==> !(start.Some? && start.value < now) && !IsWithinWorkingHours(start)
  {
    if start.Some? && start.value < now then Failure(PastAppointment)
    else if !IsWithinWorkingHours(start) then Failure(OutsideWorkingHours)
    else if !SlotOpen(check, store, doctorId, start.value, duration, exclude) then Failure(SlotUnavailable)
    else Success(start.value)
  }

  /** POST `/`: book an appointment. */
  function Create(check: ConflictCheck, doctors: Registry, store: Store, now: Instant, body: CreateBody, newId: AppointmentId): (r: Step)
    requires newId !in store
    ensures r.reply.Created? || r.reply.Rejected?
    ensures r.reply.Rejected? <==> r.store == store
    ensures r.reply == Rejected(DoctorNotFound) <==> body.doctorId !in doctors
    ensures r.reply.Rejected? && body.doctorId in doctors && body.time.Str? ==>
      r.reply.reason in {PastAppointment, OutsideWorkingHours, SlotUnavailable, ServerError}
    ensures r.reply.Created? ==>
      var a := r.reply.appointment;
      && r.reply.id == newId
      && r.store == store[newId := a]
      && |r.store| == |store| + 1
      && ValidAppointment(a)
      && body.time.Str? && SetClock(NewDate(body.date), body.time.s) == Some(a.start)
      && now <= a.start && IsWithinWorkingHours(Some(a.start))
      && SlotOpen(check, store, body.doctorId, a.start, a.duration, None)
      && a == NewAppointment(body.doctorId, a.start, Some(RequestedDuration(body.duration)),
                             body.appointmentType, body.patientName, body.notes)
  {
    if body.doctorId !in doctors then Step(Rejected(DoctorNotFound), store)
    else match ClockOn(NewDate(body.date), body.time)
      case Failure(e) => Step(Rejected(e), store)
      case Success(start) =>
        var duration := RequestedDuration(body.duration);
        match CheckSlot(check, store, now, body.doctorId, start, duration, None)
        case Failure(e) => Step(Rejected(e), store)
        case Success(t) =>
          var a := NewAppointment(body.doctorId, t, Some(duration), body.appointmentType,
                                  body.patientName, body.notes);
          if !ValidAppointment(a) then Step(Rejected(ServerError), store)
          else
            assert newId !in store;
            Step(Created(newId, a), store[newId := a])
  }

  /** Copy the given fields verbatim onto a record. */
  function CopyFields(a: Appointment, f: FieldUpdates): (b: Appointment)
    ensures b.start == a.start && b.duration == a.duration
    ensures b.doctorId == f.doctorId.GetOr(a.doctorId)
    ensures b.patientName == f.patientName.GetOr(a.patientName)
    ensures b.appointmentType == if f.appointmentType.Some? then f.appointmentType else a.appointmentType
    ensures b.notes == if f.notes.Some? then f.notes else a.notes
  {
    Appointment(f.doctorId.GetOr(a.doctorId), a.start, a.duration,
                if f.appointmentType.Some? then f.appointmentType else a.appointmentType,
                f.patientName.GetOr(a.patientName),
                if f.notes.Some? then f.notes else a.notes)
  }

  /** Whether a reschedule body moves the appointment: a truthy date or time. */
  predicate Moves(body: PatchBody) {
    DateGiven(body.date) || Js.Truthy(body.time)
  }

  /** The date a reschedule starts from: the given date, or else the
      stored start. */
  function PatchBase(a: Appointment, date: DateArg): Option<Instant> {
    if DateGiven(date) then NewDate(date) else Some(a.start)
  }

  /** The start after a reschedule: unchanged unless the body moves the
      appointment; otherwise the given date (or the old one) at the given
      time (or midnight, when only a date is given), checked against the
      store with the appointment itself excluded and with the new duration
      when one is given, the old one otherwise. A truthy time that is not a
      string has no `split` and answers 500. */
  function NewStart(check: ConflictCheck, store: Store, now: Instant, id: AppointmentId, a: Appointment, body: PatchBody): (r: Result<Instant, Rejection>)
    ensures !Moves(body) ==> r == Success(a.start)
    ensures Moves(body) && r.Success? ==>
      && (Js.Truthy(body.time) ==> body.time.Str? && SetClock(PatchBase(a, body.date), body.time.s) == Some(r.value))
      && (!Js.Truthy(body.time) ==> PatchBase(a, body.date) == Some(r.value))
      && now <= r.value && IsWithinWorkingHours(Some(r.value))
      && SlotOpen(check, store, a.doctorId, r.value, Js.OrElse(Js.ParseValue(body.duration), a.duration), Some(id))
    ensures r.Failure? ==> Moves(body) && r.error in {ServerError, PastAppointment, OutsideWorkingHours, SlotUnavailable}
    ensures r == Failure(ServerError) <==> Js.Truthy(body.time) && !body.time.Str?
  {
    if !Moves(body) then Success(a.start)
    else
      var base := PatchBase(a, body.date);
      var moved := if Js.Truthy(body.time) then ClockOn(base, body.time) else Success(base);
      match moved
      case Failure(e) => Failure(e)
      case Success(start) =>
        CheckSlot(check, store, now, a.doctorId, start, Js.OrElse(Js.ParseValue(body.duration), a.duration), Some(id))
  }

  /** PATCH `/:id`: reschedule an appointment and copy the other fields. A
      truthy duration that does not parse is `NaN`, which the save refuses. */
  function Patch(check: ConflictCheck, store: Store, now: Instant, id: AppointmentId, body: PatchBody): (r: Step)
    ensures r.reply.Updated? || r.reply.Rejected?
    ensures id !in store ==> r == Step(Rejected(AppointmentNotFound), store)
    ensures r.reply.Rejected? ==> r.store == store
    ensures r.reply.Updated? ==>
      var b := r.reply.appointment;
      && id in store
      && r.reply.id == id
      && r.store == store[id := b]
      && r.store.Keys == store.Keys
      && ValidAppointment(b)
      && (!Moves(body) ==> b.start == store[id].start)
      && (Moves(body) && Js.Truthy(body.time) ==>
            body.time.Str? && SetClock(PatchBase(store[id], body.date), body.time.s) == Some(b.start))
      && (Moves(body) && !Js.Truthy(body.time) ==> PatchBase(store[id], body.date) == Some(b.start))
      && (Moves(body) ==>
            && now <= b.start && IsWithinWorkingHours(Some(b.start))
            && SlotOpen(check, store, store[id].doctorId, b.start,
                        Js.OrElse(Js.ParseValue(body.duration), store[id].duration), Some(id)))
      && (Js.Truthy(body.duration) ==> Js.ParseValue(body.duration) == Some(b.duration))
      && (!Js.Truthy(body.duration) ==> b.duration == store[id].duration)
      && b == CopyFields(b.(doctorId := store[id].doctorId, appointmentType := store[id].appointmentType,
                            patientName := store[id].patientName, notes := store[id].notes), body.others)
  {
    if id !in store then Step(Rejected(AppointmentNotFound), store)
    else
      var a := store[id];
      match NewStart(check, store, now, id, a, body)
      case Failure(e) => Step(Rejected(e), store)
      case Success(start) =>
        var duration := if Js.Truthy(body.duration) then Js.ParseValue(body.duration) else Some(a.duration);
        if duration.None? then Step(Rejected(ServerError), store)
        else
          var b := CopyFields(a.(start := start, duration := duration.value), body.others);
          if !ValidAppointment(b) then Step(Rejected(ServerError), store)
          else Step(Updated(id, b), store[id := b])
  }

  /** The clock is set on the stored `Date` object itself: a truthy time
      and no date. */
  predicate InPlaceClock(body: PatchBody) {
    !DateGiven(body.date) && Js.Truthy(body.time)
  }

  /** PATCH `/:id` as the database sees it. With a time and no date the
      handler calls `setHours` on the stored `Date` object and assigns that
      same object back; Mongoose does not notice a change made inside a
      `Date`, so `save()` writes every other changed field but keeps the
      old start. The reply is the document in memory, with the new start.
      `Patch` is the reschedule with the new start saved. */
  function PatchAsWritten(check: ConflictCheck, store: Store, now: Instant, id: AppointmentId, body: PatchBody): (r: Step)
    ensures r.reply == Patch(check, store, now, id, body).reply
    ensures r.reply.Rejected? ==> r.store == store
    ensures r.reply.Updated? ==>
      && id in store
      && r.store.Keys == store.Keys
      && (forall k :: k in store && k != id ==> r.store[k] == store[k])
      && r.store[id].start == (if InPlaceClock(body) then store[id].start else r.reply.appointment.start)
      && r.store[id] == r.reply.appointment.(start := r.store[id].start)
  {
    var r := Patch(check, store, now, id, body);
    if r.reply.Updated? && InPlaceClock(body) then
      Step(r.reply, store[id := r.reply.appointment.(start := store[id].start)])
    else r
  }

  /** DELETE `/:id`: cancel an appointment. */
  function Delete(store: Store, id: AppointmentId): (r: Step)
    ensures id !in store ==> r == Step(Rejected(AppointmentNotFound), store)
    ensures id in store ==> r.reply == Cancelled
    ensures id in store ==> r.store.Keys == store.Keys - {id} && |r.store| == |store| - 1
    ensures forall k :: k in r.store ==> k in store && r.store[k] == store[k]
  {
    if id !in store then Step(Rejected(AppointmentNotFound), store)
    else Step(Cancelled, store - {id})
  }

  /** GET `/`: every stored appointment once, by ascending start. */
  method ListAll(store: Store) returns (entries: seq<Entry>)
    ensures Order.SortedByStart(entries)
    ensures Order.IdsOf(entries) == store.Keys
    ensures Order.DistinctIds(entries) && |entries| == |store|
    ensures forall i :: 0 <= i < |entries| ==> entries[i].id in store && store[entries[i].id] == entries[i].appointment
  {
    var remaining := store.Keys;
    entries := [];
    while remaining != {}
      invariant Listing(store, entries, remaining)
      decreases |remaining|
    {
      var k :| k in remaining;
      ListingStep(store, entries, remaining, k);
      entries := Order.Insert(entries, Entry(k, store[k]));
      remaining := remaining - {k};
    }
    forall i | 0 <= i < |entries| ensures entries[i].id in store && store[entries[i].id] == entries[i].appointment {
      assert entries[i] in entries;
    }
  }

  /** The listing so far: sorted by start, every stored id outside
      `remaining` listed once, each with its stored appointment. */
  ghost predicate Listing(store: Store, entries: seq<Entry>, remaining: set<AppointmentId>) {
    && remaining <= store.Keys
    && Order.SortedByStart(entries) && Order.DistinctIds(entries)
    && Order.IdsOf(entries) == store.Keys - remaining
    && |entries| + |remaining| == |store|
    && forall e :: e in entries ==> e.id in store && store[e.id] == e.appointment
  }

  /** Inserting one remaining stored appointment extends the listing. */
  lemma ListingStep(store: Store, entries: seq<Entry>, remaining: set<AppointmentId>, k: AppointmentId)
    requires Listing(store, entries, remaining) && k in remaining
    ensures Listing(store, Order.Insert(entries, Entry(k, store[k])), remaining - {k})
  {
    var e := Entry(k, store[k]);
    Order.InsertIds(entries, e);
    Order.InsertMembers(entries, e);
  }

  /** GET `/date/:date`: the appointments, of every doctor, whose start lies
      between the first and the last minute of the day. */
  function OnDate(store: Store, day: int): (r: Store)
    ensures forall id :: id in r <==> id in store && StartOfDay(day) <= store[id].start <= EndOfDay(day)
    ensures forall id :: id in r ==> r[id] == store[id]
  {
    assert forall id :: id in store ==> (DayOf(store[id].start) == day <==> StartOfDay(day) <= store[id].start <= EndOfDay(day));
    map id | id in store && DayOf(store[id].start) == day :: store[id]
  }

  // ---------------------------------------------------------------------
  // Properties of the conflict and working-hours checks

  /** An appointment of another doctor never blocks a booking. */
  lemma OtherDoctorsNeverBlock(check: ConflictCheck, store: Store, doctorId: DoctorId, start: Instant, duration: int,
                               exclude: Option<AppointmentId>, id: AppointmentId, a: Appointment)
    requires a.doctorId != doctorId
    ensures SlotOpen(check, store[id := a], doctorId, start, duration, exclude)
        <==> SlotOpen(check, store - {id}, doctorId, start, duration, exclude)
  {
  }

  /** The excluded appointment never blocks: checking with `exclude` is
      checking the store without it. */
  lemma ExcludedNeverBlocks(check: ConflictCheck, store: Store, doctorId: DoctorId, start: Instant, duration: int, id: AppointmentId)
    ensures SlotOpen(check, store, doctorId, start, duration, Some(id))
        <==> SlotOpen(check, store - {id}, doctorId, start, duration, None)
  {
  }

  /** The working-hours check is the clock window 09:00 to 16:59 whatever
      the minutes, the duration or the doctor's configured hours: a one-hour
      booking at 16:59 passes, one at 17:00 does not. */
  lemma WorkingHoursWindow(t: Instant)
    ensures IsWithinWorkingHours(Some(t)) <==> 540 <= MinuteOfDay(t) < 1020
    ensures IsWithinWorkingHours(Some(StartOfDay(DayOf(t)) + 16 * 60 + 59))
    ensures !IsWithinWorkingHours(Some(StartOfDay(DayOf(t)) + 17 * 60))
    ensures !IsWithinWorkingHours(Some(StartOfDay(DayOf(t)) + 8 * 60 + 59))
  {
    SetHoursInRange(t, 16, 59);
    SetHoursInRange(t, 17, 0);
    SetHoursInRange(t, 8, 59);
  }

  // ---------------------------------------------------------------------
  // Booking

  /** The order of the booking checks, first failure deciding: unknown
      doctor, then a start in the past, then outside working hours, then a
      taken slot, then the schema validation of the save. */
  lemma CreateDecision(check: ConflictCheck, doctors: Registry, store: Store, now: Instant, body: CreateBody, newId: AppointmentId)
    requires newId !in store
    requires body.time.Str?
    ensures var r := Create(check, doctors, store, now, body, newId);
      var start := SetClock(NewDate(body.date), body.time.s);
      var duration := RequestedDuration(body.duration);
      var a := NewAppointment(body.doctorId, start.GetOr(0), Some(duration), body.appointmentType,
                              body.patientName, body.notes);
      var known := body.doctorId in doctors;
      var past := start.Some? && start.value < now;
      var free := start.Some? && SlotOpen(check, store, body.doctorId, start.value, duration, None);
      && (!known ==> r.reply == Rejected(DoctorNotFound))
      && (known && past ==> r.reply == Rejected(PastAppointment))
      && (known && !past && !IsWithinWorkingHours(start) ==> r.reply == Rejected(OutsideWorkingHours))
      && (known && !past && IsWithinWorkingHours(start) && !free ==> r.reply == Rejected(SlotUnavailable))
      && (known && !past && IsWithinWorkingHours(start) && free && ValidAppointment(a) ==> r.reply == Created(newId, a))
      && (known && !past && IsWithinWorkingHours(start) && free && !ValidAppointment(a) ==> r.reply == Rejected(ServerError))
  {
  }

  /** A request without a time string is answered with 500 once the doctor is found. */
  lemma CreateWithoutTimeFails(check: ConflictCheck, doctors: Registry, store: Store, now: Instant, body: CreateBody, newId: AppointmentId)
    requires newId !in store && body.doctorId in doctors && !body.time.Str?
    ensures Create(check, doctors, store, now, body, newId) == Step(Rejected(ServerError), store)
  {
  }

  /** Every booking before `now` is refused, for every doctor. */
  lemma CreateRejectsPast(check: ConflictCheck, doctors: Registry, store: Store, now: Instant, body: CreateBody, newId: AppointmentId)
    requires newId !in store && body.doctorId in doctors && body.time.Str?
    requires SetClock(NewDate(body.date), body.time.s).Some?
    requires SetClock(NewDate(body.date), body.time.s).value < now
    ensures Create(check, doctors, store, now, body, newId) == Step(Rejected(PastAppointment), store)
  {
  }

  /** The stored start is the requested day at the requested clock time. */
  lemma CreateStart(check: ConflictCheck, doctors: Registry, store: Store, now: Instant, body: CreateBody, newId: AppointmentId,
                    day: int, h: nat, m: nat)
    requires newId !in store && h < 24 && m < 60
    requires body.date == OnDay(day) && body.time == Js.Str(Label(h, m))
    requires Create(check, doctors, store, now, body, newId).reply.Created?
    ensures Create(check, doctors, store, now, body, newId).reply.appointment.start == StartOfDay(day) + h * 60 + m
  {
    SetClockOnDay(day, h, m);
    HourOfClock(day, h, m);
  }

  /** A duration that is neither 30 nor 60 (after `|| 30`) passes the checks
      and then fails the save: the answer is 500 and nothing is stored. */
  lemma CreateOddDurationFails(check: ConflictCheck, doctors: Registry, store: Store, now: Instant, body: CreateBody, newId: AppointmentId)
    requires newId !in store && body.doctorId in doctors && body.time.Str?
    requires !AllowedDuration(RequestedDuration(body.duration))
    ensures Create(check, doctors, store, now, body, newId).store == store
    ensures Create(check, doctors, store, now, body, newId).reply.Rejected?
    ensures var start := SetClock(NewDate(body.date), body.time.s);
      start.Some? && now <= start.value && IsWithinWorkingHours(start)
      && SlotOpen(check, store, body.doctorId, start.value, RequestedDuration(body.duration), None)
      ==> Create(check, doctors, store, now, body, newId).reply == Rejected(ServerError)
  {
  }

  /** A missing, zero or non-numeric duration books 30 minutes. */
  lemma CreateDefaultDuration(v: Js.Value)
    requires v.Undefined? || v == Js.Num(0) || (v.Str? && |v.s| > 0 && !Js.IsDigit(v.s[0])
                                               && !Js.IsSpace(v.s[0]) && v.s[0] != '-' && v.s[0] != '+')
    ensures RequestedDuration(v) == 30
  {
    if v.Str? {
      assert Js.TrimStart(v.s) == v.s;
    }
  }

  /** `parseInt` with no radix reads a `0x` prefix in base 16: a duration
      of "0x3C" books 60 minutes. */
  lemma HexDuration()
    ensures RequestedDuration(Js.Str("0x3C")) == 60
  {
    Js.HexSixty();
  }

  // ---------------------------------------------------------------------
  // Rescheduling

  /** The order of the reschedule checks, first failure deciding: unknown
      id, then, when the body moves the appointment, a time without `split`,
      a start in the past, outside working hours and a taken slot; then a
      duration that does not parse and the schema validation of the save.
      The new start is the given date, or else the old start, at the given
      time when there is one. */
  lemma PatchDecision(check: ConflictCheck, store: Store, now: Instant, id: AppointmentId, body: PatchBody)
    requires id in store
    ensures var r := Patch(check, store, now, id, body);
      var a := store[id];
      var base := PatchBase(a, body.date);
      var thrown := Js.Truthy(body.time) && !body.time.Str?;
      var start := if Js.Truthy(body.time) && body.time.Str? then SetClock(base, body.time.s) else base;
      var past := start.Some? && start.value < now;
      var free := start.Some? && SlotOpen(check, store, a.doctorId, start.value,
                                          Js.OrElse(Js.ParseValue(body.duration), a.duration), Some(id));
      var passed := !Moves(body) || (!thrown && !past && IsWithinWorkingHours(start) && free);
      var duration := if Js.Truthy(body.duration) then Js.ParseValue(body.duration) else Some(a.duration);
      var b := CopyFields(a.(start := start.GetOr(0), duration := duration.GetOr(0)), body.others);
      && (thrown ==> r.reply == Rejected(ServerError))
      && (Moves(body) && !thrown && past ==> r.reply == Rejected(PastAppointment))
      && (Moves(body) && !thrown && !past && !IsWithinWorkingHours(start) ==> r.reply == Rejected(OutsideWorkingHours))
      && (Moves(body) && !thrown && !past && IsWithinWorkingHours(start) && !free ==> r.reply == Rejected(SlotUnavailable))
      && (passed && duration.None? ==> r.reply == Rejected(ServerError))
      && (passed && duration.Some? && ValidAppointment(b) ==> r == Step(Updated(id, b), store[id := b]))
      && (passed && duration.Some? && !ValidAppointment(b) ==> r.reply == Rejected(ServerError))
  {
  }

  /** Without a date or time, nothing is checked, even when the duration
      changes: only the duration and the copied fields change. */
  lemma PatchWithoutMoveSkipsChecks(check: ConflictCheck, store: Store, now: Instant, id: AppointmentId, minutes: int, others: FieldUpdates)
    requires id in store && minutes != 0
    requires ValidAppointment(CopyFields(store[id].(duration := minutes), others))
    ensures Patch(check, store, now, id, PatchBody(NoDate, Js.Undefined, Js.Num(minutes), others))
         == var b := CopyFields(store[id].(duration := minutes), others);
            Step(Updated(id, b), store[id := b])
  {
  }

  /** Moving to a date without a time puts the start at midnight, which is
      always refused: in the past, or outside working hours. */
  lemma PatchDateOnlyRejected(check: ConflictCheck, store: Store, now: Instant, id: AppointmentId, day: int, duration: Js.Value, others: FieldUpdates)
    requires id in store
    ensures var r := Patch(check, store, now, id, PatchBody(OnDay(day), Js.Undefined, duration, others));
      r.store == store && r.reply.Rejected? && r.reply.reason in {PastAppointment, OutsideWorkingHours}
  {
    assert HourOf(StartOfDay(day)) == 0 by {
      DivModUnique(StartOfDay(day), day, 0);
    }
  }

  /** As written, a reschedule that gives a time and no date answers with
      the start the time names on the old day, but the database keeps the
      old start: what it stores is the reply exactly when the time names
      the old start again. */
  lemma TimeOnlyMoveNotSaved(check: ConflictCheck, store: Store, now: Instant, id: AppointmentId, body: PatchBody)
    requires InPlaceClock(body) && Patch(check, store, now, id, body).reply.Updated?
    ensures var r := PatchAsWritten(check, store, now, id, body);
      var b := r.reply.appointment;
      && r.store[id].start == store[id].start
      && body.time.Str? && SetClock(Some(store[id].start), body.time.s) == Some(b.start)
      && (r.store[id] == b <==> b.start == store[id].start)
  {
    var r := PatchAsWritten(check, store, now, id, body);
    assert PatchBase(store[id], body.date) == Some(store[id].start);
    if r.store[id] == r.reply.appointment {
      assert r.reply.appointment.start == r.store[id].start;
    }
  }

  /** A lone 30-minute appointment at `t`, rescheduled by a time alone to
      `t2` on the same day: the reply reports the move. */
  lemma TimeOnlyMoveAnswers(check: ConflictCheck, now: Instant, doctorId: DoctorId, t: Instant, time: string, t2: Instant)
    requires SetClock(Some(t), time) == Some(t2) && now <= t2 && IsWithinWorkingHours(Some(t2))
    ensures var store := map[1 := Appointment(doctorId, t, 30, None, "Ann", None)];
      var body := PatchBody(NoDate, Js.Str(time), Js.Undefined, FieldUpdates(None, None, None, None));
      var moved := Appointment(doctorId, t2, 30, None, "Ann", None);
      Patch(check, store, now, 1, body) == Step(Updated(1, moved), map[1 := moved])
  {
    var a := Appointment(doctorId, t, 30, None, "Ann", None);
    var moved := a.(start := t2);
    var body := PatchBody(NoDate, Js.Str(time), Js.Undefined, FieldUpdates(None, None, None, None));
    LoneMoveStart(check, now, a, time, t2);
    assert CopyFields(moved, body.others) == moved;
    assert ValidAppointment(moved);
    assert map[1 := a][1 := moved] == map[1 := moved];
  }

  /** A time alone moves the only stored appointment to the minute it
      names: nothing else is there to conflict with it. */
  lemma LoneMoveStart(check: ConflictCheck, now: Instant, a: Appointment, time: string, t2: Instant)
    requires SetClock(Some(a.start), time) == Some(t2) && now <= t2 && IsWithinWorkingHours(Some(t2))
    ensures NewStart(check, map[1 := a], now, 1, a, PatchBody(NoDate, Js.Str(time), Js.Undefined, FieldUpdates(None, None, None, None)))
         == Success(t2)
  {
    LoneCheck(check, now, a, t2);
    assert ClockOn(Some(a.start), Js.Str(time)) == Success(Some(t2));
  }

  /** The only stored appointment, excluded, passes every check at a
      minute in working hours that is not past. */
  lemma LoneCheck(check: ConflictCheck, now: Instant, a: Appointment, t2: Instant)
    requires now <= t2 && IsWithinWorkingHours(Some(t2))
    ensures CheckSlot(check, map[1 := a], now, a.doctorId, Some(t2), Js.OrElse(Js.ParseValue(Js.Undefined), a.duration), Some(1))
         == Success(t2)
  {
    AloneNeverBlocked(check, a, t2, a.duration);
  }

  /** With the only stored appointment excluded, every slot is open. */
  lemma AloneNeverBlocked(check: ConflictCheck, a: Appointment, t2: Instant, duration: int)
    ensures SlotOpen(check, map[1 := a], a.doctorId, t2, duration, Some(1))
  {
    ExcludedNeverBlocks(check, map[1 := a], a.doctorId, t2, duration, 1);
    assert map[1 := a] - {1} == map[];
  }

  /** The reschedule of `TimeOnlyMoveAnswers` as written: the reply reports
      the move, and the database still holds the appointment at `t`. */
  lemma TimeOnlyMoveLost(check: ConflictCheck, now: Instant, doctorId: DoctorId, t: Instant, time: string, t2: Instant)
    requires SetClock(Some(t), time) == Some(t2) && now <= t2 && IsWithinWorkingHours(Some(t2)) && t2 != t
    ensures var store := map[1 := Appointment(doctorId, t, 30, None, "Ann", None)];
      var body := PatchBody(NoDate, Js.Str(time), Js.Undefined, FieldUpdates(None, None, None, None));
      var r := PatchAsWritten(check, store, now, 1, body);
      && r == Step(Updated(1, Appointment(doctorId, t2, 30, None, "Ann", None)), store)
      && r.store[1] != r.reply.appointment
  {
    var store := map[1 := Appointment(doctorId, t, 30, None, "Ann", None)];
    TimeOnlyMoveAnswers(check, now, doctorId, t, time, t2);
    assert store[1 := store[1]] == store;
  }

  /** The same reschedule with the new start saved: the database holds the
      appointment at `t2`, as the reply says. */
  lemma TimeOnlyMoveSaved(check: ConflictCheck, now: Instant, doctorId: DoctorId, t: Instant, time: string, t2: Instant)
    requires SetClock(Some(t), time) == Some(t2) && now <= t2 && IsWithinWorkingHours(Some(t2))
    ensures var store := map[1 := Appointment(doctorId, t, 30, None, "Ann", None)];
      var body := PatchBody(NoDate, Js.Str(time), Js.Undefined, FieldUpdates(None, None, None, None));
      var r := Patch(check, store, now, 1, body);
      r.reply.Updated? && r.store[1] == r.reply.appointment && r.store[1].start == t2
  {
    TimeOnlyMoveAnswers(check, now, doctorId, t, time, t2);
  }

  /** On success only the rescheduled record changes; every other stays as it was. */
  lemma PatchTouchesOnlyItsRecord(check: ConflictCheck, store: Store, now: Instant, id: AppointmentId, body: PatchBody, other: AppointmentId)
    requires other in store && other != id
    ensures var r := Patch(check, store, now, id, body); other in r.store && r.store[other] == store[other]
  {
  }

  /** Rescheduling an appointment to its own day, clock time and duration
      succeeds and leaves the store as it was: it never conflicts with
      itself. `time` is any clock string naming the start on that day, such
      as the page's label of it (`ClockAt`). */
  lemma PatchToOwnSlot(check: ConflictCheck, store: Store, now: Instant, id: AppointmentId, day: int, time: string)
    requires id in store && ValidAppointment(store[id])
    requires SetClock(Some(StartOfDay(day)), time) == Some(store[id].start)
    requires IsWithinWorkingHours(Some(store[id].start)) && now <= store[id].start
    requires SlotOpen(check, store - {id}, store[id].doctorId, store[id].start, store[id].duration, None)
    ensures var body := PatchBody(OnDay(day), Js.Str(time), Js.Num(store[id].duration),
                                  FieldUpdates(None, None, None, None));
      Patch(check, store, now, id, body) == Step(Updated(id, store[id]), store)
  {
    var a := store[id];
    var body := PatchBody(OnDay(day), Js.Str(time), Js.Num(a.duration), FieldUpdates(None, None, None, None));
    OwnSlotStart(check, store, now, id, day, time);
    assert Js.ParseValue(body.duration) == Some(a.duration);
    assert CopyFields(a.(start := a.start, duration := a.duration), body.others) == a;
    assert store[id := a] == store;
  }

  /** The new start of `PatchToOwnSlot` passes every check. */
  lemma OwnSlotStart(check: ConflictCheck, store: Store, now: Instant, id: AppointmentId, day: int, time: string)
    requires id in store
    requires SetClock(Some(StartOfDay(day)), time) == Some(store[id].start)
    requires IsWithinWorkingHours(Some(store[id].start)) && now <= store[id].start
    requires SlotOpen(check, store - {id}, store[id].doctorId, store[id].start, store[id].duration, None)
    ensures var body := PatchBody(OnDay(day), Js.Str(time), Js.Num(store[id].duration),
                                  FieldUpdates(None, None, None, None));
      NewStart(check, store, now, id, store[id], body) == Success(store[id].start)
  {
    var a := store[id];
    ExcludedNeverBlocks(check, store, a.doctorId, a.start, a.duration, id);
    assert Js.OrElse(Js.ParseValue(Js.Num(a.duration)), a.duration) == a.duration;
    CheckSlotPasses(check, store, now, a.doctorId, a.start, a.duration, Some(id));
  }

  /** A start that is not past, inside working hours and available passes the checks. */
  lemma CheckSlotPasses(check: ConflictCheck, store: Store, now: Instant, doctorId: DoctorId, t: Instant, duration: int,
                        exclude: Option<AppointmentId>)
    requires now <= t && IsWithinWorkingHours(Some(t))
    requires SlotOpen(check, store, doctorId, t, duration, exclude)
    ensures CheckSlot(check, store, now, doctorId, Some(t), duration, exclude) == Success(t)
  {
  }

  /** A label on a day names that day's clock time, inside working hours
      exactly when its hour is. */
  lemma ClockAt(day: int, h: nat, m: nat)
    requires h < 24 && m < 60
    ensures SetClock(Some(StartOfDay(day)), Label(h, m)) == Some(StartOfDay(day) + h * 60 + m)
    ensures HourOf(StartOfDay(day) + h * 60 + m) == h
  {
    SetClockOnDay(day, h, m);
    HourOfClock(day, h, m);
  }

  // ---------------------------------------------------------------------
  // Cancelling

  /** Cancelling twice: the second attempt answers 404 and changes nothing. */
  lemma DeleteTwiceNotFound(store: Store, id: AppointmentId)
    ensures var once := Delete(store, id).store;
      Delete(once, id) == Step(Rejected(AppointmentNotFound), once)
  {
  }

  // ---------------------------------------------------------------------
  // Store invariants

  /** Writing a valid record keeps every stored record valid for the schema. */
  lemma WriteKeepsValid(store: Store, id: AppointmentId, a: Appointment)
    requires ValidStore(store) && ValidAppointment(a)
    ensures ValidStore(store[id := a])
  {
  }

  /** Booking keeps every stored record valid for the schema. */
  lemma CreateKeepsStoreValid(check: ConflictCheck, doctors: Registry, store: Store, now: Instant, body: CreateBody, newId: AppointmentId)
    requires ValidStore(store) && newId !in store
    ensures ValidStore(Create(check, doctors, store, now, body, newId).store)
  {
    var r := Create(check, doctors, store, now, body, newId);
    if r.reply.Created? {
      WriteKeepsValid(store, newId, r.reply.appointment);
    }
  }

  /** Rescheduling keeps every stored record valid for the schema. */
  lemma PatchKeepsStoreValid(check: ConflictCheck, store: Store, now: Instant, id: AppointmentId, body: PatchBody)
    requires ValidStore(store)
    ensures ValidStore(Patch(check, store, now, id, body).store)
  {
    var r := Patch(check, store, now, id, body);
    if r.reply.Updated? {
      WriteKeepsValid(store, id, r.reply.appointment);
    }
  }

  /** Cancelling keeps every stored record valid for the schema. */
  lemma DeleteKeepsStoreValid(store: Store, id: AppointmentId)
    requires ValidStore(store)
    ensures ValidStore(Delete(store, id).store)
  {
  }

  /** No two appointments of one doctor share an instant of their half-open spans. */
  ghost predicate NoOverlap(store: Store) {
    forall i, j :: i in store && j in store && i != j && store[i].doctorId == store[j].doctorId
      ==> !Overlaps(store[i].start, store[i].End(), store[j].start, store[j].End())
  }

  /** The conflict check the booking routes evidently intend: no other
      appointment of the doctor overlaps [start, start + duration). */
  predicate IsSlotFree(store: Store, doctorId: DoctorId, start: Instant, duration: int,
                       exclude: Option<AppointmentId>)
  {
    forall id :: id in store && exclude != Some(id) ==>
      !(store[id].doctorId == doctorId && Overlaps(start, start + duration, store[id].start, store[id].End()))
  }

  /** With the intended check, writing the record (a new id, or the one
      excluded from the check) keeps the doctors' schedules free of overlaps. */
  lemma FreeSlotKeepsNoOverlap(store: Store, id: AppointmentId, a: Appointment)
    requires NoOverlap(store)
    requires IsSlotFree(store, a.doctorId, a.start, a.duration, Some(id))
    ensures NoOverlap(store[id := a])
  {
    var s := store[id := a];
    forall i, j | i in s && j in s && i != j && s[i].doctorId == s[j].doctorId
      ensures !Overlaps(s[i].start, s[i].End(), s[j].start, s[j].End())
    {
      if i == id {
        assert !Overlaps(a.start, a.start + a.duration, store[j].start, store[j].End());
      } else if j == id {
        assert !Overlaps(a.start, a.start + a.duration, store[i].start, store[i].End());
      }
    }
  }

  /** The intended test is the stricter one: with no negative durations
      stored, a slot free of overlaps has no start strictly inside it either. */
  lemma FreeSlotIsAvailable(store: Store, doctorId: DoctorId, start: Instant, duration: int,
                            exclude: Option<AppointmentId>)
    requires forall id :: id in store ==> store[id].duration >= 0
    requires IsSlotFree(store, doctorId, start, duration, exclude)
    ensures IsSlotAvailable(store, doctorId, start, duration, exclude)
  {
  }

  /** Booking with the intended test never double-books a doctor. */
  lemma CreateKeepsNoOverlap(doctors: Registry, store: Store, now: Instant, body: CreateBody, newId: AppointmentId)
    requires newId !in store && NoOverlap(store)
    ensures NoOverlap(Create(AnyOverlap, doctors, store, now, body, newId).store)
  {
    var r := Create(AnyOverlap, doctors, store, now, body, newId);
    if r.reply.Created? {
      var a := r.reply.appointment;
      assert a.doctorId == body.doctorId;
      FreeSlotKeepsNoOverlap(store, newId, a);
    }
  }

  /** Moving an appointment with the intended test, its doctor unchanged,
      never double-books a doctor. */
  lemma PatchMoveKeepsNoOverlap(store: Store, now: Instant, id: AppointmentId, body: PatchBody)
    requires NoOverlap(store) && Moves(body) && body.others.doctorId.None?
    ensures NoOverlap(Patch(AnyOverlap, store, now, id, body).store)
  {
    var r := Patch(AnyOverlap, store, now, id, body);
    if r.reply.Updated? {
      var a, b := store[id], r.reply.appointment;
      var checked := Js.OrElse(Js.ParseValue(body.duration), a.duration);
      assert NewStart(AnyOverlap, store, now, id, a, body) == Success(b.start);
      assert b.doctorId == a.doctorId;
      assert b.duration == checked by {
        if Js.Truthy(body.duration) {
          assert Js.ParseValue(body.duration) == Some(b.duration);
          assert AllowedDuration(b.duration);
        }
      }
      FreeSlotKeepsNoOverlap(store, id, b);
    }
  }

  /** The intended test guards only a move, and only against the old
      doctor. Lengthening an appointment to an hour without moving it runs
      no check at all, and the doctor's next appointment then overlaps it. */
  lemma PatchLengthenDoubleBooks(now: Instant, doctorId: DoctorId, t: Instant)
    ensures var store := map[1 := Appointment(doctorId, t, 30, None, "Ann", None),
                             2 := Appointment(doctorId, t + 30, 30, None, "Bob", None)];
      var r := Patch(AnyOverlap, store, now, 1, PatchBody(NoDate, Js.Undefined, Js.Num(60), FieldUpdates(None, None, None, None)));
      && NoOverlap(store)
      && r.reply == Updated(1, Appointment(doctorId, t, 60, None, "Ann", None))
      && !NoOverlap(r.store)
  {
    var first := Appointment(doctorId, t, 30, None, "Ann", None);
    var longer := Appointment(doctorId, t, 60, None, "Ann", None);
    var next := Appointment(doctorId, t + 30, 30, None, "Bob", None);
    var store := map[1 := first, 2 := next];
    TwoApart(first, next);
    assert ValidAppointment(longer);
    PatchWithoutMoveSkipsChecks(AnyOverlap, store, now, 1, 60, FieldUpdates(None, None, None, None));
    assert store[1 := longer] == map[1 := longer, 2 := next];
    TwoOverlap(longer, next);
  }

  /** Handing an appointment to another doctor without moving it runs no
      check either: it lands on top of that doctor's appointment. */
  lemma PatchDoctorChangeDoubleBooks(now: Instant, first: DoctorId, second: DoctorId, t: Instant)
    requires first != second
    ensures var store := map[1 := Appointment(first, t, 30, None, "Ann", None),
                             2 := Appointment(second, t, 30, None, "Bob", None)];
      var r := Patch(AnyOverlap, store, now, 1, PatchBody(NoDate, Js.Undefined, Js.Undefined, FieldUpdates(Some(second), None, None, None)));
      && NoOverlap(store)
      && r.reply == Updated(1, Appointment(second, t, 30, None, "Ann", None))
      && !NoOverlap(r.store)
  {
    var mine := Appointment(first, t, 30, None, "Ann", None);
    var moved := Appointment(second, t, 30, None, "Ann", None);
    var other := Appointment(second, t, 30, None, "Bob", None);
    var store := map[1 := mine, 2 := other];
    var body := PatchBody(NoDate, Js.Undefined, Js.Undefined, FieldUpdates(Some(second), None, None, None));
    TwoApart(mine, other);
    assert NewStart(AnyOverlap, store, now, 1, mine, body) == Success(t);
    assert CopyFields(mine, body.others) == moved;
    assert ValidAppointment(moved);
    assert store[1 := moved] == map[1 := moved, 2 := other];
    TwoOverlap(moved, other);
  }

  /** A store of two appointments of different doctors, or one after the
      other, has no overlap. */
  lemma TwoApart(a: Appointment, b: Appointment)
    requires a.doctorId != b.doctorId || a.End() <= b.start
    ensures NoOverlap(map[1 := a, 2 := b])
  {
  }

  /** A store of two overlapping appointments of one doctor double-books it. */
  lemma TwoOverlap(a: Appointment, b: Appointment)
    requires a.doctorId == b.doctorId && Overlaps(a.start, a.End(), b.start, b.End())
    ensures !NoOverlap(map[1 := a, 2 := b])
  {
    var s := map[1 := a, 2 := b];
    assert s[1] == a && s[2] == b;
  }

  /** As written, booking checks only whether an existing start falls
      strictly inside the new span: a 30-minute booking a quarter of an hour
      into a 60-minute appointment is accepted and stored, and the doctor,
      whose day had no overlap, is double-booked. `time` is any clock string
      that names that quarter past on the requested day, such as the one
      `WorkingClock` exhibits. */
  lemma CreateDoubleBooks(doctors: Registry, now: Instant, doctorId: DoctorId, day: int, time: string, t: Instant)
    requires doctorId in doctors && now <= t
    requires SetClock(Some(StartOfDay(day)), time) == Some(t + 15) && IsWithinWorkingHours(Some(t + 15))
    ensures var existing := Appointment(doctorId, t, 60, None, "Ann", None);
      var body := CreateBody(doctorId, OnDay(day), Js.Str(time), Js.Num(30), None, Some("Bob"), None);
      var a := Appointment(doctorId, t + 15, 30, None, "Bob", None);
      && Create(StartInside, doctors, map[1 := existing], now, body, 2) == Step(Created(2, a), map[1 := existing, 2 := a])
      && NoOverlap(map[1 := existing])
      && !NoOverlap(map[1 := existing, 2 := a])
  {
    var existing := Appointment(doctorId, t, 60, None, "Ann", None);
    BookingBesideExisting(doctors, now, doctorId, day, time, t);
    QuarterIntoOverlaps(existing, Appointment(doctorId, t + 15, 30, None, "Bob", None));
  }

  /** The request of `CreateDoubleBooks`, checked with the intended test, is
      refused as a taken slot and nothing is stored. */
  lemma IntendedRefusesDoubleBooking(doctors: Registry, now: Instant, doctorId: DoctorId, day: int, time: string, t: Instant)
    requires doctorId in doctors && now <= t
    requires SetClock(Some(StartOfDay(day)), time) == Some(t + 15) && IsWithinWorkingHours(Some(t + 15))
    ensures var existing := Appointment(doctorId, t, 60, None, "Ann", None);
      var body := CreateBody(doctorId, OnDay(day), Js.Str(time), Js.Num(30), None, Some("Bob"), None);
      Create(AnyOverlap, doctors, map[1 := existing], now, body, 2) == Step(Rejected(SlotUnavailable), map[1 := existing])
  {
    var existing := Appointment(doctorId, t, 60, None, "Ann", None);
    var body := CreateBody(doctorId, OnDay(day), Js.Str(time), Js.Num(30), None, Some("Bob"), None);
    BesideExistingTaken(now, existing, t + 15);
    HalfHourFor(doctorId, t + 15, "Bob");
    CreateRefuses(AnyOverlap, doctors, map[1 := existing], now, body, 2, t + 15, SlotUnavailable);
  }

  /** A clock time from 9:00 to 16:59 on any day is in working hours; with
      `t + 15` that time and `time` its label (`SetClockOnDay`), the clock
      string is one `CreateDoubleBooks` takes. */
  lemma WorkingClock(day: int, h: nat, m: nat)
    requires 9 <= h < 17 && m < 60
    ensures IsWithinWorkingHours(Some(StartOfDay(day) + h * 60 + m))
  {
    HourOfClock(day, h, m);
  }

  /** A quarter of an hour into `existing`, the intended test finds the slot taken. */
  lemma BesideExistingTaken(now: Instant, existing: Appointment, t: Instant)
    requires existing.duration == 60 && t == existing.start + 15 && now <= existing.start
    requires IsWithinWorkingHours(Some(t))
    ensures CheckSlot(AnyOverlap, map[1 := existing], now, existing.doctorId, Some(t), 30, None) == Failure(SlotUnavailable)
  {
    QuarterIntoOverlaps(existing, Appointment(existing.doctorId, t, 30, None, "Bob", None));
  }

  /** A booking whose clock names `t` and whose checks fail with `e` is refused with `e`. */
  lemma CreateRefuses(check: ConflictCheck, doctors: Registry, store: Store, now: Instant, body: CreateBody,
                      newId: AppointmentId, t: Instant, e: Rejection)
    requires newId !in store && body.doctorId in doctors && body.time.Str?
    requires SetClock(NewDate(body.date), body.time.s) == Some(t)
    requires CheckSlot(check, store, now, body.doctorId, Some(t), RequestedDuration(body.duration), None) == Failure(e)
    ensures Create(check, doctors, store, now, body, newId) == Step(Rejected(e), store)
  {
  }

  /** A 30-minute appointment a quarter of an hour into a 60-minute one of
      the same doctor overlaps it. */
  lemma QuarterIntoOverlaps(existing: Appointment, a: Appointment)
    requires a.doctorId == existing.doctorId && existing.duration == 60
    requires a.start == existing.start + 15 && a.duration == 30
    ensures NoOverlap(map[1 := existing])
    ensures !NoOverlap(map[1 := existing, 2 := a])
    ensures !IsSlotFree(map[1 := existing], a.doctorId, a.start, 30, None)
  {
    var s := map[1 := existing, 2 := a];
    assert s[1].doctorId == s[2].doctorId && Overlaps(s[1].start, s[1].End(), s[2].start, s[2].End());
  }

  /** The booking of `CreateDoubleBooks` goes through every check. */
  lemma BookingBesideExisting(doctors: Registry, now: Instant, doctorId: DoctorId, day: int, time: string, t: Instant)
    requires doctorId in doctors && now <= t
    requires SetClock(Some(StartOfDay(day)), time) == Some(t + 15) && IsWithinWorkingHours(Some(t + 15))
    ensures var existing := Appointment(doctorId, t, 60, None, "Ann", None);
      var body := CreateBody(doctorId, OnDay(day), Js.Str(time), Js.Num(30), None, Some("Bob"), None);
      var a := Appointment(doctorId, t + 15, 30, None, "Bob", None);
      Create(StartInside, doctors, map[1 := existing], now, body, 2) == Step(Created(2, a), map[1 := existing, 2 := a])
  {
    var existing := Appointment(doctorId, t, 60, None, "Ann", None);
    var body := CreateBody(doctorId, OnDay(day), Js.Str(time), Js.Num(30), None, Some("Bob"), None);
    BesideExistingChecks(now, existing, t + 15);
    HalfHourFor(doctorId, t + 15, "Bob");
    CreateAccepts(StartInside, doctors, map[1 := existing], now, body, 2, t + 15);
  }

  /** A request for 30 minutes under a non-empty name makes a valid record. */
  lemma HalfHourFor(doctorId: DoctorId, t: Instant, name: string)
    requires name != ""
    ensures RequestedDuration(Js.Num(30)) == 30
    ensures NewAppointment(doctorId, t, Some(30), None, Some(name), None) == Appointment(doctorId, t, 30, None, name, None)
    ensures ValidAppointment(Appointment(doctorId, t, 30, None, name, None))
  {
    assert Js.ParseValue(Js.Num(30)) == Some(30);
  }

  /** A quarter of an hour into `existing`, in working hours and not in the
      past, no existing start falls strictly inside 30 minutes: the checks pass. */
  lemma BesideExistingChecks(now: Instant, existing: Appointment, t: Instant)
    requires t == existing.start + 15 && now <= existing.start && IsWithinWorkingHours(Some(t))
    ensures CheckSlot(StartInside, map[1 := existing], now, existing.doctorId, Some(t), 30, None) == Success(t)
  {
    assert IsSlotAvailable(map[1 := existing], existing.doctorId, t, 30, None);
    CheckSlotPasses(StartInside, map[1 := existing], now, existing.doctorId, t, 30, None);
  }

  /** A booking whose clock names `t` and whose checks all pass is stored under the new id. */
  lemma CreateAccepts(check: ConflictCheck, doctors: Registry, store: Store, now: Instant, body: CreateBody, newId: AppointmentId, t: Instant)
    requires newId !in store && body.doctorId in doctors && body.time.Str?
    requires SetClock(NewDate(body.date), body.time.s) == Some(t)
    requires CheckSlot(check, store, now, body.doctorId, Some(t), RequestedDuration(body.duration), None) == Success(t)
    requires ValidAppointment(NewAppointment(body.doctorId, t, Some(RequestedDuration(body.duration)),
                                             body.appointmentType, body.patientName, body.notes))
    ensures var a := NewAppointment(body.doctorId, t, Some(RequestedDuration(body.duration)),
                                    body.appointmentType, body.patientName, body.notes);
      Create(check, doctors, store, now, body, newId) == Step(Created(newId, a), store[newId := a])
  {
  }
}

=== FILE: booked.dfy ===
/** The page's list of booked appointments (`fetchBookedAppointments`): the
    listing sorted by start, then grouped under one heading per local day,
    the headings in the order their first appointment arrives. */
module Booked {
  import opened Time
  import opened Models
  import Seqs
  import Order

  /** The appointments shown under one day heading. */
  datatype DayGroup = DayGroup(day: int, entries: seq<Entry>)

  /** The grouping key: the local day (`toLocaleDateString`) of the start. */
  function EntryDay(e: Entry): int {
    DayOf(e.appointment.start)
  }

  /** The filter test "falls on `day`". */
  function SameDay(day: int): Entry -> bool {
    e => EntryDay(e) == day
  }

  /** Some group has heading `day`. */
  predicate HasDay(groups: seq<DayGroup>, day: int) {
    exists i :: 0 <= i < |groups| && groups[i].day == day
  }

  /** No heading appears twice. */
  predicate DistinctDays(groups: seq<DayGroup>) {
    forall i, j :: 0 <= i < j < |groups| ==> groups[i].day != groups[j].day
  }

  /** One step of the `reduce`: push the entry onto the group of its day,
      or open a new group for that day after all the others. */
  function AddTo(groups: seq<DayGroup>, e: Entry): (r: seq<DayGroup>)
    requires DistinctDays(groups)
    ensures DistinctDays(r)
    ensures |r| == if HasDay(groups, EntryDay(e)) then |groups| else |groups| + 1
    ensures forall i :: 0 <= i < |groups| ==>
      r[i].day == groups[i].day &&
      r[i].entries == groups[i].entries + (if groups[i].day == EntryDay(e) then [e] else [])
    ensures !HasDay(groups, EntryDay(e)) ==> r[|groups|] == DayGroup(EntryDay(e), [e])
  {
    if |groups| == 0 then [DayGroup(EntryDay(e), [e])]
    else if groups[0].day == EntryDay(e) then
      [groups[0].(entries := groups[0].entries + [e])] + groups[1..]
    else
      var rest := AddTo(groups[1..], e);
      assert HasDay(groups, EntryDay(e)) <==> HasDay(groups[1..], EntryDay(e)) by {
        if HasDay(groups, EntryDay(e)) {
          var i :| 0 <= i < |groups| && groups[i].day == EntryDay(e);
          assert groups[1..][i - 1].day == EntryDay(e);
        }
        if HasDay(groups[1..], EntryDay(e)) {
          var i :| 0 <= i < |groups| - 1 && groups[1..][i].day == EntryDay(e);
          assert groups[i + 1].day == EntryDay(e);
        }
      }
      [groups[0]] + rest
  }

  /** The `reduce` over the listing, one entry after another. */
  function GroupByDay(s: seq<Entry>): (r: seq<DayGroup>)
    ensures DistinctDays(r)
  {
    if |s| == 0 then []
    else AddTo(GroupByDay(s[..|s| - 1]), s[|s| - 1])
  }

  /** Each group holds exactly the entries of its day in `s`, in order, and
      is not empty. */
  ghost predicate GroupsHold(groups: seq<DayGroup>, s: seq<Entry>) {
    forall i :: 0 <= i < |groups| ==>
      groups[i].entries == Seqs.Filter(s, SameDay(groups[i].day)) && |groups[i].entries| > 0
  }

  /** Every entry of `s` has a group for its day. */
  ghost predicate GroupsCover(groups: seq<DayGroup>, s: seq<Entry>) {
    forall e :: e in s ==> HasDay(groups, EntryDay(e))
  }

  /** Each group holds exactly the entries of its day, in listing order;
      no group is empty; and every entry's day has a group. With the days
      distinct, every entry lands in exactly one group. */
  lemma {:induction false} GroupsPartition(s: seq<Entry>)
    ensures GroupsHold(GroupByDay(s), s)
    ensures GroupsCover(GroupByDay(s), s)
  {
    if |s| > 0 {
      var init, last := s[..|s| - 1], s[|s| - 1];
      assert s == init + [last];
      GroupsPartition(init);
      StepHolds(GroupByDay(init), init, last);
      StepCovers(GroupByDay(init), init, last);
    }
  }

  /** One `reduce` step keeps every group equal to the filter of its day. */
  lemma StepHolds(g: seq<DayGroup>, init: seq<Entry>, last: Entry)
    requires DistinctDays(g) && GroupsHold(g, init) && GroupsCover(g, init)
    ensures GroupsHold(AddTo(g, last), init + [last])
  {
    var r := AddTo(g, last);
    forall i | 0 <= i < |r|
      ensures r[i].entries == Seqs.Filter(init + [last], SameDay(r[i].day)) && |r[i].entries| > 0
    {
      var p := SameDay(r[i].day);
      Seqs.FilterAppend(init, [last], p);
      assert Seqs.Filter([last], p) == if EntryDay(last) == r[i].day then [last] else [];
      if i == |g| {
        NewDayHasNothing(g, init, r[i].day);
      }
    }
  }

  /** A day without a group has no entries yet. */
  lemma NewDayHasNothing(g: seq<DayGroup>, init: seq<Entry>, day: int)
    requires GroupsCover(g, init) && !HasDay(g, day)
    ensures Seqs.Filter(init, SameDay(day)) == []
  {
    var none := Seqs.Filter(init, SameDay(day));
    assert forall e :: e in none ==> e in init && EntryDay(e) == day;
  }

  /** One `reduce` step leaves every entry so far with a group of its day. */
  lemma StepCovers(g: seq<DayGroup>, init: seq<Entry>, last: Entry)
    requires DistinctDays(g) && GroupsCover(g, init)
    ensures GroupsCover(AddTo(g, last), init + [last])
  {
    var r := AddTo(g, last);
    forall e | e in init + [last] ensures HasDay(r, EntryDay(e)) {
      if e in init || HasDay(g, EntryDay(e)) {
        var i :| 0 <= i < |g| && g[i].day == EntryDay(e);
        assert r[i].day == EntryDay(e);
      } else {
        assert r[|g|].day == EntryDay(e);
      }
    }
  }

  /** Headings strictly ascend by day. */
  ghost predicate DaysAscend(groups: seq<DayGroup>) {
    forall i, j :: 0 <= i < j < |groups| ==> groups[i].day < groups[j].day
  }

  /** Grouping a listing sorted by start yields the days in ascending order,
      none later than the day of the last entry. */
  lemma {:induction false} SortedGroupsAscend(s: seq<Entry>)
    requires Order.SortedByStart(s)
    ensures DaysAscend(GroupByDay(s))
    ensures |s| > 0 ==> forall i :: 0 <= i < |GroupByDay(s)| ==> GroupByDay(s)[i].day <= EntryDay(s[|s| - 1])
  {
    if |s| > 0 {
      var init, last := s[..|s| - 1], s[|s| - 1];
      assert Order.SortedByStart(init);
      SortedGroupsAscend(init);
      var g := GroupByDay(init);
      if |init| > 0 {
        DayOfMonotone(init[|init| - 1].appointment.start, last.appointment.start);
      } else {
        assert g == [];
      }
      AscendStep(g, last);
    }
  }

  /** Adding an entry no earlier than every heading keeps the headings
      ascending, now none later than the entry's day. */
  lemma AscendStep(g: seq<DayGroup>, last: Entry)
    requires DistinctDays(g) && DaysAscend(g)
    requires forall i :: 0 <= i < |g| ==> g[i].day <= EntryDay(last)
    ensures DaysAscend(AddTo(g, last))
    ensures forall i :: 0 <= i < |AddTo(g, last)| ==> AddTo(g, last)[i].day <= EntryDay(last)
  {
    var r := AddTo(g, last);
    forall i | 0 <= i < |r| ensures r[i].day <= EntryDay(last) {
      if i < |g| {
        assert r[i].day == g[i].day;
      }
    }
    forall i, j | 0 <= i < j < |r| ensures r[i].day < r[j].day {
      if j < |g| {
        assert r[i].day == g[i].day && r[j].day == g[j].day;
      } else {
        assert !HasDay(g, EntryDay(last)) && r[j].day == EntryDay(last);
        assert r[i].day == g[i].day;
      }
    }
  }

  /** The list the page renders: the listing sorted by start, grouped by day. */
  function BookedList(entries: seq<Entry>): (r: seq<DayGroup>)
    ensures DistinctDays(r)
  {
    GroupByDay(Order.SortByStart(entries))
  }

  /** The rendered list: days ascend; every listed appointment appears under
      the heading of its own day and under no other; nothing else appears. */
  lemma BookedListShape(entries: seq<Entry>)
    ensures DaysAscend(BookedList(entries))
    ensures forall e :: e in entries ==>
      exists i :: 0 <= i < |BookedList(entries)| && BookedList(entries)[i].day == EntryDay(e) && e in BookedList(entries)[i].entries
    ensures forall i, e :: 0 <= i < |BookedList(entries)| && e in BookedList(entries)[i].entries ==>
      EntryDay(e) == BookedList(entries)[i].day && e in entries
  {
    var sorted := Order.SortByStart(entries);
    var r := BookedList(entries);
    SortedGroupsAscend(sorted);
    GroupsPartition(sorted);
    assert forall e :: e in entries <==> e in sorted by {
      forall e ensures e in entries <==> e in sorted {
        assert e in entries <==> e in multiset(entries);
        assert e in sorted <==> e in multiset(sorted);
      }
    }
    forall e | e in entries
      ensures exists i :: 0 <= i < |r| && r[i].day == EntryDay(e) && e in r[i].entries
    {
      var i :| 0 <= i < |r| && r[i].day == EntryDay(e);
      assert e in Seqs.Filter(sorted, SameDay(r[i].day));
    }
  }
}

=== FILE: client.dfy ===
/** The browser side of booking: the fixed grid of half-hour labels, the
    availability filter of the booking form, the one of the reschedule
    dialog with its kept selection, and the day-by-day listing of booked
    appointments. The appointments the page fetches for a date are those
    of the store whose start falls on that day. */
module Client {
  import opened Wrappers
  import opened Time
  import opened Models
  import Clock
  import Seqs
  import Appointments

  // ---------------------------------------------------------------------
  // The slot grid

  /** `h:m` written with the page's padding is the clock label of minute `h * 60 + m`. */
  lemma LabelIsFormat(h: nat, m: nat)
    requires h < 24 && m < 60
    ensures Label(h, m) == Clock.Format(h * 60 + m)
  {
    Clock.PaddedIsTwoDigits(h);
    Clock.PaddedIsTwoDigits(m);
    assert (h * 60 + m) / 60 == h && (h * 60 + m) % 60 == m;
  }

  /** A clock label set on a day names that minute of the day, in the hour
      the label starts with. */
  lemma FormatOnDay(day: int, v: int)
    requires 0 <= v < 1440
    ensures SetClock(Some(StartOfDay(day)), Clock.Format(v)) == Some(StartOfDay(day) + v)
    ensures HourOf(StartOfDay(day) + v) == v / 60
  {
    FormatIsLabel(v);
    ClockOnDay(day, v / 60, v % 60, v);
  }

  /** The clock label of a minute of the day is the page's label of its hour and minute. */
  lemma FormatIsLabel(v: int)
    requires 0 <= v < 1440
    ensures Clock.Format(v) == Label(v / 60, v % 60)
  {
    var h, m := v / 60, v % 60;
    LabelIsFormat(h, m);
    assert h * 60 + m == v;
  }

  /** The page's label of `h:m` set on a day names minute `v = h * 60 + m` of it. */
  lemma ClockOnDay(day: int, h: nat, m: nat, v: int)
    requires h < 24 && m < 60 && v == h * 60 + m
    ensures SetClock(Some(StartOfDay(day)), Label(h, m)) == Some(StartOfDay(day) + v)
    ensures HourOf(StartOfDay(day) + v) == h
  {
    LabelOnDay(day, h, m, v);
    HourOnDay(day, h, m, v);
  }

  /** The page's label of `h:m` set on a day names minute `v` of it. */
  lemma LabelOnDay(day: int, h: nat, m: nat, v: int)
    requires h < 24 && m < 60 && v == h * 60 + m
    ensures SetClock(Some(StartOfDay(day)), Label(h, m)) == Some(StartOfDay(day) + v)
  {
    SetClockLabel(Some(StartOfDay(day)), h, m);
    ClockValueOnDay(day, Label(h, m), h, m, v);
  }

  /** A clock string that sets `h:m` on a day names minute `v = h * 60 + m` of it. */
  lemma ClockValueOnDay(day: int, time: string, h: nat, m: nat, v: int)
    requires v == h * 60 + m
    requires SetClock(Some(StartOfDay(day)), time) == SetHours(Some(StartOfDay(day)), Some(h), Some(m))
    ensures SetClock(Some(StartOfDay(day)), time) == Some(StartOfDay(day) + v)
  {
    HoursOnDay(day, h, m, v);
  }

  /** Setting `h:m` on the first minute of a day gives minute `v = h * 60 + m` of it. */
  lemma HoursOnDay(day: int, h: nat, m: nat, v: int)
    requires v == h * 60 + m
    ensures SetHours(Some(StartOfDay(day)), Some(h), Some(m)) == Some(StartOfDay(day) + v)
  {
    DivModUnique(StartOfDay(day), day, 0);
  }

  /** Minute `v = h * 60 + m` of a day falls in hour `h`. */
  lemma HourOnDay(day: int, h: nat, m: nat, v: int)
    requires h < 24 && m < 60 && v == h * 60 + m
    ensures HourOf(StartOfDay(day) + v) == h
  {
    DivModUnique(StartOfDay(day) + v, day, v);
    assert v / 60 == h;
  }

  /** The page's opening hours: the grid starts at 9:00 and stops before 17:00. */
  const OpeningHour: nat := 9
  const ClosingHour: nat := 17

  /** The half-hour labels of the hours `from` up to `to`, in the page's
      loop order: for each hour, minute 0 then minute 30. */
  function Grid(from: nat, to: nat): (r: seq<string>)
    requires from <= to
    ensures |r| == 2 * (to - from)
  {
    seq(2 * (to - from), i requires 0 <= i < 2 * (to - from) => Label(from + i / 2, (i % 2) * 30))
  }

  /** The grid `generateTimeSlots` builds, which the reschedule dialog builds again. */
  function TimeSlots(): (r: seq<string>)
    ensures |r| == 16
  {
    Grid(OpeningHour, ClosingHour)
  }

  /** Entry `k` of the grid is the label of hour `OpeningHour + k / 2` and
      minute 0 or 30 as `k` is even or odd. */
  lemma GridAt(k: nat, hour: nat, minute: nat)
    requires k < 16 && k / 2 == hour - OpeningHour && (k % 2) * 30 == minute
    ensures TimeSlots()[k] == Label(hour, minute)
  {
  }

  /** Grid entry `i` is the label of minute 540 + 30 i of the day. */
  lemma GridEntry(i: int)
    requires 0 <= i < 16
    ensures TimeSlots()[i] == Clock.Format(540 + 30 * i)
  {
    var h, m := OpeningHour + i / 2, (i % 2) * 30;
    var v := 540 + 30 * i;
    assert h * 60 + m == v;
    GridAt(i, h, m);
    LabelIsFormat(h, m);
    assert Label(h, m) == Clock.Format(v);
  }

  /** `generateTimeSlots`: the outer loop of the page, over the hours. */
  method GenerateTimeSlots() returns (slots: seq<string>)
    ensures slots == TimeSlots()
  {
    slots := [];
    var hour := OpeningHour;
    while hour < ClosingHour
      invariant OpeningHour <= hour <= ClosingHour
      invariant |slots| == 2 * (hour - OpeningHour)
      invariant GridPrefix(slots)
    {
      var labels := HourLabels(hour);
      GridPrefixStep(slots, hour);
      slots := slots + labels;
      hour := hour + 1;
    }
    GridComplete(slots);
  }

  /** The inner loop of `generateTimeSlots`: minutes 0 and 30 of one hour. */
  method HourLabels(hour: nat) returns (labels: seq<string>)
    ensures labels == [Label(hour, 0), Label(hour, 30)]
  {
    labels := [];
    var minute := 0;
    while minute < 60
      invariant minute == 0 || minute == 30 || minute == 60
      invariant minute == 0 ==> labels == []
      invariant minute == 30 ==> labels == [Label(hour, 0)]
      invariant minute == 60 ==> labels == [Label(hour, 0), Label(hour, 30)]
    {
      var timeString := Label(hour, minute);
      labels := labels + [timeString];
      minute := minute + 30;
    }
  }

  /** Appending an hour's two labels extends the grid order by one hour. */
  lemma GridPrefixStep(s: seq<string>, hour: nat)
    requires hour >= OpeningHour && |s| == 2 * (hour - OpeningHour) && GridPrefix(s)
    ensures GridPrefix(s + [Label(hour, 0), Label(hour, 30)])
  {
    var t := s + [Label(hour, 0), Label(hour, 30)];
    forall k | 0 <= k < |t| ensures t[k] == Label(OpeningHour + k / 2, (k % 2) * 30) {
      if k < |s| {
        assert t[k] == s[k];
      } else if k == |s| {
        assert OpeningHour + k / 2 == hour && (k % 2) * 30 == 0;
        assert t[k] == Label(hour, 0);
      } else {
        assert OpeningHour + k / 2 == hour && (k % 2) * 30 == 30;
        assert t[k] == Label(hour, 30);
      }
    }
  }

  /** Entry `k` of `s` is the label of hour `OpeningHour + k / 2` and
      minute 0 or 30 as `k` is even or odd. */
  ghost predicate GridPrefix(s: seq<string>) {
    forall k :: 0 <= k < |s| ==> s[k] == Label(OpeningHour + k / 2, (k % 2) * 30)
  }

  /** Sixteen entries in grid order are the grid. */
  lemma GridComplete(s: seq<string>)
    requires |s| == 16 && GridPrefix(s)
    ensures s == TimeSlots()
  {
    forall k | 0 <= k < 16 ensures s[k] == TimeSlots()[k] {
      GridAt(k, OpeningHour + k / 2, (k % 2) * 30);
    }
  }

  /** Every grid entry is the clock label of its minute of the day. */
  lemma GridFormats()
    ensures forall i :: 0 <= i < 16 ==> TimeSlots()[i] == Clock.Format(540 + 30 * i)
  {
    forall i | 0 <= i < 16 ensures TimeSlots()[i] == Clock.Format(540 + 30 * i) {
      GridEntry(i);
    }
  }

  /** The grid runs from "09:00" to "16:30". */
  lemma TimeSlotsEnds()
    ensures TimeSlots()[0] == "09:00" && TimeSlots()[15] == "16:30"
  {
    assert TimeSlots()[0] == Label(OpeningHour, 0);
    assert TimeSlots()[15] == Label(ClosingHour - 1, 30);
  }

  /** Every grid label is five characters and reads back as its minute of
      the day, so the grid ascends in steps of 30 minutes. */
  lemma TimeSlotsAscend()
    ensures forall i :: 0 <= i < 16 ==> |TimeSlots()[i]| == 5 && Clock.Parse(TimeSlots()[i]) == Some(540 + 30 * i)
  {
    forall i | 0 <= i < 16 ensures |TimeSlots()[i]| == 5 && Clock.Parse(TimeSlots()[i]) == Some(540 + 30 * i) {
      GridLabelParses(i);
      GridLabelLength(i);
    }
  }

  /** One grid label reads back as its minute of the day. */
  lemma GridLabelParses(i: int)
    requires 0 <= i < 16
    ensures Clock.Parse(TimeSlots()[i]) == Some(540 + 30 * i)
  {
    var v := 540 + 30 * i;
    Clock.ParseFormat(v);
    GridEntry(i);
  }

  /** Every grid label is five characters long. */
  lemma GridLabelLength(i: int)
    requires 0 <= i < 16
    ensures |TimeSlots()[i]| == 5
  {
    GridEntry(i);
  }

  /** A string equal to the clock label of minute `v`, set on a day (`split(':')`,
      `parseInt`, `setHours`), names minute `v` of it; in particular a grid label. */
  lemma StringOnDay(day: int, time: string, v: int)
    requires 0 <= v < 1440 && time == Clock.Format(v)
    ensures SetClock(Some(StartOfDay(day)), time) == Some(StartOfDay(day) + v)
  {
    FormatOnDay(day, v);
  }

  // ---------------------------------------------------------------------
  // The booking form: `checkSlotAvailability` and `updateTimeSlots`

  /** The clock label `time` set on day `day`, as `new Date(date)` followed by
      `setHours(parseInt(h), parseInt(m), 0, 0)` computes it; `None` stands
      for the Invalid Date a label that does not read as numbers gives. */
  function SlotTime(day: int, time: string): Option<Instant> {
    SetClock(Some(StartOfDay(day)), time)
  }

  /** The booking form's conflict test: the selected time lies in the
      half-open [start, end) of the appointment. An Invalid Date compares
      false with everything and so never conflicts. */
  predicate StartCovered(a: Appointment, t: Option<Instant>) {
    t.Some? && a.start <= t.value < a.End()
  }

  /** `checkSlotAvailability(doctorId, date, time)`: none of the doctor's
      appointments of that date covers the selected time. The duration the
      user chose plays no part. */
  predicate IsBookable(store: Store, doctorId: DoctorId, day: int, time: string) {
    var listed := Appointments.OnDate(store, day);
    forall id :: id in listed && listed[id].doctorId == doctorId ==> !StartCovered(listed[id], SlotTime(day, time))
  }

  /** The options of the booking form's time select: nothing until both a
      doctor and a date are chosen, then the grid labels that are bookable. */
  function BookingSlots(store: Store, doctorId: Option<DoctorId>, day: Option<int>): (r: seq<string>)
    ensures doctorId.None? || day.None? ==> r == []
    ensures doctorId.Some? && day.Some? ==>
      forall x :: x in r <==> x in TimeSlots() && IsBookable(store, doctorId.value, day.value, x)
  {
    if doctorId.None? || day.None? then []
    else Seqs.Filter(TimeSlots(), BookableTest(store, doctorId.value, day.value))
  }

  /** `checkSlotAvailability` for one doctor and date, as the filter's test. */
  function BookableTest(store: Store, doctorId: DoctorId, day: int): string -> bool {
    x => IsBookable(store, doctorId, day, x)
  }

  /** `updateTimeSlots`: the grid labels the booking form keeps, in grid order. */
  method UpdateTimeSlots(store: Store, doctorId: Option<DoctorId>, day: Option<int>) returns (available: seq<string>)
    ensures available == BookingSlots(store, doctorId, day)
  {
    if doctorId.None? || day.None? {
      return [];
    }
    var slots := GenerateTimeSlots();
    available := KeepBookable(store, doctorId.value, day.value, slots);
  }

  /** The page's loop that asks about each label in turn and pushes the
      available ones. */
  method KeepBookable(store: Store, doctorId: DoctorId, day: int, slots: seq<string>) returns (available: seq<string>)
    ensures available == Seqs.Filter(slots, BookableTest(store, doctorId, day))
  {
    available := [];
    var i := 0;
    while i < |slots|
      invariant 0 <= i <= |slots|
      invariant available == Seqs.Filter(slots[..i], BookableTest(store, doctorId, day))
    {
      Seqs.TakeOneMore(slots, i);
      available := PushIfBookable(store, doctorId, day, slots[..i], available, slots[i]);
      i := i + 1;
    }
    assert slots[..i] == slots;
  }

  /** One turn of that loop: push `slot` when it is available. */
  method PushIfBookable(store: Store, doctorId: DoctorId, day: int, asked: seq<string>, available: seq<string>,
                        slot: string) returns (next: seq<string>)
    requires available == Seqs.Filter(asked, BookableTest(store, doctorId, day))
    ensures next == Seqs.Filter(asked + [slot], BookableTest(store, doctorId, day))
  {
    var isAvailable := CheckSlotAvailability(store, doctorId, day, slot);
    Seqs.FilterSnoc(asked, slot, BookableTest(store, doctorId, day));
    next := if isAvailable then available + [slot] else available;
  }

  /** `checkSlotAvailability`: the question the booking form asks per label. */
  method CheckSlotAvailability(store: Store, doctorId: DoctorId, day: int, time: string) returns (available: bool)
    ensures available == IsBookable(store, doctorId, day, time)
    ensures available <==> forall id :: id in store && DayOf(store[id].start) == day && store[id].doctorId == doctorId
                                        ==> !StartCovered(store[id], SlotTime(day, time))
  {
    var listed := Appointments.OnDate(store, day);
    available := forall id | id in listed :: listed[id].doctorId == doctorId ==> !StartCovered(listed[id], SlotTime(day, time));
    OnDateIsDay(store, day);
  }

  /** The appointments of a date are those whose start falls on that day. */
  lemma OnDateIsDay(store: Store, day: int)
    ensures forall id :: id in Appointments.OnDate(store, day) <==> id in store && DayOf(store[id].start) == day
  {
    forall id | id in store ensures DayOf(store[id].start) == day <==> StartOfDay(day) <= store[id].start <= EndOfDay(day) {
      OnDayBounds(store[id].start, day);
    }
  }

  /** A grid label is bookable iff no appointment of the doctor that starts
      on the day has its start at or before the label's minute and its end
      after it. */
  lemma BookableAt(store: Store, doctorId: DoctorId, day: int, i: int)
    requires 0 <= i < 16
    ensures IsBookable(store, doctorId, day, TimeSlots()[i]) <==>
      forall id :: id in store && DayOf(store[id].start) == day && store[id].doctorId == doctorId ==>
        !(store[id].start <= StartOfDay(day) + 540 + 30 * i < store[id].End())
  {
    GridEntry(i);
    StringOnDay(day, TimeSlots()[i], 540 + 30 * i);
    OnDateIsDay(store, day);
  }

  /** With no appointment of the doctor on the day, the whole grid is offered. */
  lemma FreeDayOffersGrid(store: Store, doctorId: DoctorId, day: int)
    requires forall id :: id in store && DayOf(store[id].start) == day ==> store[id].doctorId != doctorId
    ensures BookingSlots(store, Some(doctorId), Some(day)) == TimeSlots()
  {
    OnDateIsDay(store, day);
    Seqs.FilterKeepsAll(TimeSlots(), BookableTest(store, doctorId, day));
  }

  /** The minute of the day a grid label names. */
  function LabelMinute(x: string): int {
    Clock.Parse(x).GetOr(-1)
  }

  /** The grid ascends in steps of 30 minutes. */
  lemma GridIncreasing()
    ensures Seqs.IncreasingBy(TimeSlots(), LabelMinute)
  {
    TimeSlotsAscend();
  }

  /** The booking form lists its options in ascending time order. */
  lemma BookingSlotsAscend(store: Store, doctorId: Option<DoctorId>, day: Option<int>)
    ensures Seqs.IncreasingBy(BookingSlots(store, doctorId, day), LabelMinute)
  {
    if doctorId.Some? && day.Some? {
      GridIncreasing();
      Seqs.FilterIncreasing(TimeSlots(), BookableTest(store, doctorId.value, day.value), LabelMinute);
    }
  }

  // ---------------------------------------------------------------------
  // The reschedule dialog: `updateEditTimeSlots` and `editAppointment`

  /** The dialog's conflict test: the slot [time, time + duration) and the
      appointment's [start, end) share a minute. An Invalid Date compares
      false with everything and so never conflicts. */
  predicate SlotOverlaps(a: Appointment, t: Option<Instant>, duration: int) {
    t.Some? && Overlaps(t.value, AddMinutes(t.value, duration), a.start, a.End())
  }

  /** A label stays in the dialog iff no appointment of the date other than
      the one being edited overlaps the slot, whichever doctor it is with. */
  predicate EditKeeps(store: Store, current: AppointmentId, day: int, duration: int, time: string) {
    var listed := Appointments.OnDate(store, day);
    forall id :: id in listed && id != current ==> !SlotOverlaps(listed[id], SlotTime(day, time), duration)
  }

  /** The dialog's filter test for one edited appointment, date and duration. */
  function EditTest(store: Store, current: AppointmentId, day: int, duration: int): string -> bool {
    x => EditKeeps(store, current, day, duration, x)
  }

  /** A `<select>`: its options and its current value. */
  datatype TimeSelect = TimeSelect(options: seq<string>, value: string)

  /** The value a select holds once its options are replaced and the old
      value is written back only if it is still offered: otherwise the
      browser falls back to the first option, or to "" when there is none. */
  function KeepSelection(options: seq<string>, previous: string): (r: string)
    ensures r in options || (options == [] && r == "")
    ensures previous in options ==> r == previous
  {
    if previous in options then previous
    else if |options| > 0 then options[0]
    else ""
  }

  /** `updateEditTimeSlots(date, duration)`: with no appointment being edited
      the dialog is left as it is; otherwise its options become the grid
      labels the edit test keeps, in grid order, and the selection is kept
      when it is still offered. */
  function EditDialog(store: Store, current: Option<AppointmentId>, day: int, duration: int,
                      dialog: TimeSelect): (r: TimeSelect)
    ensures current.None? ==> r == dialog
    ensures current.Some? ==>
      forall x :: x in r.options <==> x in TimeSlots() && EditKeeps(store, current.value, day, duration, x)
    ensures current.Some? && dialog.value in r.options ==> r.value == dialog.value
  {
    if current.None? then dialog
    else
      var options := Seqs.Filter(TimeSlots(), EditTest(store, current.value, day, duration));
      TimeSelect(options, KeepSelection(options, dialog.value))
  }

  /** The selection survives a change of date or duration exactly when it is
      still offered, or when it was already the first option. */
  lemma SelectionKept(store: Store, current: AppointmentId, day: int, duration: int, dialog: TimeSelect)
    ensures var r := EditDialog(store, Some(current), day, duration, dialog);
      r.value == dialog.value <==>
        dialog.value in r.options || (r.options == [] && dialog.value == "")
  {
  }

  /** A grid label stays in the dialog iff no other appointment starting on
      the day overlaps the half-open slot of `duration` minutes at that label. */
  lemma EditKeepsAt(store: Store, current: AppointmentId, day: int, duration: int, i: int)
    requires 0 <= i < 16
    ensures EditKeeps(store, current, day, duration, TimeSlots()[i]) <==>
      forall id :: id in store && id != current && DayOf(store[id].start) == day ==>
        !Overlaps(StartOfDay(day) + 540 + 30 * i, StartOfDay(day) + 540 + 30 * i + duration,
                  store[id].start, store[id].End())
  {
    GridEntry(i);
    StringOnDay(day, TimeSlots()[i], 540 + 30 * i);
    OnDateIsDay(store, day);
  }

  /** The appointment being edited never blocks a slot: whatever is stored
      under its id, the dialog offers the same options. */
  lemma OwnAppointmentNeverBlocks(store: Store, current: AppointmentId, a: Appointment,
                                  day: int, duration: int, dialog: TimeSelect)
    ensures EditDialog(store[current := a], Some(current), day, duration, dialog)
         == EditDialog(store, Some(current), day, duration, dialog)
  {
    EditFilterIgnoresCurrent(store, current, a, day, duration, TimeSlots());
  }

  /** Filtering any labels with the edit test ignores what is stored under the edited id. */
  lemma EditFilterIgnoresCurrent(store: Store, current: AppointmentId, a: Appointment,
                                 day: int, duration: int, labels: seq<string>)
    ensures Seqs.Filter(labels, EditTest(store[current := a], current, day, duration))
         == Seqs.Filter(labels, EditTest(store, current, day, duration))
  {
    var p, q := EditTest(store[current := a], current, day, duration), EditTest(store, current, day, duration);
    forall i | 0 <= i < |labels| ensures p(labels[i]) == q(labels[i]) {
      EditKeepsIgnoresCurrent(store, current, a, day, duration, labels[i]);
    }
    Seqs.FilterCongruent(labels, p, q);
  }

  /** The edit test of any label ignores what is stored under the edited id. */
  lemma EditKeepsIgnoresCurrent(store: Store, current: AppointmentId, a: Appointment,
                                day: int, duration: int, time: string)
    ensures EditKeeps(store[current := a], current, day, duration, time) == EditKeeps(store, current, day, duration, time)
  {
    var t := SlotTime(day, time);
    var l1, l2 := Appointments.OnDate(store[current := a], day), Appointments.OnDate(store, day);
    assert forall id :: id != current ==> (id in l1 <==> id in l2);
    assert forall id :: id != current && id in l1 ==> l1[id] == l2[id];
  }

  /** Every other appointment of the date counts, whichever doctor it is
      with: one that overlaps the slot at a grid label removes that label. */
  lemma AnyDoctorBlocks(store: Store, current: AppointmentId, day: int, duration: int,
                        dialog: TimeSelect, id: AppointmentId, i: int)
    requires 0 <= i < 16
    requires id in store && id != current && DayOf(store[id].start) == day
    requires Overlaps(StartOfDay(day) + 540 + 30 * i, StartOfDay(day) + 540 + 30 * i + duration,
                      store[id].start, store[id].End())
    ensures TimeSlots()[i] !in EditDialog(store, Some(current), day, duration, dialog).options
  {
    EditKeepsAt(store, current, day, duration, i);
  }

  /** The `hh:mm` of an instant, as `editAppointment` writes it with
      `getHours`, `getMinutes` and `padStart`. */
  function OwnLabel(t: Instant): (r: string)
    ensures Clock.Parse(r) == Some(MinuteOfDay(t))
  {
    var h := HourOf(t);
    var m := MinuteOfDay(t) % 60;
    LabelParses(h, m);
    Label(h, m)
  }

  /** The page's label of h:m reads back as minute h·60 + m. */
  lemma LabelParses(h: nat, m: nat)
    requires h < 24 && m < 60
    ensures Clock.Parse(Label(h, m)) == Some(h * 60 + m)
  {
    LabelIsFormat(h, m);
    Clock.ParseFormat(h * 60 + m);
  }

  /** The value a select takes when one is written into it: the option with
      that value, or none at all (value "") when it is not offered. */
  function SelectValue(options: seq<string>, value: string): (r: string)
    ensures r in options || r == ""
    ensures r == value <==> value in options || value == ""
  {
    if value in options then value else ""
  }

  /** `editAppointment(id)`: an unknown id ends in the error alert (`None`);
      otherwise the dialog is filled for the appointment's own day and
      duration, with that appointment as the one being edited, and its own
      time is then written into the select. */
  function OpenEdit(store: Store, id: AppointmentId): (r: Option<TimeSelect>)
    ensures r.Some? <==> id in store
    ensures r.Some? ==> (r.value.value == OwnLabel(store[id].start) || r.value.value == "")
  {
    if id !in store then None
    else
      var a := store[id];
      var filled := EditDialog(store, Some(id), DayOf(a.start), a.duration, TimeSelect([], ""));
      Some(TimeSelect(filled.options, SelectValue(filled.options, OwnLabel(a.start))))
  }

  /** The own time of an appointment is a grid label iff its minute of the
      day is one of the grid's half hours from 09:00 to 16:30. */
  lemma OwnLabelOnGrid(t: Instant)
    ensures OwnLabel(t) in TimeSlots() <==> exists i :: 0 <= i < 16 && MinuteOfDay(t) == 540 + 30 * i
  {
    if OwnLabel(t) in TimeSlots() {
      var k :| 0 <= k < 16 && TimeSlots()[k] == OwnLabel(t);
      GridLabelParses(k);
    }
    if exists i :: 0 <= i < 16 && MinuteOfDay(t) == 540 + 30 * i {
      var i :| 0 <= i < 16 && MinuteOfDay(t) == 540 + 30 * i;
      OwnLabelIsGrid(t, i);
    }
  }

  /** An instant at grid minute `540 + 30 i` has grid label `i` as its own time. */
  lemma OwnLabelIsGrid(t: Instant, i: int)
    requires 0 <= i < 16 && MinuteOfDay(t) == 540 + 30 * i
    ensures OwnLabel(t) == TimeSlots()[i]
  {
    var h, m := OpeningHour + i / 2, (i % 2) * 30;
    assert HourOf(t) == h && MinuteOfDay(t) % 60 == m;
    GridAt(i, h, m);
  }

  /** An appointment booked on a grid half hour, which no other appointment
      of its day overlaps, opens the dialog with its own time selected. */
  lemma OpenEditOnGrid(store: Store, id: AppointmentId, i: int)
    requires id in store && 0 <= i < 16 && MinuteOfDay(store[id].start) == 540 + 30 * i
    requires forall k :: k in store && k != id && DayOf(store[k].start) == DayOf(store[id].start) ==>
      !Overlaps(store[id].start, store[id].End(), store[k].start, store[k].End())
    ensures OpenEdit(store, id) == Some(TimeSelect(OpenEdit(store, id).value.options, TimeSlots()[i]))
  {
    var a := store[id];
    var day := DayOf(a.start);
    assert StartOfDay(day) + 540 + 30 * i == a.start;
    EditKeepsAt(store, id, day, a.duration, i);
    OwnLabelIsGrid(a.start, i);
  }

  /** An appointment whose time is not a grid half hour (booked through the
      API at 10:15, say) opens the dialog with no time selected. */
  lemma OpenEditOffGrid(store: Store, id: AppointmentId)
    requires id in store
    requires forall i :: 0 <= i < 16 ==> MinuteOfDay(store[id].start) != 540 + 30 * i
    ensures OpenEdit(store, id).value.value == ""
  {
    OwnLabelOnGrid(store[id].start);
  }
}

=== FILE: clock.dfy ===
/** The `"HH:mm"` clock strings of working hours and slot labels: the
    behaviour of date-fns `parse(s, 'HH:mm', day)` and `format(t, 'HH:mm')`
    that the slot listing relies on. */
module Clock {
  import opened Wrappers
  import opened Js

  /** Two zero-padded decimal digits. */
  function TwoDigits(n: nat): (r: string)
    requires n < 100
    ensures |r| == 2 && AllDigits(r) && DigitsValue(r) == n
  {
    var r := [DigitChar(n / 10), DigitChar(n % 10)];
    PairValue(r);
    r
  }

  /** `format(t, 'HH:mm')` for a minute of the day. */
  function Format(minuteOfDay: int): (r: string)
    requires 0 <= minuteOfDay < 1440
    ensures |r| == 5 && r[2] == ':'
  {
    TwoDigits(minuteOfDay / 60) + ":" + TwoDigits(minuteOfDay % 60)
  }

  /** At most `k` leading digits of `s`: the greedy read of a numeric field. */
  function TakeDigits(s: string, k: nat): (r: string)
    ensures |r| <= k && |r| <= |s| && r == s[..|r|] && AllDigits(r)
  {
    var d := LeadingDigits(s);
    if |d| <= k then d else d[..k]
  }

  /** Only white space: date-fns refuses what is left after the pattern
      only when it holds a non-white-space character (`/\S/`). */
  predicate AllSpace(s: string) {
    forall i :: 0 <= i < |s| ==> IsSpace(s[i])
  }

  /** `parse(s, 'HH:mm', day)` as a minute of the day: one or two hour digits
      (0 to 23), a colon, one or two minute digits (0 to 59) and nothing after
      them but white space; `None` is the Invalid Date date-fns returns
      otherwise. */
  function Parse(s: string): (r: Option<int>)
    ensures r.Some? ==> 0 <= r.value < 1440
  {
    var hd := TakeDigits(s, 2);
    if hd == "" || |hd| >= |s| || s[|hd|] != ':' then None
    else
      var rest := s[|hd| + 1..];
      var md := TakeDigits(rest, 2);
      if md == "" || !AllSpace(rest[|md|..]) then None
      else
        var h := DigitsValue(hd);
        var m := DigitsValue(md);
        if h > 23 || m > 59 then None else Some(h * 60 + m)
  }

  /** The value of a two-digit string. */
  lemma PairValue(s: string)
    requires |s| == 2 && AllDigits(s)
    ensures DigitsValue(s) == 10 * DigitValue(s[0]) + DigitValue(s[1])
  {
    var p := s[..|s| - 1];
    assert p == [s[0]];
    assert AllDigits(p);
    assert p[..|p| - 1] == [];
    assert DigitsValue(p) == 10 * DigitsValue([]) + DigitValue(s[0]);
  }

  lemma DigitRoundTrip(c: char)
    requires IsDigit(c)
    ensures DigitChar(DigitValue(c)) == c
  {
  }

  /** A two-digit string is the zero-padded form of its value. */
  lemma TwoDigitsOfValue(s: string)
    requires |s| == 2 && AllDigits(s)
    ensures DigitsValue(s) < 100 && TwoDigits(DigitsValue(s)) == s
  {
    PairValue(s);
    DigitRoundTrip(s[0]);
    DigitRoundTrip(s[1]);
  }

  /** Parsing a formatted minute of the day gives it back. */
  lemma ParseFormat(v: int)
    requires 0 <= v < 1440
    ensures Parse(Format(v)) == Some(v)
  {
    var hh := TwoDigits(v / 60);
    var mm := TwoDigits(v % 60);
    var s := Format(v);
    assert s == hh + ":" + mm;
    LeadingDigitsOfDigits(hh);
    assert !IsDigit(s[2]);
    assert LeadingDigits(s) == hh by {
      LeadingDigitsPrefix(s, 2);
    }
    assert s[3..] == mm;
    LeadingDigitsOfDigits(mm);
    assert mm[|mm|..] == "";
  }

  /** When `s[..k]` is all digits and `s[k]` is not, the digit prefix is `s[..k]`. */
  lemma {:induction false} LeadingDigitsPrefix(s: string, k: nat)
    requires k < |s| && AllDigits(s[..k]) && !IsDigit(s[k])
    ensures LeadingDigits(s) == s[..k]
  {
    if k > 0 {
      assert s[1..][..k - 1] == s[1..k];
      assert AllDigits(s[1..k]) by {
        forall i | 0 <= i < k - 1 ensures IsDigit(s[1..k][i]) {
          assert s[1..k][i] == s[..k][i + 1];
        }
      }
      LeadingDigitsPrefix(s[1..], k - 1);
      assert IsDigit(s[..k][0]);
    }
  }

  /** A five-character clock string that parses and does not end in white
      space formats back to itself: `format(parse(s))` is the identity on
      zero-padded `"HH:mm"`. */
  lemma FormatParse(s: string)
    requires |s| == 5 && Parse(s).Some? && !IsSpace(s[4])
    ensures Format(Parse(s).value) == s
  {
    var hd := TakeDigits(s, 2);
    var rest := s[|hd| + 1..];
    var md := TakeDigits(rest, 2);
    assert |hd| == 2 && |md| == 2;
    TwoDigitsOfValue(hd);
    TwoDigitsOfValue(md);
    var h := DigitsValue(hd);
    var m := DigitsValue(md);
    assert (h * 60 + m) / 60 == h && (h * 60 + m) % 60 == m;
    assert s == hd + ":" + md;
  }

  /** The client's `padStart` label and date-fns `format` agree on every
      clock value. */
  lemma PaddedIsTwoDigits(n: nat)
    requires n < 100
    ensures PadStart(Decimal(n), 2, '0') == TwoDigits(n)
  {
    if n >= 10 {
      assert Decimal(n / 10) == [DigitChar(n / 10)];
    }
  }

  /** Trailing white space never changes the reading: working hours of
      "09:00 " read as 09:00. */
  lemma TrailingSpace(s: string, w: string)
    requires Parse(s).Some? && AllSpace(w)
    ensures Parse(s + w) == Parse(s)
  {
    var hd := TakeDigits(s, 2);
    HoursFieldExtended(s, w);
    MinutesField(s[|hd| + 1..], w);
  }

  /** Text after a clock string leaves its hour field and colon in place. */
  lemma HoursFieldExtended(s: string, w: string)
    requires Parse(s).Some?
    ensures var hd := TakeDigits(s, 2);
      TakeDigits(s + w, 2) == hd && |hd| < |s + w| && (s + w)[|hd|] == ':'
      && (s + w)[|hd| + 1..] == s[|hd| + 1..] + w
  {
    var t := s + w;
    var hd := TakeDigits(s, 2);
    HoursField(s);
    LeadingDigitsPrefix(t, |hd|);
    assert t[..|hd|] == hd;
  }

  /** The hour field of a clock string that parses ends at its colon. */
  lemma HoursField(s: string)
    requires Parse(s).Some?
    ensures var hd := TakeDigits(s, 2); |hd| < |s| && s[|hd|] == ':' && LeadingDigits(s) == hd
  {
    var hd := TakeDigits(s, 2);
    LeadingDigitsPrefix(s, |hd|);
  }

  /** The minute field reads the same with white space after it, and only
      white space is left. */
  lemma MinutesField(rest: string, w: string)
    requires var md := TakeDigits(rest, 2); md != "" && AllSpace(rest[|md|..])
    requires AllSpace(w)
    ensures var md := TakeDigits(rest, 2);
      TakeDigits(rest + w, 2) == md && AllSpace((rest + w)[|md|..])
  {
    var md := TakeDigits(rest, 2);
    var t := rest + w;
    if |md| < |t| {
      assert t[|md|] == (rest[|md|..] + w)[0];
      LeadingDigitsPrefix(t, |md|);
      assert t[..|md|] == md;
    } else {
      assert t == md;
      LeadingDigitsOfDigits(md);
    }
    assert t[|md|..] == rest[|md|..] + w;
  }

  /** Working hours starting "09:00 " read as 09:00. */
  lemma SpacedHours()
    ensures Parse("09:00 ") == Some(540)
  {
    NineReads();
    TrailingSpace("09:00", " ");
    assert "09:00" + " " == "09:00 ";
  }

  /** "09:00" reads as minute 540. */
  lemma NineReads()
    ensures Parse("09:00") == Some(540)
  {
    ParseFormat(540);
    NineFormats();
  }

  /** Minute 540 is formatted "09:00". */
  lemma NineFormats()
    ensures Format(540) == "09:00"
  {
    assert TwoDigits(9) == "09" && TwoDigits(0) == "00";
  }
}

=== FILE: compare.dfy ===
/** How the four availability tests of the application relate: the
    booking routes' start-inside test, the slot listing's span test, the
    booking form's start-covered test and the reschedule dialog's overlap
    test. Each is measured against the half-open overlap of [start, end)
    spans, which is what "the slot is taken" means. */
module Compare {
  import opened Wrappers
  import opened Time
  import Js
  import opened Models
  import opened Appointments
  import Doctors
  import Client
  import Clock
  import opened Http

  // ---------------------------------------------------------------------
  // The booking routes

  /** Every conflict the booking routes report is a real overlap. */
  lemma ServerConflictIsOverlap(a: Appointment, doctorId: DoctorId, start: Instant, duration: int)
    requires a.duration >= 0
    requires StartsInside(a, doctorId, start, duration)
    ensures a.doctorId == doctorId && Overlaps(start, start + duration, a.start, a.End())
  {
  }

  /** The converse fails: an appointment starting at the same instant, or
      earlier and still running, overlaps the new span but is not reported. */
  lemma OverlapsTheRoutesMiss(a: Appointment, start: Instant, duration: int)
    requires duration > 0 && a.duration > 0
    requires a.start <= start < a.End()
    ensures Overlaps(start, start + duration, a.start, a.End())
    ensures !StartsInside(a, a.doctorId, start, duration)
  {
  }

  // ---------------------------------------------------------------------
  // The slot listing

  /** A listed slot, under either reading of the span, overlaps none of
      the doctor's appointments of the day as long as those last 30
      minutes or more, as every stored one does. */
  lemma ListedSlotIsFree(rule: Doctors.SpanRule, store: Store, doctorId: DoctorId, day: int, slot: Instant)
    requires forall id :: id in store ==> store[id].duration >= 30
    requires Doctors.IsOpen(rule, store, doctorId, day, slot)
    ensures forall id :: id in store && Doctors.OnDayOf(store[id], doctorId, day) ==>
      !Overlaps(slot, slot + 30, store[id].start, store[id].End())
  {
    forall id | id in store && Doctors.OnDayOf(store[id], doctorId, day)
      ensures !Overlaps(slot, slot + 30, store[id].start, store[id].End())
    {
      assert !Doctors.Blocks(rule, store[id], slot);
    }
  }

  /** An appointment shorter than a slot can sit wholly inside it, touching
      neither end: the listing then offers a slot that overlaps it. */
  lemma ShortAppointmentInsideSlot(rule: Doctors.SpanRule, a: Appointment, slot: Instant)
    requires a.start == slot + 10 && a.duration == 10
    ensures !Doctors.Blocks(rule, a, slot)
    ensures Overlaps(slot, slot + 30, a.start, a.End())
  {
  }

  // ---------------------------------------------------------------------
  // The booking form against the booking route

  /** The booking form ignores the chosen duration: next to a 30-minute
      appointment at 10:30 it offers 10:00, and booking 10:00 for an hour
      there is refused by the route, which finds the 10:30 start inside. */
  lemma FormOffersWhatRouteRefuses(doctors: Registry, now: Instant, doctorId: DoctorId, day: int)
    requires doctorId in doctors && now <= StartOfDay(day) + 600
    ensures var existing := Appointment(doctorId, StartOfDay(day) + 630, 30, None, "Ann", None);
      var store := map[1 := existing];
      var body := CreateBody(doctorId, OnDay(day), Js.Str("10:00"), Js.Num(60), None, Some("Bob"), None);
      && "10:00" in Client.BookingSlots(store, Some(doctorId), Some(day))
      && Create(StartInside, doctors, store, now, body, 2) == Step(Rejected(SlotUnavailable), store)
  {
    var existing := Appointment(doctorId, StartOfDay(day) + 630, 30, None, "Ann", None);
    TenIsGridLabel();
    FormOffersTen(map[1 := existing], doctorId, day);
    RouteRefusesHourAtTen(doctors, now, doctorId, day);
    Doctors.MorningLabels();
  }

  /** The route refuses an hour from 10:00 beside a 30-minute appointment at 10:30. */
  lemma RouteRefusesHourAtTen(doctors: Registry, now: Instant, doctorId: DoctorId, day: int)
    requires doctorId in doctors && now <= StartOfDay(day) + 600
    ensures var existing := Appointment(doctorId, StartOfDay(day) + 630, 30, None, "Ann", None);
      var store := map[1 := existing];
      var body := CreateBody(doctorId, OnDay(day), Js.Str(Clock.Format(600)), Js.Num(60), None, Some("Bob"), None);
      Create(StartInside, doctors, store, now, body, 2) == Step(Rejected(SlotUnavailable), store)
  {
    var existing := Appointment(doctorId, StartOfDay(day) + 630, 30, None, "Ann", None);
    var store := map[1 := existing];
    var body := CreateBody(doctorId, OnDay(day), Js.Str(Clock.Format(600)), Js.Num(60), None, Some("Bob"), None);
    var t := StartOfDay(day) + 600;
    TenBookingChecks(now, existing, day);
    assert RequestedDuration(body.duration) == 60;
    CreateRefuses(StartInside, doctors, store, now, body, 2, t, SlotUnavailable);
  }

  /** "10:00" on the day names minute 600, where the route's checks find the
      10:30 start inside an hour. */
  lemma TenBookingChecks(now: Instant, existing: Appointment, day: int)
    requires existing.start == StartOfDay(day) + 630 && now <= StartOfDay(day) + 600
    ensures var t := StartOfDay(day) + 600;
      && SetClock(NewDate(OnDay(day)), Clock.Format(600)) == Some(t)
      && CheckSlot(StartInside, map[1 := existing], now, existing.doctorId, Some(t), 60, None) == Failure(SlotUnavailable)
  {
    var t := StartOfDay(day) + 600;
    Client.FormatOnDay(day, 600);
    DivModUnique(t, day, 600);
    RouteRefusesTen(now, existing, t);
  }

  /** "10:00" is grid label 2 and names minute 600 of the day. */
  lemma TenOClock(day: int)
    ensures Client.TimeSlots()[2] == "10:00"
    ensures SetClock(Some(StartOfDay(day)), "10:00") == Some(StartOfDay(day) + 600)
    ensures HourOf(StartOfDay(day) + 600) == 10
  {
    TenIsGridLabel();
    TenOnTheClock(day);
  }

  /** Grid label 2 is "10:00". */
  lemma TenIsGridLabel()
    ensures Client.TimeSlots()[2] == "10:00"
  {
    Client.GridEntry(2);
    Doctors.MorningLabels();
  }

  /** "10:00" on a day is minute 600 of it, in hour 10. */
  lemma TenOnTheClock(day: int)
    ensures SetClock(Some(StartOfDay(day)), "10:00") == Some(StartOfDay(day) + 600)
    ensures HourOf(StartOfDay(day) + 600) == 10
  {
    Client.FormatOnDay(day, 600);
    Doctors.MorningLabels();
  }

  /** The booking form offers 10:00 beside an appointment at 10:30. */
  lemma FormOffersTen(store: Store, doctorId: DoctorId, day: int)
    requires store == map[1 := Appointment(doctorId, StartOfDay(day) + 630, 30, None, "Ann", None)]
    requires Client.TimeSlots()[2] == "10:00"
    ensures "10:00" in Client.BookingSlots(store, Some(doctorId), Some(day))
  {
    Client.BookableAt(store, doctorId, day, 2);
    assert DayOf(StartOfDay(day) + 630) == day;
  }

  /** The route finds the 10:30 start inside an hour from 10:00. */
  lemma RouteRefusesTen(now: Instant, existing: Appointment, t: Instant)
    requires t == StartOfDay(DayOf(t)) + 600 && existing.start == t + 30 && now <= t
    requires HourOf(t) == 10
    ensures CheckSlot(StartInside, map[1 := existing], now, existing.doctorId, Some(t), 60, None) == Failure(SlotUnavailable)
  {
    var store := map[1 := existing];
    assert 1 in store && StartsInside(store[1], existing.doctorId, t, 60);
    assert !IsSlotAvailable(store, existing.doctorId, t, 60, None);
  }

  // ---------------------------------------------------------------------
  // The reschedule dialog against the intended test

  /** For a store holding only the doctor's appointments of the day, the
      dialog keeps a grid label exactly when the intended overlap test of
      the booking routes, excluding the edited appointment, finds the slot
      free. The dialog differs from it only in counting every doctor. */
  lemma DialogIsIntendedTest(store: Store, doctorId: DoctorId, current: AppointmentId, day: int,
                             duration: int, i: int)
    requires 0 <= i < 16
    requires forall id :: id in store ==> store[id].doctorId == doctorId && DayOf(store[id].start) == day
    ensures Client.EditKeeps(store, current, day, duration, Client.TimeSlots()[i])
        <==> IsSlotFree(store, doctorId, StartOfDay(day) + 540 + 30 * i, duration, Some(current))
  {
    Client.EditKeepsAt(store, current, day, duration, i);
  }
}

=== FILE: doctors.dfy ===
/** GET `/:id/slots` of the doctor routes: the free 30-minute slots of one
    doctor on one day, between the doctor's working-hours start and end. */
module Doctors {
  import opened Wrappers
  import opened Time
  import opened Models
  import opened Http
  import Clock
  import Seqs

  /** How an appointment's span [start, end] contains an instant. The
      handler calls date-fns `isWithinInterval`, which includes both ends.
      Its own comment asks whether the slot overlaps an appointment, and the
      page's booking form tests the half-open span [start, end): an
      appointment ending as a slot starts does not overlap it. */
  datatype SpanRule = Closed | HalfOpen

  /** `x` lies in the appointment span from `start` to `end` under `rule`. */
  predicate Within(rule: SpanRule, x: Instant, start: Instant, end: Instant) {
    match rule
    case Closed => start <= x <= end
    case HalfOpen => start <= x < end
  }

  /** The handler's query: an appointment of the doctor whose start lies in
      [startOfDay, endOfDay] of the requested day. */
  predicate OnDayOf(a: Appointment, doctorId: DoctorId, day: int) {
    a.doctorId == doctorId && StartOfDay(day) <= a.start <= EndOfDay(day)
  }

  /** The appointment rules out the 30-minute slot starting at `slot`: the
      slot's start or its end lies in the appointment's span. */
  predicate Blocks(rule: SpanRule, a: Appointment, slot: Instant) {
    Within(rule, slot, a.start, a.End()) || Within(rule, AddMinutes(slot, 30), a.start, a.End())
  }

  /** No appointment the query returns rules out the slot. */
  predicate IsOpen(rule: SpanRule, store: Store, doctorId: DoctorId, day: int, slot: Instant) {
    forall id :: id in store && OnDayOf(store[id], doctorId, day) ==> !Blocks(rule, store[id], slot)
  }

  /** The slot starts the loop visits, as minutes of the day: `from`,
      `from + 30`, ... while below `until`. */
  function Candidates(from: int, until: int): (r: seq<int>)
    ensures |r| == if from < until then (until - from + 29) / 30 else 0
    ensures forall i :: 0 <= i < |r| ==> r[i] == from + 30 * i && r[i] < until
    decreases until - from
  {
    if from < until then [from] + Candidates(from + 30, until) else []
  }

  /** The candidates from `from` on whose slot is open, in the loop's
      order: each one a multiple of 30 after `from`, below `until`, open,
      and later than the one before. */
  function OpenMinutes(rule: SpanRule, store: Store, doctorId: DoctorId, day: int, from: int, until: int): (r: seq<int>)
    ensures forall i :: 0 <= i < |r| ==>
      from <= r[i] < until && (r[i] - from) % 30 == 0 && IsOpen(rule, store, doctorId, day, StartOfDay(day) + r[i])
    ensures forall i, j :: 0 <= i < j < |r| ==> r[i] < r[j]
    decreases until - from
  {
    if from < until then
      (if IsOpen(rule, store, doctorId, day, StartOfDay(day) + from) then [from] else [])
        + OpenMinutes(rule, store, doctorId, day, from + 30, until)
    else []
  }

  /** The labels of minutes of the day. */
  function FormatAll(minutes: seq<int>): (r: seq<string>)
    requires forall i :: 0 <= i < |minutes| ==> 0 <= minutes[i] < 1440
    ensures |r| == |minutes|
    ensures forall i :: 0 <= i < |r| ==> r[i] == Clock.Format(minutes[i])
  {
    seq(|minutes|, i requires 0 <= i < |minutes| => Clock.Format(minutes[i]))
  }

  /** GET `/:id/slots?date=`. A missing date answers 400 and an unknown
      doctor 404, before anything else; a date that is not a date reaches
      the store query as an Invalid Date, which the query refuses (500).
      Working hours that do not read as `"HH:mm"` are Invalid Dates, with
      which the loop condition is false: no slots. */
  function AvailableSlots(rule: SpanRule, doctors: Registry, store: Store, doctorId: DoctorId, date: DateArg): (r: Result<seq<string>, Rejection>)
    ensures date == NoDate ==> r == Failure(DateRequired)
    ensures date != NoDate && doctorId !in doctors ==> r == Failure(DoctorNotFound)
    ensures r.Failure? <==> !date.OnDay? || doctorId !in doctors
    ensures r.Failure? ==> r.error in {DateRequired, DoctorNotFound, ServerError}
    ensures r.Success? ==> forall i :: 0 <= i < |r.value| ==> |r.value[i]| == 5 && r.value[i][2] == ':'
  {
    if date == NoDate then Failure(DateRequired)
    else if doctorId !in doctors then Failure(DoctorNotFound)
    else if !date.OnDay? then Failure(ServerError)
    else
      var hours := doctors[doctorId].workingHours;
      match (Clock.Parse(hours.start), Clock.Parse(hours.end))
      case (Some(from), Some(until)) => Success(FormatAll(OpenMinutes(rule, store, doctorId, date.day, from, until)))
      case _ => Success([])
  }

  /** The handler's loop: walk the candidate starts from the working-hours
      start while below the working-hours end, keeping the label of each
      open one. */
  method ListSlots(doctors: Registry, store: Store, doctorId: DoctorId, date: DateArg)
    returns (r: Result<seq<string>, Rejection>)
    ensures r == AvailableSlots(Closed, doctors, store, doctorId, date)
  {
    if date == NoDate {
      return Failure(DateRequired);
    }
    if doctorId !in doctors {
      return Failure(DoctorNotFound);
    }
    if !date.OnDay? {
      return Failure(ServerError);
    }
    var hours := doctors[doctorId].workingHours;
    var workStart, workEnd := Clock.Parse(hours.start), Clock.Parse(hours.end);
    if workStart.None? || workEnd.None? {
      return Success([]);
    }
    var day := date.day;
    var from, until := workStart.value, workEnd.value;
    var slots := OpenLabels(Closed, store, doctorId, day, from, until);
    SlotsOnDay(Closed, doctors, store, doctorId, day, from, until);
    return Success(slots);
  }

  /** The loop itself, over the minutes of the day from the working-hours
      start: the label of every open candidate, in order. */
  method OpenLabels(rule: SpanRule, store: Store, doctorId: DoctorId, day: int, from: int, until: int) returns (slots: seq<string>)
    requires 0 <= from && until <= 1440
    ensures forall i :: 0 <= i < |OpenMinutes(rule, store, doctorId, day, from, until)| ==>
      0 <= OpenMinutes(rule, store, doctorId, day, from, until)[i] < 1440
    ensures slots == FormatAll(OpenMinutes(rule, store, doctorId, day, from, until))
  {
    // `currentSlot` is the day's first minute plus `minute`, and `workEnd`
    // the day's first minute plus `until`, so the loop runs while `minute < until`.
    var minute := from;
    slots := [];
    ghost var kept: seq<int> := [];
    VisitedStart(rule, store, doctorId, day, from, until);
    while minute < until
      invariant from <= minute
      invariant Visited(rule, store, doctorId, day, from, until, minute, kept, slots)
      decreases until - minute
    {
      slots, kept := VisitSlot(rule, store, doctorId, day, from, until, minute, kept, slots);
      minute := minute + 30;
    }
    VisitedAll(rule, store, doctorId, day, from, until, minute, kept, slots);
  }

  /** The loop so far: `kept` holds the open minutes before `minute`, all of
      them minutes of the day, and `slots` their labels. */
  ghost predicate Visited(rule: SpanRule, store: Store, doctorId: DoctorId, day: int, from: int, until: int,
                          minute: int, kept: seq<int>, slots: seq<string>)
  {
    && (forall i :: 0 <= i < |kept| ==> 0 <= kept[i] < 1440)
    && slots == FormatAll(kept)
    && OpenMinutes(rule, store, doctorId, day, from, until) == kept + OpenMinutes(rule, store, doctorId, day, minute, until)
  }

  /** Before the loop nothing is kept. */
  lemma VisitedStart(rule: SpanRule, store: Store, doctorId: DoctorId, day: int, from: int, until: int)
    ensures Visited(rule, store, doctorId, day, from, until, from, [], [])
  {
    assert [] + OpenMinutes(rule, store, doctorId, day, from, until) == OpenMinutes(rule, store, doctorId, day, from, until);
  }

  /** Past the end, the kept minutes are all the open minutes. */
  lemma VisitedAll(rule: SpanRule, store: Store, doctorId: DoctorId, day: int, from: int, until: int,
                   minute: int, kept: seq<int>, slots: seq<string>)
    requires 0 <= from && until <= minute
    requires Visited(rule, store, doctorId, day, from, until, minute, kept, slots)
    ensures forall i :: 0 <= i < |OpenMinutes(rule, store, doctorId, day, from, until)| ==>
      0 <= OpenMinutes(rule, store, doctorId, day, from, until)[i] < 1440
    ensures slots == FormatAll(OpenMinutes(rule, store, doctorId, day, from, until))
  {
    assert OpenMinutes(rule, store, doctorId, day, minute, until) == [];
    assert kept + [] == kept;
  }

  /** One turn of the loop: push the label of `minute` when its slot is open. */
  method VisitSlot(rule: SpanRule, store: Store, doctorId: DoctorId, day: int, from: int, until: int,
                   minute: int, ghost kept: seq<int>, slots: seq<string>)
    returns (next: seq<string>, ghost nextKept: seq<int>)
    requires 0 <= minute < until <= 1440
    requires Visited(rule, store, doctorId, day, from, until, minute, kept, slots)
    ensures Visited(rule, store, doctorId, day, from, until, minute + 30, nextKept, next)
  {
    var currentSlot := StartOfDay(day) + minute;
    OpenStep(rule, store, doctorId, day, from, until, minute, kept);
    if IsOpen(rule, store, doctorId, day, currentSlot) {
      FormatAllSnoc(kept, minute);
      next, nextKept := slots + [Clock.Format(minute)], kept + [minute];
    } else {
      next, nextKept := slots, kept;
    }
  }

  /** One turn of the loop: the open minutes from `minute` on are `minute`
      itself when its slot is open, then the open minutes from the next
      candidate on. */
  lemma OpenStep(rule: SpanRule, store: Store, doctorId: DoctorId, day: int, from: int, until: int,
                 minute: int, kept: seq<int>)
    requires minute < until
    requires OpenMinutes(rule, store, doctorId, day, from, until)
          == kept + OpenMinutes(rule, store, doctorId, day, minute, until)
    ensures var next := if IsOpen(rule, store, doctorId, day, StartOfDay(day) + minute) then kept + [minute] else kept;
      OpenMinutes(rule, store, doctorId, day, from, until)
          == next + OpenMinutes(rule, store, doctorId, day, minute + 30, until)
  {
    var rest := OpenMinutes(rule, store, doctorId, day, minute + 30, until);
    if IsOpen(rule, store, doctorId, day, StartOfDay(day) + minute) {
      Seqs.AppendAssoc(kept, [minute], rest);
    }
  }

  /** Labelling one more minute appends its label. */
  lemma FormatAllSnoc(minutes: seq<int>, m: int)
    requires forall i :: 0 <= i < |minutes| ==> 0 <= minutes[i] < 1440
    requires 0 <= m < 1440
    ensures FormatAll(minutes + [m]) == FormatAll(minutes) + [Clock.Format(m)]
  {
  }

  /** When both working hours read, the answer is the labels of the open candidates. */
  lemma SlotsOnDay(rule: SpanRule, doctors: Registry, store: Store, doctorId: DoctorId, day: int, from: int, until: int)
    requires doctorId in doctors
    requires Clock.Parse(doctors[doctorId].workingHours.start) == Some(from)
    requires Clock.Parse(doctors[doctorId].workingHours.end) == Some(until)
    ensures forall i :: 0 <= i < |OpenMinutes(rule, store, doctorId, day, from, until)| ==>
      0 <= OpenMinutes(rule, store, doctorId, day, from, until)[i] < 1440
    ensures AvailableSlots(rule, doctors, store, doctorId, OnDay(day))
         == Success(FormatAll(OpenMinutes(rule, store, doctorId, day, from, until)))
  {
  }

  /** The candidate minutes are exactly the working-hours start plus a
      multiple of 30 below the end. */
  lemma CandidateMinutes(from: int, until: int, m: int)
    ensures m in Candidates(from, until) <==> from <= m < until && (m - from) % 30 == 0
  {
    var c := Candidates(from, until);
    if from <= m < until && (m - from) % 30 == 0 {
      var i := CandidateIndex(from, until, m);
      assert c[i] == m;
    }
    if m in c {
      var i :| 0 <= i < |c| && c[i] == m;
      assert m - from == 30 * i;
    }
  }

  /** A minute a multiple of 30 after `from` and below `until` is candidate number `i`. */
  function CandidateIndex(from: int, until: int, m: int): (i: nat)
    requires from <= m < until && (m - from) % 30 == 0
    ensures m == from + 30 * i
    ensures i < (until - from + 29) / 30
  {
    var d := m - from;
    assert d == 30 * (d / 30);
    assert 30 * (d / 30) + 30 <= until - from + 29;
    d / 30
  }

  /** A label is listed exactly when its minute is a candidate whose
      30-minute slot no appointment of the doctor that day rules out. */
  lemma SlotListed(rule: SpanRule, doctors: Registry, store: Store, doctorId: DoctorId, day: int, from: int, until: int, m: int)
    requires doctorId in doctors
    requires Clock.Parse(doctors[doctorId].workingHours.start) == Some(from)
    requires Clock.Parse(doctors[doctorId].workingHours.end) == Some(until)
    requires 0 <= m < 1440
    ensures AvailableSlots(rule, doctors, store, doctorId, OnDay(day)).Success?
    ensures Clock.Format(m) in AvailableSlots(rule, doctors, store, doctorId, OnDay(day)).value
        <==> from <= m < until && (m - from) % 30 == 0 && IsOpen(rule, store, doctorId, day, StartOfDay(day) + m)
  {
    SlotsOnDay(rule, doctors, store, doctorId, day, from, until);
    FormatAllMember(OpenMinutes(rule, store, doctorId, day, from, until), m);
    OpenMinutesMember(rule, store, doctorId, day, from, until, m);
  }

  /** The open minutes are exactly the open candidates. */
  lemma OpenMinutesMember(rule: SpanRule, store: Store, doctorId: DoctorId, day: int, from: int, until: int, m: int)
    ensures m in OpenMinutes(rule, store, doctorId, day, from, until)
        <==> from <= m < until && (m - from) % 30 == 0 && IsOpen(rule, store, doctorId, day, StartOfDay(day) + m)
  {
    if m in OpenMinutes(rule, store, doctorId, day, from, until) {
      OpenMinutesSound(rule, store, doctorId, day, from, until, m);
    }
    if from <= m < until && (m - from) % 30 == 0 && IsOpen(rule, store, doctorId, day, StartOfDay(day) + m) {
      OpenMinutesComplete(rule, store, doctorId, day, from, until, m);
    }
  }

  /** Every open minute is an open candidate. */
  lemma OpenMinutesSound(rule: SpanRule, store: Store, doctorId: DoctorId, day: int, from: int, until: int, m: int)
    requires m in OpenMinutes(rule, store, doctorId, day, from, until)
    ensures from <= m < until && (m - from) % 30 == 0 && IsOpen(rule, store, doctorId, day, StartOfDay(day) + m)
  {
    var open := OpenMinutes(rule, store, doctorId, day, from, until);
    var i :| 0 <= i < |open| && open[i] == m;
  }

  /** Every open candidate is among the open minutes. */
  lemma {:induction false} OpenMinutesComplete(rule: SpanRule, store: Store, doctorId: DoctorId, day: int, from: int, until: int, m: int)
    requires from <= m < until && (m - from) % 30 == 0 && IsOpen(rule, store, doctorId, day, StartOfDay(day) + m)
    ensures m in OpenMinutes(rule, store, doctorId, day, from, until)
    decreases until - from
  {
    if m != from {
      OpenMinutesComplete(rule, store, doctorId, day, from + 30, until, m);
    }
  }

  /** Labels of distinct minutes differ, so a label is listed exactly when its minute is. */
  lemma FormatAllMember(minutes: seq<int>, m: int)
    requires forall i :: 0 <= i < |minutes| ==> 0 <= minutes[i] < 1440
    requires 0 <= m < 1440
    ensures Clock.Format(m) in FormatAll(minutes) <==> m in minutes
  {
    var labels := FormatAll(minutes);
    if Clock.Format(m) in labels {
      var i :| 0 <= i < |labels| && labels[i] == Clock.Format(m);
      Clock.ParseFormat(m);
      Clock.ParseFormat(minutes[i]);
    }
    if m in minutes {
      var i :| 0 <= i < |minutes| && minutes[i] == m;
      assert labels[i] == Clock.Format(m);
    }
  }

  /** The listed labels ascend: read back as minutes, each is later than the one before. */
  lemma SlotsAscending(rule: SpanRule, doctors: Registry, store: Store, doctorId: DoctorId, day: int)
    requires AvailableSlots(rule, doctors, store, doctorId, OnDay(day)).Success?
    ensures var slots := AvailableSlots(rule, doctors, store, doctorId, OnDay(day)).value;
      && (forall i :: 0 <= i < |slots| ==> Clock.Parse(slots[i]).Some?)
      && (forall i, j :: 0 <= i < j < |slots| ==> Clock.Parse(slots[i]).value < Clock.Parse(slots[j]).value)
  {
    var hours := doctors[doctorId].workingHours;
    if Clock.Parse(hours.start).Some? && Clock.Parse(hours.end).Some? {
      var from, until := Clock.Parse(hours.start).value, Clock.Parse(hours.end).value;
      var open := OpenMinutes(rule, store, doctorId, day, from, until);
      SlotsOnDay(rule, doctors, store, doctorId, day, from, until);
      var slots := FormatAll(open);
      forall i | 0 <= i < |slots| ensures Clock.Parse(slots[i]) == Some(open[i]) {
        Clock.ParseFormat(open[i]);
      }
    }
  }

  /** With no appointment of the doctor that day, every candidate is open. */
  lemma {:induction false} AllOpenIsCandidates(rule: SpanRule, store: Store, doctorId: DoctorId, day: int, from: int, until: int)
    requires forall id :: id in store ==> !OnDayOf(store[id], doctorId, day)
    ensures OpenMinutes(rule, store, doctorId, day, from, until) == Candidates(from, until)
    decreases until - from
  {
    if from < until {
      AllOpenIsCandidates(rule, store, doctorId, day, from + 30, until);
    }
  }

  /** With no appointment of the doctor that day, every candidate is listed. */
  lemma FreeDayListsEveryCandidate(rule: SpanRule, doctors: Registry, store: Store, doctorId: DoctorId, day: int, from: int, until: int)
    requires doctorId in doctors
    requires Clock.Parse(doctors[doctorId].workingHours.start) == Some(from)
    requires Clock.Parse(doctors[doctorId].workingHours.end) == Some(until)
    requires forall id :: id in store ==> !OnDayOf(store[id], doctorId, day)
    ensures forall i :: 0 <= i < |Candidates(from, until)| ==> 0 <= Candidates(from, until)[i] < 1440
    ensures AvailableSlots(rule, doctors, store, doctorId, OnDay(day)) == Success(FormatAll(Candidates(from, until)))
  {
    SlotsOnDay(rule, doctors, store, doctorId, day, from, until);
    AllOpenIsCandidates(rule, store, doctorId, day, from, until);
  }

  /** Open minutes depend only on which slots are open. */
  lemma {:induction false} OpenMinutesAgree(rule: SpanRule, store: Store, other: Store, doctorId: DoctorId, day: int, from: int, until: int)
    requires forall m :: IsOpen(rule, store, doctorId, day, m) == IsOpen(rule, other, doctorId, day, m)
    ensures OpenMinutes(rule, store, doctorId, day, from, until) == OpenMinutes(rule, other, doctorId, day, from, until)
    decreases until - from
  {
    if from < until {
      OpenMinutesAgree(rule, store, other, doctorId, day, from + 30, until);
    }
  }

  /** Booking an appointment for another doctor, or for another day, leaves
      the doctor's list for the day as it was. */
  lemma UnrelatedBookingIgnored(rule: SpanRule, doctors: Registry, store: Store, doctorId: DoctorId, day: int,
                                id: AppointmentId, a: Appointment)
    requires id !in store && !OnDayOf(a, doctorId, day)
    ensures AvailableSlots(rule, doctors, store[id := a], doctorId, OnDay(day))
         == AvailableSlots(rule, doctors, store, doctorId, OnDay(day))
  {
    forall m ensures IsOpen(rule, store[id := a], doctorId, day, m) == IsOpen(rule, store, doctorId, day, m) {
      if !IsOpen(rule, store[id := a], doctorId, day, m) {
        var k :| k in store[id := a] && OnDayOf(store[id := a][k], doctorId, day) && Blocks(rule, store[id := a][k], m);
        assert k != id && k in store;
      }
      if !IsOpen(rule, store, doctorId, day, m) {
        var k :| k in store && OnDayOf(store[k], doctorId, day) && Blocks(rule, store[k], m);
        assert k != id && store[id := a][k] == store[k];
      }
    }
    if doctorId in doctors {
      var hours := doctors[doctorId].workingHours;
      if Clock.Parse(hours.start).Some? && Clock.Parse(hours.end).Some? {
        var from, until := Clock.Parse(hours.start).value, Clock.Parse(hours.end).value;
        SlotsOnDay(rule, doctors, store, doctorId, day, from, until);
        SlotsOnDay(rule, doctors, store[id := a], doctorId, day, from, until);
        OpenMinutesAgree(rule, store[id := a], store, doctorId, day, from, until);
      }
    }
  }

  /** Hours whose end is not after their start, or that do not read as
      `"HH:mm"`, give an empty list rather than an error. */
  lemma NoHoursNoSlots(rule: SpanRule, doctors: Registry, store: Store, doctorId: DoctorId, day: int)
    requires doctorId in doctors
    requires var hours := doctors[doctorId].workingHours;
      || Clock.Parse(hours.start).None? || Clock.Parse(hours.end).None?
      || Clock.Parse(hours.start).value >= Clock.Parse(hours.end).value
    ensures AvailableSlots(rule, doctors, store, doctorId, OnDay(day)) == Success([])
  {
  }

  /** Both ends of the closed span count: a slot that ends exactly when an
      appointment of the doctor that day starts, or starts exactly when it
      ends, is not listed. */
  lemma TouchingSlotsNotListed(doctors: Registry, store: Store, doctorId: DoctorId, day: int,
                               id: AppointmentId, m: int)
    requires doctorId in doctors && id in store && OnDayOf(store[id], doctorId, day)
    requires store[id].duration >= 0 && 0 <= m < 1440
    requires StartOfDay(day) + m + 30 == store[id].start || StartOfDay(day) + m == store[id].End()
    requires AvailableSlots(Closed, doctors, store, doctorId, OnDay(day)).Success?
    ensures Clock.Format(m) !in AvailableSlots(Closed, doctors, store, doctorId, OnDay(day)).value
  {
    var hours := doctors[doctorId].workingHours;
    assert Blocks(Closed, store[id], StartOfDay(day) + m);
    if Clock.Parse(hours.start).Some? && Clock.Parse(hours.end).Some? {
      SlotListed(Closed, doctors, store, doctorId, day, Clock.Parse(hours.start).value, Clock.Parse(hours.end).value, m);
    }
  }

  /** The labels of the morning of the scenario below. */
  lemma MorningLabels()
    ensures Clock.Format(540) == "09:00" && Clock.Format(570) == "09:30" && Clock.Format(600) == "10:00"
  {
  }

  /** Whether the slot at minute `m` of the day with one booking is open. */
  lemma OneBookingOpen(rule: SpanRule, store: Store, doctorId: DoctorId, day: int, id: AppointmentId,
                       a: Appointment, m: int)
    requires store == map[id := a] && OnDayOf(a, doctorId, day)
    ensures IsOpen(rule, store, doctorId, day, StartOfDay(day) + m) <==> !Blocks(rule, a, StartOfDay(day) + m)
  {
    if !IsOpen(rule, store, doctorId, day, StartOfDay(day) + m) {
      var k :| k in store && OnDayOf(store[k], doctorId, day) && Blocks(rule, store[k], StartOfDay(day) + m);
      assert k == id;
    }
    if Blocks(rule, a, StartOfDay(day) + m) {
      assert id in store && store[id] == a;
    }
  }

  /** The listing of the scenario below, minute by minute. */
  lemma OneBookingListed(rule: SpanRule, doctors: Registry, store: Store, doctorId: DoctorId, day: int,
                         id: AppointmentId, a: Appointment, m: int, text: string)
    requires doctorId in doctors && doctors[doctorId].workingHours == WorkingHours("09:00", "17:00")
    requires store == map[id := a] && OnDayOf(a, doctorId, day)
    requires 540 <= m < 1020 && (m - 540) % 30 == 0 && text == Clock.Format(m)
    ensures AvailableSlots(rule, doctors, store, doctorId, OnDay(day)).Success?
    ensures text in AvailableSlots(rule, doctors, store, doctorId, OnDay(day)).value
        <==> !Blocks(rule, a, StartOfDay(day) + m)
  {
    HoursRead();
    SlotListed(rule, doctors, store, doctorId, day, 540, 1020, m);
    OneBookingOpen(rule, store, doctorId, day, id, a, m);
  }

  /** The morning of the scenario below: 09:00 is listed; 09:30, ending as
      the appointment starts, and 10:00, its start, are not. */
  lemma MorningOfOneBooking(rule: SpanRule, doctors: Registry, store: Store, doctorId: DoctorId, day: int,
                            id: AppointmentId, a: Appointment)
    requires doctorId in doctors && doctors[doctorId].workingHours == WorkingHours("09:00", "17:00")
    requires store == map[id := a] && a.doctorId == doctorId && a.start == StartOfDay(day) + 600 && a.duration == 60
    ensures AvailableSlots(rule, doctors, store, doctorId, OnDay(day)).Success?
    ensures var slots := AvailableSlots(rule, doctors, store, doctorId, OnDay(day)).value;
      "09:00" in slots && "09:30" !in slots && "10:00" !in slots
  {
    MorningLabels();
    OneBookingListed(rule, doctors, store, doctorId, day, id, a, 540, "09:00");
    OneBookingListed(rule, doctors, store, doctorId, day, id, a, 570, "09:30");
    OneBookingListed(rule, doctors, store, doctorId, day, id, a, 600, "10:00");
  }

  /** In the scenario below, 10:30 lies inside the appointment and is not listed. */
  lemma InsideNotListed(rule: SpanRule, doctors: Registry, store: Store, doctorId: DoctorId, day: int,
      id: AppointmentId, a: Appointment)
    requires doctorId in doctors && doctors[doctorId].workingHours == WorkingHours("09:00", "17:00")
    requires store == map[id := a] && a.doctorId == doctorId && a.start == StartOfDay(day) + 600 && a.duration == 60
    ensures AvailableSlots(rule, doctors, store, doctorId, OnDay(day)).Success?
    ensures "10:30" !in AvailableSlots(rule, doctors, store, doctorId, OnDay(day)).value
  {
    assert Clock.Format(630) == "10:30";
    OneBookingListed(rule, doctors, store, doctorId, day, id, a, 630, "10:30");
  }

  /** In the scenario below, 11:00 starts as the appointment ends: it is
      listed exactly under the half-open rule. */
  lemma TouchingEndListed(rule: SpanRule, doctors: Registry, store: Store, doctorId: DoctorId, day: int,
      id: AppointmentId, a: Appointment)
    requires doctorId in doctors && doctors[doctorId].workingHours == WorkingHours("09:00", "17:00")
    requires store == map[id := a] && a.doctorId == doctorId && a.start == StartOfDay(day) + 600 && a.duration == 60
    ensures AvailableSlots(rule, doctors, store, doctorId, OnDay(day)).Success?
    ensures "11:00" in AvailableSlots(rule, doctors, store, doctorId, OnDay(day)).value <==> rule == HalfOpen
  {
    assert Clock.Format(660) == "11:00";
    OneBookingListed(rule, doctors, store, doctorId, day, id, a, 660, "11:00");
  }

  /** In the scenario below, 11:30 starts after the appointment and is listed. */
  lemma AfterListed(rule: SpanRule, doctors: Registry, store: Store, doctorId: DoctorId, day: int,
      id: AppointmentId, a: Appointment)
    requires doctorId in doctors && doctors[doctorId].workingHours == WorkingHours("09:00", "17:00")
    requires store == map[id := a] && a.doctorId == doctorId && a.start == StartOfDay(day) + 600 && a.duration == 60
    ensures AvailableSlots(rule, doctors, store, doctorId, OnDay(day)).Success?
    ensures "11:30" in AvailableSlots(rule, doctors, store, doctorId, OnDay(day)).value
  {
    assert Clock.Format(690) == "11:30";
    OneBookingListed(rule, doctors, store, doctorId, day, id, a, 690, "11:30");
  }

  /** A doctor working 09:00 to 17:00 with one 60-minute appointment at
      10:00: 09:00 and 11:30 are listed; 09:30 (ending as the appointment
      starts), 10:00 and 10:30 are not; 11:00, starting as the appointment
      ends, is listed exactly under the half-open rule. */
  lemma DayWithOneBooking(rule: SpanRule, doctors: Registry, store: Store, doctorId: DoctorId, day: int,
                          id: AppointmentId, a: Appointment)
    requires doctorId in doctors && doctors[doctorId].workingHours == WorkingHours("09:00", "17:00")
    requires store == map[id := a] && a.doctorId == doctorId && a.start == StartOfDay(day) + 600 && a.duration == 60
    ensures AvailableSlots(rule, doctors, store, doctorId, OnDay(day)).Success?
    ensures var slots := AvailableSlots(rule, doctors, store, doctorId, OnDay(day)).value;
      && "09:00" in slots && "09:30" !in slots && "10:00" !in slots && "10:30" !in slots
      && "11:30" in slots
      && ("11:00" in slots <==> rule == HalfOpen)
  {
    MorningOfOneBooking(rule, doctors, store, doctorId, day, id, a);
    InsideNotListed(rule, doctors, store, doctorId, day, id, a);
    TouchingEndListed(rule, doctors, store, doctorId, day, id, a);
    AfterListed(rule, doctors, store, doctorId, day, id, a);
  }
}

=== FILE: http.dfy ===
/** Why a request is refused, and the HTTP status each reason is answered with. */
module Http {

  datatype Rejection =
    | DoctorNotFound        // 404
    | AppointmentNotFound   // 404
    | DateRequired          // 400
    | PastAppointment       // 400
    | OutsideWorkingHours   // 400
    | SlotUnavailable       // 400
    | ServerError           // 500: a thrown error or a failed save, caught by the handler

  function Status(r: Rejection): int {
    match r
    case DoctorNotFound => 404
    case AppointmentNotFound => 404
    case ServerError => 500
    case _ => 400
  }
}

=== FILE: js.dfy ===
/** The few JavaScript primitives the booking code leans on: truthiness of a
    request value, `parseInt` without a radix (decimal, or hexadecimal after
    a `0x` prefix), `String.prototype.split` on one character,
    `Number.prototype.toString` and `padStart`. */
module Js {
  import opened Wrappers

  /** A request-body value: absent, a JSON number (always integral here), or a string. */
  datatype Value = Undefined | Num(n: int) | Str(s: string)

  /** JavaScript truthiness of a request value. */
  predicate Truthy(v: Value) {
    match v
    case Undefined => false
    case Num(n) => n != 0
    case Str(s) => s != ""
  }

  predicate IsDigit(c: char) {
    '0' <= c <= '9'
  }

  predicate AllDigits(s: string) {
    forall i :: 0 <= i < |s| ==> IsDigit(s[i])
  }

  /** The white space `parseInt` skips before the number: the ECMAScript
      WhiteSpace characters (tab, vertical tab, form feed, space, no-break
      space, the byte order mark and every Unicode space separator) and the
      LineTerminator characters. */
  predicate IsSpace(c: char) {
    || c == '\t' || c == '\U{000B}' || c == '\U{000C}' || c == ' ' || c == '\U{00A0}' || c == '\U{FEFF}'
    || c == '\U{1680}' || ('\U{2000}' <= c <= '\U{200A}') || c == '\U{202F}' || c == '\U{205F}' || c == '\U{3000}'
    || c == '\n' || c == '\r' || c == '\U{2028}' || c == '\U{2029}'
  }

  predicate IsHexDigit(c: char) {
    IsDigit(c) || 'a' <= c <= 'f' || 'A' <= c <= 'F'
  }

  predicate AllHex(s: string) {
    forall i :: 0 <= i < |s| ==> IsHexDigit(s[i])
  }

  function HexDigitValue(c: char): (d: nat)
    requires IsHexDigit(c)
    ensures d < 16
  {
    if IsDigit(c) then DigitValue(c)
    else if 'a' <= c <= 'f' then (c as int) - ('a' as int) + 10
    else (c as int) - ('A' as int) + 10
  }

  /** The number a string of hexadecimal digits denotes, most significant digit first. */
  function HexValue(s: string): nat
    requires AllHex(s)
  {
    if |s| == 0 then 0 else 16 * HexValue(s[..|s| - 1]) + HexDigitValue(s[|s| - 1])
  }

  /** The longest prefix of `s` made of hexadecimal digits. */
  function LeadingHex(s: string): (r: string)
    ensures |r| <= |s| && r == s[..|r|]
    ensures AllHex(r)
    ensures |r| < |s| ==> !IsHexDigit(s[|r|])
  {
    if |s| > 0 && IsHexDigit(s[0]) then [s[0]] + LeadingHex(s[1..]) else ""
  }

  /** `parseInt` with no radix reads what follows `0x` or `0X` in base 16. */
  predicate HexPrefix(s: string) {
    |s| >= 2 && s[0] == '0' && (s[1] == 'x' || s[1] == 'X')
  }

  function DigitValue(c: char): (d: nat)
    requires IsDigit(c)
    ensures d < 10
  {
    (c as int) - ('0' as int)
  }

  function DigitChar(d: nat): (c: char)
    requires d < 10
    ensures IsDigit(c) && DigitValue(c) == d
  {
    (('0' as int) + d) as char
  }

  /** The number a string of decimal digits denotes, most significant digit first. */
  function DigitsValue(s: string): nat
    requires AllDigits(s)
  {
    if |s| == 0 then 0 else 10 * DigitsValue(s[..|s| - 1]) + DigitValue(s[|s| - 1])
  }

  /** The longest prefix of `s` made of decimal digits. */
  function LeadingDigits(s: string): (r: string)
    ensures |r| <= |s| && r == s[..|r|]
    ensures AllDigits(r)
    ensures |r| < |s| ==> !IsDigit(s[|r|])
  {
    if |s| > 0 && IsDigit(s[0]) then [s[0]] + LeadingDigits(s[1..]) else ""
  }

  /** `s` without its leading white space. */
  function TrimStart(s: string): (r: string)
    ensures |r| <= |s| && r == s[|s| - |r|..]
    ensures |r| > 0 ==> !IsSpace(r[0])
  {
    if |s| > 0 && IsSpace(s[0]) then TrimStart(s[1..]) else s
  }

  /** `parseInt(s)` with no radix: skip leading white space, read an optional
      sign, then the unsigned number after it; `None` is `NaN`. */
  function ParseInt(s: string): Option<int> {
    var t := TrimStart(s);
    if |t| > 0 && t[0] == '-' then
      match ReadUnsigned(t[1..])
      case None => None
      case Some(n) => Some(-(n as int))
    else if |t| > 0 && t[0] == '+' then ReadUnsigned(t[1..])
    else ReadUnsigned(t)
  }

  /** After a `0x` or `0X` prefix, as many hexadecimal digits as there are;
      otherwise as many decimal digits. */
  function ReadUnsigned(s: string): Option<nat> {
    if HexPrefix(s) then ReadHex(s[2..]) else ReadDecimal(s)
  }

  /** The decimal digits at the front of `s`, or `NaN` when there are none. */
  function ReadDecimal(s: string): Option<nat> {
    var digits := LeadingDigits(s);
    if digits == "" then None else Some(DigitsValue(digits))
  }

  /** The hexadecimal digits at the front of `s`, or `NaN` when there are none. */
  function ReadHex(s: string): Option<nat> {
    var digits := LeadingHex(s);
    if digits == "" then None else Some(HexValue(digits))
  }

  /** `parseInt(v)` for a request value: a number reads back as itself, an
      absent value as `parseInt("undefined")`, which is `NaN`. */
  function ParseValue(v: Value): Option<int> {
    match v
    case Undefined => None
    case Num(n) => Some(n)
    case Str(s) => ParseInt(s)
  }

  /** `parsed || fallback`: `NaN` and `0` are falsy and give way to the fallback. */
  function OrElse(parsed: Option<int>, fallback: int): (r: int)
    ensures r == fallback || (parsed.Some? && r == parsed.value)
    ensures r == fallback <== parsed.None? || parsed.value == 0
    ensures parsed.Some? && parsed.value != 0 ==> r == parsed.value
  {
    if parsed.Some? && parsed.value != 0 then parsed.value else fallback
  }

  /** `n.toString()` for a natural number. */
  function Decimal(n: nat): (r: string)
    ensures |r| >= 1 && AllDigits(r)
  {
    if n < 10 then [DigitChar(n)] else Decimal(n / 10) + [DigitChar(n % 10)]
  }

  /** `s.padStart(width, fill)`. */
  function PadStart(s: string, width: nat, fill: char): (r: string)
    ensures |r| == if |s| >= width then |s| else width
    ensures r[|r| - |s|..] == s
    ensures forall i :: 0 <= i < |r| - |s| ==> r[i] == fill
  {
    if |s| >= width then s else seq(width - |s|, _ => fill) + s
  }

  /** `s.split(sep)` for a one-character separator: the pieces between the separators. */
  function Split(s: string, sep: char): (parts: seq<string>)
    ensures |parts| >= 1
    ensures forall i :: 0 <= i < |parts| ==> sep !in parts[i]
  {
    if |s| == 0 then [""]
    else
      var rest := Split(s[1..], sep);
      if s[0] == sep then [""] + rest else [[s[0]] + rest[0]] + rest[1..]
  }

  /** `parts.join(sep)`, the inverse of `Split`. */
  function Join(parts: seq<string>, sep: char): string
    requires |parts| >= 1
  {
    if |parts| == 1 then parts[0] else parts[0] + [sep] + Join(parts[1..], sep)
  }

  /** Joining the pieces of a split gives back the string. */
  lemma {:induction false} JoinSplit(s: string, sep: char)
    ensures Join(Split(s, sep), sep) == s
  {
    if |s| > 0 {
      var rest := Split(s[1..], sep);
      JoinSplit(s[1..], sep);
      if s[0] == sep {
        assert Split(s, sep) == [""] + rest;
        assert ([""] + rest)[1..] == rest;
      } else {
        var parts := [[s[0]] + rest[0]] + rest[1..];
        assert Split(s, sep) == parts;
        if |rest| == 1 {
          assert Join(parts, sep) == [s[0]] + rest[0];
        } else {
          assert parts[1..] == rest[1..];
          assert Join(rest, sep) == rest[0] + [sep] + Join(rest[1..], sep);
        }
      }
    }
  }

  /** Splitting a string that holds exactly one separator yields its two sides. */
  lemma {:induction false} SplitOnce(a: string, b: string, sep: char)
    requires sep !in a && sep !in b
    ensures Split(a + [sep] + b, sep) == [a, b]
  {
    if |a| == 0 {
      assert a + [sep] + b == [sep] + b;
      SplitNone(b, sep);
      assert ([sep] + b)[1..] == b;
    } else {
      SplitOnce(a[1..], b, sep);
      assert (a + [sep] + b)[1..] == a[1..] + [sep] + b;
      assert [a[0]] + a[1..] == a;
    }
  }

  /** A string without the separator splits into itself alone. */
  lemma {:induction false} SplitNone(s: string, sep: char)
    requires sep !in s
    ensures Split(s, sep) == [s]
  {
    if |s| > 0 {
      SplitNone(s[1..], sep);
      assert [s[0]] + s[1..] == s;
    }
  }

  /** Reading back the digits `Decimal` writes gives the number. */
  lemma {:induction false} DecimalValue(n: nat)
    ensures DigitsValue(Decimal(n)) == n
  {
    if n >= 10 {
      var d := Decimal(n);
      assert d[..|d| - 1] == Decimal(n / 10);
      DecimalValue(n / 10);
    }
  }

  /** Leading zeros do not change the value of a digit string. */
  lemma {:induction false} LeadingZerosValue(zeros: string, s: string)
    requires forall i :: 0 <= i < |zeros| ==> zeros[i] == '0'
    requires AllDigits(s)
    ensures AllDigits(zeros + s)
    ensures DigitsValue(zeros + s) == DigitsValue(s)
  {
    if |s| == 0 {
      assert zeros + s == zeros;
      AllZerosValue(zeros);
    } else {
      var t := zeros + s;
      assert t[..|t| - 1] == zeros + s[..|s| - 1];
      LeadingZerosValue(zeros, s[..|s| - 1]);
    }
  }

  lemma {:induction false} AllZerosValue(zeros: string)
    requires forall i :: 0 <= i < |zeros| ==> zeros[i] == '0'
    ensures AllDigits(zeros) && DigitsValue(zeros) == 0
  {
    if |zeros| > 0 {
      AllZerosValue(zeros[..|zeros| - 1]);
    }
  }

  /** A whole digit string is its own longest digit prefix. */
  lemma {:induction false} LeadingDigitsOfDigits(s: string)
    requires AllDigits(s)
    ensures LeadingDigits(s) == s
  {
    if |s| > 0 {
      LeadingDigitsOfDigits(s[1..]);
    }
  }

  /** `parseInt` reads back a zero-padded `toString`: the client's slot labels
      survive the trip through text. */
  lemma ParsePadded(n: nat, width: nat)
    ensures ParseInt(PadStart(Decimal(n), width, '0')) == Some(n)
  {
    var d := Decimal(n);
    var p := PadStart(d, width, '0');
    var zeros := p[..|p| - |d|];
    assert p == zeros + d;
    LeadingZerosValue(zeros, d);
    DecimalValue(n);
    ParseDigits(p);
  }

  /** A non-empty digit string parses to the number it denotes. */
  lemma ParseDigits(s: string)
    requires |s| > 0 && AllDigits(s)
    ensures ParseInt(s) == Some(DigitsValue(s))
  {
    assert !HexPrefix(s) by {
      if |s| >= 2 {
        assert IsDigit(s[1]);
      }
    }
    ParseUnsigned(s);
    LeadingDigitsOfDigits(s);
  }

  /** A string that starts with neither white space nor a sign is read as
      an unsigned number. */
  lemma ParseUnsigned(s: string)
    requires |s| > 0 && !IsSpace(s[0]) && s[0] != '-' && s[0] != '+'
    ensures ParseInt(s) == ReadUnsigned(s)
  {
    assert TrimStart(s) == s;
  }

  /** A whole hexadecimal string is its own longest hexadecimal prefix. */
  lemma {:induction false} LeadingHexOfHex(s: string)
    requires AllHex(s)
    ensures LeadingHex(s) == s
  {
    if |s| > 0 {
      LeadingHexOfHex(s[1..]);
    }
  }

  /** After a `0x` or `0X` prefix, `parseInt` reads the rest in base 16. */
  lemma ParseHex(x: char, hex: string)
    requires x == 'x' || x == 'X'
    requires |hex| > 0 && AllHex(hex)
    ensures ParseInt(['0', x] + hex) == Some(HexValue(hex))
  {
    var s := ['0', x] + hex;
    ParseUnsigned(s);
    assert HexPrefix(s) && s[2..] == hex;
    ReadWholeHex(hex);
  }

  /** A non-empty hexadecimal string reads as its value. */
  lemma ReadWholeHex(hex: string)
    requires |hex| > 0 && AllHex(hex)
    ensures ReadHex(hex) == Some(HexValue(hex))
  {
    LeadingHexOfHex(hex);
  }

  /** Leading white space, such as a no-break space, is skipped. */
  lemma SpaceSkipped(c: char, s: string)
    requires IsSpace(c)
    ensures ParseInt([c] + s) == ParseInt(s)
  {
    assert ([c] + s)[1..] == s;
  }

  /** `parseInt("0x3C")` is 60. */
  lemma HexSixty()
    ensures ParseInt("0x3C") == Some(60)
  {
    var hex := "3C";
    assert AllHex(hex) && hex[..1] == "3" && hex[..1][..0] == "";
    assert HexValue(hex) == 60;
    ParseHex('x', hex);
    assert "0x3C" == ['0', 'x'] + hex;
  }

  /** `parseInt("0x")` is `NaN`: the prefix needs a digit after it. */
  lemma HexNeedsDigits()
    ensures ParseInt("0x") == None
  {
    var e := "0x";
    ParseUnsigned(e);
    assert HexPrefix(e) && e[2..] == "";
  }
}

=== FILE: models.dfy ===
/** The two persisted records, Appointment and Doctor, with the defaults and
    validation rules of their schemas. */
module Models {
  import opened Wrappers
  import opened Time
  import Clock

  type DoctorId = nat
  type AppointmentId = nat

  /** The values the appointment type may take when it is present. */
  const AppointmentTypes: seq<string> := ["Routine Check-Up", "Ultrasound", "Consultation", "Follow-up"]

  const DefaultDuration: int := 30
  const DefaultWorkStart: string := "09:00"
  const DefaultWorkEnd: string := "17:00"
  const DefaultSpecialization: string := "General"

  /** An appointment document. A required string that was not supplied is
      held as the empty string: the schema's `required` rejects both alike. */
  datatype Appointment = Appointment(
    doctorId: DoctorId,
    start: Instant,
    duration: int,
    appointmentType: Option<string>,
    patientName: string,
    notes: Option<string>)
  {
    /** The instant the appointment ends: `start` plus `duration` minutes. */
    function End(): Instant {
      AddMinutes(start, duration)
    }
  }

  /** The duration enum of the schema: 30 or 60 minutes. */
  predicate AllowedDuration(minutes: int) {
    minutes == 30 || minutes == 60
  }

  /** What `save()` accepts: a patient name, an allowed duration, and a type
      from the list when one is given. Notes are free text. */
  predicate ValidAppointment(a: Appointment) {
    && a.patientName != ""
    && AllowedDuration(a.duration)
    && (a.appointmentType.Some? ==> a.appointmentType.value in AppointmentTypes)
  }

  /** `new Appointment({...})`: the duration defaults to 30 minutes when it is not given. */
  function NewAppointment(doctorId: DoctorId, start: Instant, duration: Option<int>,
                          appointmentType: Option<string>, patientName: Option<string>,
                          notes: Option<string>): Appointment
  {
    Appointment(doctorId, start, duration.GetOr(DefaultDuration), appointmentType,
                patientName.GetOr(""), notes)
  }

  /** A doctor's daily window, as `"HH:mm"` strings. */
  datatype WorkingHours = WorkingHours(start: string, end: string)

  datatype Doctor = Doctor(name: string, workingHours: WorkingHours, specialization: string)

  /** `new Doctor({...})` with the schema defaults for the fields not given. */
  function NewDoctor(name: Option<string>, start: Option<string>, end: Option<string>,
                     specialization: Option<string>): Doctor
  {
    Doctor(name.GetOr(""),
           WorkingHours(start.GetOr(DefaultWorkStart), end.GetOr(DefaultWorkEnd)),
           specialization.GetOr(DefaultSpecialization))
  }

  /** What `save()` accepts for a doctor: name and both ends of the working
      hours present. Nothing relates the start to the end. */
  predicate ValidDoctor(d: Doctor) {
    d.name != "" && d.workingHours.start != "" && d.workingHours.end != ""
  }

  /** The appointment collection, by id. */
  type Store = map<AppointmentId, Appointment>

  /** The doctor collection, by id. */
  type Registry = map<DoctorId, Doctor>

  /** Every stored appointment passed the schema's validation. */
  ghost predicate ValidStore(store: Store) {
    forall id :: id in store ==> ValidAppointment(store[id])
  }

  /** An appointment as a listing returns it, with its id. */
  datatype Entry = Entry(id: AppointmentId, appointment: Appointment)

  /** With only a patient name supplied, the schema defaults yield a valid
      30-minute appointment; without the name, no appointment is valid. */
  lemma NewAppointmentDefaults(doctorId: DoctorId, start: Instant, name: Option<string>, notes: Option<string>)
    ensures NewAppointment(doctorId, start, None, None, name, notes).duration == 30
    ensures ValidAppointment(NewAppointment(doctorId, start, None, None, name, notes))
            <==> name.Some? && name.value != ""
  {
  }

  /** Of the fields, the duration alone decides validity once the others are
      valid: exactly 30 and 60 pass. */
  lemma DurationDecidesValidity(a: Appointment, minutes: int)
    requires ValidAppointment(a)
    ensures ValidAppointment(a.(duration := minutes)) <==> minutes == 30 || minutes == 60
  {
  }

  /** The appointment type is optional, and any value outside the four listed ones is refused. */
  lemma AppointmentTypeRule(a: Appointment, t: string)
    requires ValidAppointment(a)
    ensures ValidAppointment(a.(appointmentType := None))
    ensures ValidAppointment(a.(appointmentType := Some(t))) <==> t in AppointmentTypes
    ensures !ValidAppointment(a.(appointmentType := Some("")))
  {
    assert "" != AppointmentTypes[0] && "" != AppointmentTypes[1];
    assert "" != AppointmentTypes[2] && "" != AppointmentTypes[3];
  }

  /** Notes never affect validity. */
  lemma NotesUnconstrained(a: Appointment, notes: Option<string>)
    ensures ValidAppointment(a.(notes := notes)) <==> ValidAppointment(a)
  {
  }

  /** A doctor created with a name alone gets the default hours 09:00 to 17:00
      and specialization "General", and is valid. */
  lemma NewDoctorDefaults(name: string)
    requires name != ""
    ensures var d := NewDoctor(Some(name), None, None, None);
      && ValidDoctor(d)
      && d.workingHours == WorkingHours("09:00", "17:00")
      && d.specialization == "General"
      && Clock.Parse(d.workingHours.start) == Some(540)
      && Clock.Parse(d.workingHours.end) == Some(1020)
  {
    HoursRead();
  }

  /** A doctor without a name, or with an empty end of the working hours, is
      refused. */
  lemma DoctorRequiredFields(name: string)
    ensures !ValidDoctor(NewDoctor(None, None, None, None))
    ensures !ValidDoctor(NewDoctor(Some(name), None, Some(""), None))
  {
  }

  /** A doctor whose hours end before they start is accepted. */
  lemma InvertedHoursAccepted(name: string)
    requires name != ""
    ensures var late := NewDoctor(Some(name), Some("17:00"), Some("09:00"), None);
      && ValidDoctor(late)
      && Clock.Parse(late.workingHours.start) == Some(1020)
      && Clock.Parse(late.workingHours.end) == Some(540)
  {
    HoursRead();
  }

  /** The default hours read as minutes 540 and 1020 of the day. */
  lemma HoursRead()
    ensures Clock.Parse("09:00") == Some(540) && Clock.Parse("17:00") == Some(1020)
  {
    Clock.NineReads();
    ClosingReads();
  }

  /** "17:00" reads as minute 1020. */
  lemma ClosingReads()
    ensures Clock.Parse("17:00") == Some(1020)
  {
    Clock.ParseFormat(1020);
    ClosingFormats();
  }

  /** Minute 1020 is formatted "17:00". */
  lemma ClosingFormats()
    ensures Clock.Format(1020) == "17:00"
  {
    assert Clock.TwoDigits(17) == "17" && Clock.TwoDigits(0) == "00";
  }
}

=== FILE: order.dfy ===
/** Ordering appointment listings by start instant: the `sort({ date: 1 })`
    of the server listing and the client's `sort` by date. */
module Order {
  import opened Models

  ghost predicate SortedByStart(s: seq<Entry>) {
    forall i, j :: 0 <= i < j < |s| ==> s[i].appointment.start <= s[j].appointment.start
  }

  /** The ids a listing holds. */
  function IdsOf(s: seq<Entry>): set<AppointmentId> {
    set i | 0 <= i < |s| :: s[i].id
  }

  /** No id is listed twice. */
  ghost predicate DistinctIds(s: seq<Entry>) {
    forall i, j :: 0 <= i < j < |s| ==> s[i].id != s[j].id
  }

  /** Insert `e` into a sorted listing after every entry that does not start
      later, so that entries with equal starts keep their arrival order. */
  function Insert(s: seq<Entry>, e: Entry): (r: seq<Entry>)
    requires SortedByStart(s)
    ensures SortedByStart(r)
    ensures multiset(r) == multiset(s) + multiset{e}
  {
    if |s| == 0 || e.appointment.start < s[0].appointment.start then [e] + s
    else
      SortedTail(s);
      var t := Insert(s[1..], e);
      assert s == [s[0]] + s[1..];
      LowerBound(s, t, e);
      [s[0]] + t
  }

  /** The tail of a sorted listing is sorted. */
  lemma SortedTail(s: seq<Entry>)
    requires |s| > 0 && SortedByStart(s)
    ensures SortedByStart(s[1..])
  {
    forall i, j | 0 <= i < j < |s| - 1
      ensures s[1..][i].appointment.start <= s[1..][j].appointment.start
    {
      assert s[1..][i] == s[i + 1] && s[1..][j] == s[j + 1];
    }
  }

  /** Putting the head of a sorted listing in front of a sorted rearrangement
      of its tail and one entry that starts no earlier keeps the order. */
  lemma LowerBound(s: seq<Entry>, t: seq<Entry>, e: Entry)
    requires |s| > 0 && SortedByStart(s) && SortedByStart(t)
    requires s[0].appointment.start <= e.appointment.start
    requires multiset(t) == multiset(s[1..]) + multiset{e}
    ensures SortedByStart([s[0]] + t)
  {
    var r := [s[0]] + t;
    forall i, j | 0 <= i < j < |r| ensures r[i].appointment.start <= r[j].appointment.start {
      if i == 0 {
        assert r[j] == t[j - 1];
        assert t[j - 1] in multiset(t);
        if t[j - 1] != e {
          assert t[j - 1] in multiset(s[1..]);
          var k :| 0 <= k < |s| - 1 && s[1..][k] == t[j - 1];
          assert s[1..][k] == s[k + 1];
        }
      } else {
        assert r[i] == t[i - 1] && r[j] == t[j - 1];
      }
    }
  }

  /** What an insertion holds: the old entries and the new one, one more than before. */
  lemma InsertMembers(s: seq<Entry>, e: Entry)
    requires SortedByStart(s)
    ensures |Insert(s, e)| == |s| + 1
    ensures forall x :: x in Insert(s, e) ==> x == e || x in s
  {
    var r := Insert(s, e);
    assert |multiset(r)| == |multiset(s)| + 1;
    forall x | x in r ensures x == e || x in s {
      assert x in multiset(r);
    }
  }

  lemma IdsOfCons(x: Entry, s: seq<Entry>)
    ensures IdsOf([x] + s) == {x.id} + IdsOf(s)
  {
    var r := [x] + s;
    forall y | y in IdsOf(r) ensures y in {x.id} + IdsOf(s) {
      var i :| 0 <= i < |r| && r[i].id == y;
      if i > 0 {
        assert r[i] == s[i - 1];
        assert s[i - 1].id in IdsOf(s);
      }
    }
    forall y | y in IdsOf(s) ensures y in IdsOf(r) {
      var i :| 0 <= i < |s| && s[i].id == y;
      assert r[i + 1] == s[i];
      assert r[i + 1].id in IdsOf(r);
    }
    assert r[0].id in IdsOf(r);
  }

  lemma DistinctCons(x: Entry, s: seq<Entry>)
    requires DistinctIds(s) && x.id !in IdsOf(s)
    ensures DistinctIds([x] + s)
  {
    var r := [x] + s;
    forall i, j | 0 <= i < j < |r| ensures r[i].id != r[j].id {
      assert r[j] == s[j - 1];
      if i == 0 {
        assert s[j - 1].id in IdsOf(s);
      } else {
        assert r[i] == s[i - 1];
      }
    }
  }

  /** Inserting an entry whose id is new keeps the ids distinct and adds its id. */
  lemma {:induction false} InsertIds(s: seq<Entry>, e: Entry)
    requires SortedByStart(s) && DistinctIds(s) && e.id !in IdsOf(s)
    ensures DistinctIds(Insert(s, e))
    ensures IdsOf(Insert(s, e)) == IdsOf(s) + {e.id}
  {
    if |s| == 0 || e.appointment.start < s[0].appointment.start {
      IdsOfCons(e, s);
      DistinctCons(e, s);
    } else {
      assert s == [s[0]] + s[1..];
      IdsOfCons(s[0], s[1..]);
      assert DistinctIds(s[1..]) by {
        forall i, j | 0 <= i < j < |s| - 1 ensures s[1..][i].id != s[1..][j].id {
          assert s[1..][i] == s[i + 1] && s[1..][j] == s[j + 1];
        }
      }
      SortedTail(s);
      InsertIds(s[1..], e);
      var t := Insert(s[1..], e);
      assert Insert(s, e) == [s[0]] + t;
      IdsOfCons(s[0], t);
      assert s[0].id !in IdsOf(s[1..]);
      DistinctCons(s[0], t);
    }
  }

  /** `entries.sort((a, b) => a.date - b.date)`: a stable sort by start instant. */
  function SortByStart(s: seq<Entry>): (r: seq<Entry>)
    ensures SortedByStart(r)
    ensures multiset(r) == multiset(s)
  {
    if |s| == 0 then []
    else
      var r := Insert(SortByStart(s[..|s| - 1]), s[|s| - 1]);
      assert s == s[..|s| - 1] + [s[|s| - 1]];
      r
  }
}

=== FILE: seqs.dfy ===
/** `Array.prototype.filter` and ordering facts about the sequences it yields. */
module Seqs {

  /** `s.filter(p)`: the elements of `s` that satisfy `p`, in their original order. */
  function Filter<T(!new)>(s: seq<T>, p: T -> bool): (r: seq<T>)
    ensures |r| <= |s|
    ensures forall x :: x in r <==> x in s && p(x)
    ensures forall i :: 0 <= i < |r| ==> p(r[i])
  {
    if |s| == 0 then []
    else (if p(s[0]) then [s[0]] else []) + Filter(s[1..], p)
  }

  /** Keys strictly increase along the sequence. */
  ghost predicate IncreasingBy<T>(s: seq<T>, key: T -> int) {
    forall i, j :: 0 <= i < j < |s| ==> key(s[i]) < key(s[j])
  }

  /** A filter that keeps everything changes nothing. */
  lemma {:induction false} FilterKeepsAll<T(!new)>(s: seq<T>, p: T -> bool)
    requires forall x :: x in s ==> p(x)
    ensures Filter(s, p) == s
  {
    if |s| > 0 {
      FilterKeepsAll(s[1..], p);
      assert [s[0]] + s[1..] == s;
    }
  }

  /** Filtering keeps the relative order: a strictly increasing sequence
      filters to a strictly increasing one. */
  lemma {:induction false} FilterIncreasing<T(!new)>(s: seq<T>, p: T -> bool, key: T -> int)
    requires IncreasingBy(s, key)
    ensures IncreasingBy(Filter(s, p), key)
  {
    if |s| > 0 {
      var rest := Filter(s[1..], p);
      IncreasingTail(s, key);
      FilterIncreasing(s[1..], p, key);
      if p(s[0]) {
        forall x | x in rest ensures key(s[0]) < key(x) {
          HeadBelowRest(s, key, x);
        }
        ConsIncreasing(s[0], rest, key);
        assert Filter(s, p) == [s[0]] + rest;
      } else {
        assert Filter(s, p) == rest;
      }
    }
  }

  /** Putting an element below everything in front of a strictly increasing
      sequence keeps it strictly increasing. */
  lemma ConsIncreasing<T>(x: T, rest: seq<T>, key: T -> int)
    requires IncreasingBy(rest, key)
    requires forall y :: y in rest ==> key(x) < key(y)
    ensures IncreasingBy([x] + rest, key)
  {
    var r := [x] + rest;
    forall i, j | 0 <= i < j < |r| ensures key(r[i]) < key(r[j]) {
      assert r[j] == rest[j - 1];
      if i > 0 {
        assert r[i] == rest[i - 1];
      }
    }
  }

  /** The tail of a strictly increasing sequence is strictly increasing. */
  lemma IncreasingTail<T>(s: seq<T>, key: T -> int)
    requires |s| > 0 && IncreasingBy(s, key)
    ensures IncreasingBy(s[1..], key)
  {
    forall i, j | 0 <= i < j < |s| - 1 ensures key(s[1..][i]) < key(s[1..][j]) {
      assert s[1..][i] == s[i + 1] && s[1..][j] == s[j + 1];
    }
  }

  /** In a strictly increasing sequence the head is below everything after it. */
  lemma HeadBelowRest<T>(s: seq<T>, key: T -> int, x: T)
    requires |s| > 0 && IncreasingBy(s, key) && x in s[1..]
    ensures key(s[0]) < key(x)
  {
    var k :| 0 <= k < |s| - 1 && s[1..][k] == x;
    assert s[1..][k] == s[k + 1];
  }

  /** Filtering depends only on the predicate's values on the sequence. */
  lemma {:induction false} FilterCongruent<T(!new)>(s: seq<T>, p: T -> bool, q: T -> bool)
    requires forall i :: 0 <= i < |s| ==> p(s[i]) == q(s[i])
    ensures Filter(s, p) == Filter(s, q)
  {
    if |s| > 0 {
      FilterCongruent(s[1..], p, q);
    }
  }

  /** Filtering distributes over concatenation, so a filter can be built
      one element at a time, as `push` inside a loop builds it. */
  lemma {:induction false} FilterAppend<T(!new)>(a: seq<T>, b: seq<T>, p: T -> bool)
    ensures Filter(a + b, p) == Filter(a, p) + Filter(b, p)
  {
    if |a| > 0 {
      assert (a + b)[1..] == a[1..] + b;
      FilterAppend(a[1..], b, p);
    } else {
      assert a + b == b;
    }
  }

  /** Filtering one more element appends it exactly when it passes. */
  lemma FilterSnoc<T(!new)>(s: seq<T>, x: T, p: T -> bool)
    ensures Filter(s + [x], p) == Filter(s, p) + (if p(x) then [x] else [])
  {
    FilterAppend(s, [x], p);
    assert [x][1..] == [];
  }

  /** A prefix one longer is the prefix and the next element. */
  lemma TakeOneMore<T>(s: seq<T>, i: int)
    requires 0 <= i < |s|
    ensures s[..i + 1] == s[..i] + [s[i]]
  {
  }

  /** Concatenation is associative. */
  lemma AppendAssoc<T>(a: seq<T>, b: seq<T>, c: seq<T>)
    ensures a + (b + c) == (a + b) + c
  {
  }
}

=== FILE: time.dfy ===
/** Instants on one local timeline of whole minutes, and the handful of
    `Date` operations the booking code performs on them. */
module Time {
  import opened Wrappers
  import Js

  /** A point in time, in whole minutes. Every instant the code builds comes
      from `setHours(h, m, 0, 0)`, so seconds and milliseconds are always zero. */
  type Instant = int

  /** `startOfDay`: the first minute of a local calendar day (a day has 1440 minutes). */
  function StartOfDay(day: int): Instant {
    day * 1440
  }

  /** `endOfDay` is 23:59:59.999; on a whole-minute timeline that is the day's last minute. */
  function EndOfDay(day: int): Instant {
    StartOfDay(day) + 1440 - 1
  }

  /** The local calendar day an instant falls on. */
  function DayOf(t: Instant): int {
    t / 1440
  }

  /** Minutes since local midnight. */
  function MinuteOfDay(t: Instant): (m: int)
    ensures 0 <= m < 1440
  {
    t % 1440
  }

  /** `getHours()`: the local hour of the day. */
  function HourOf(t: Instant): (h: int)
    ensures 0 <= h < 24
  {
    MinuteOfDay(t) / 60
  }

  /** `addMinutes`. */
  function AddMinutes(t: Instant, minutes: int): Instant {
    t + minutes
  }

  /** The half-open intervals [startA, endA) and [startB, endB) share an instant. */
  predicate Overlaps(startA: Instant, endA: Instant, startB: Instant, endB: Instant) {
    startA < endB && startB < endA
  }

  /** A `"YYYY-MM-DD"` request value: missing or empty (falsy), present but
      not a date (truthy, yet `new Date` gives an Invalid Date), or a day. */
  datatype DateArg = NoDate | BadDate | OnDay(day: int)

  /** JavaScript truthiness of the date string. */
  predicate DateGiven(d: DateArg) {
    !d.NoDate?
  }

  /** `new Date(date)`: the first minute of the day, or `None` for an Invalid Date. */
  function NewDate(d: DateArg): (r: Option<Instant>)
    ensures r.Some? <==> d.OnDay?
    ensures r.Some? ==> DayOf(r.value) == d.day && MinuteOfDay(r.value) == 0
  {
    if d.OnDay? then Some(StartOfDay(d.day)) else None
  }

  /** `date.setHours(h, m, 0, 0)`: the same local day at clock h:m, where
      hours and minutes out of range carry into neighbouring days as `Date`
      arithmetic does; a `NaN` argument or an Invalid Date gives an Invalid Date. */
  function SetHours(date: Option<Instant>, h: Option<int>, m: Option<int>): (r: Option<Instant>)
    ensures r.Some? <==> date.Some? && h.Some? && m.Some?
    ensures r.Some? ==> r.value - StartOfDay(DayOf(date.value)) == h.value * 60 + m.value
  {
    if date.Some? && h.Some? && m.Some? then
      Some(StartOfDay(DayOf(date.value)) + h.value * 60 + m.value)
    else None
  }

  /** `const [hours, minutes] = time.split(':'); date.setHours(parseInt(hours), parseInt(minutes), 0, 0)`
      — a missing minutes part is `undefined`, which parses to `NaN`. */
  function SetClock(date: Option<Instant>, time: string): Option<Instant> {
    var parts := Js.Split(time, ':');
    SetHours(date, Js.ParseInt(parts[0]), if |parts| > 1 then Js.ParseInt(parts[1]) else None)
  }

  /** The client's clock label: `${h.toString().padStart(2, '0')}:${m.toString().padStart(2, '0')}`. */
  function Label(h: nat, m: nat): string {
    Js.PadStart(Js.Decimal(h), 2, '0') + ":" + Js.PadStart(Js.Decimal(m), 2, '0')
  }

  /** Setting a day's clock from a label reads back the label's hour and minute. */
  lemma SetClockLabel(date: Option<Instant>, h: nat, m: nat)
    ensures SetClock(date, Label(h, m)) == SetHours(date, Some(h), Some(m))
  {
    var hh := Js.PadStart(Js.Decimal(h), 2, '0');
    var mm := Js.PadStart(Js.Decimal(m), 2, '0');
    NoColonInPadded(h);
    NoColonInPadded(m);
    Js.SplitOnce(hh, mm, ':');
    Js.ParsePadded(h, 2);
    Js.ParsePadded(m, 2);
  }

  /** A label set on a day's first minute names that day at the label's time. */
  lemma SetClockOnDay(day: int, h: nat, m: nat)
    ensures SetClock(Some(StartOfDay(day)), Label(h, m)) == Some(StartOfDay(day) + h * 60 + m)
  {
    SetClockLabel(Some(StartOfDay(day)), h, m);
    SetHoursOnDay(day, h, m);
  }

  /** `setHours` on a day's first minute lands on that day at the given clock. */
  lemma SetHoursOnDay(day: int, h: nat, m: nat)
    ensures SetHours(Some(StartOfDay(day)), Some(h), Some(m)) == Some(StartOfDay(day) + h * 60 + m)
  {
    DivModUnique(StartOfDay(day), day, 0);
  }

  /** A clock time in range on a day reads back its hour. */
  lemma HourOfClock(day: int, h: nat, m: nat)
    requires h < 24 && m < 60
    ensures MinuteOfDay(StartOfDay(day) + h * 60 + m) == h * 60 + m
    ensures HourOf(StartOfDay(day) + h * 60 + m) == h
  {
    DivModUnique(StartOfDay(day) + h * 60 + m, day, h * 60 + m);
    assert (h * 60 + m) / 60 == h;
  }

  lemma NoColonInPadded(n: nat)
    ensures ':' !in Js.PadStart(Js.Decimal(n), 2, '0')
  {
    var p := Js.PadStart(Js.Decimal(n), 2, '0');
    forall i | 0 <= i < |p| ensures p[i] != ':' {
      if i >= |p| - |Js.Decimal(n)| {
        assert p[i] == Js.Decimal(n)[i - (|p| - |Js.Decimal(n)|)];
      }
    }
  }

  /** With an hour and minute in range, `setHours` stays on the same day and
      the result reads back that hour and minute. */
  lemma SetHoursInRange(date: Instant, h: int, m: int)
    requires 0 <= h < 24 && 0 <= m < 60
    ensures SetHours(Some(date), Some(h), Some(m)).Some?
    ensures var t := SetHours(Some(date), Some(h), Some(m)).value;
      DayOf(t) == DayOf(date) && MinuteOfDay(t) == h * 60 + m && HourOf(t) == h
  {
    var t := SetHours(Some(date), Some(h), Some(m)).value;
    var d := DayOf(date);
    assert t == d * 1440 + (h * 60 + m);
    DivModUnique(t, d, h * 60 + m);
  }

  /** Splitting an instant into day and minute of day is unique. */
  lemma DivModUnique(t: Instant, d: int, r: int)
    requires 0 <= r < 1440 && t == d * 1440 + r
    ensures DayOf(t) == d && MinuteOfDay(t) == r
  {
  }

  /** Later instants never fall on earlier days. */
  lemma DayOfMonotone(a: Instant, b: Instant)
    requires a <= b
    ensures DayOf(a) <= DayOf(b)
  {
  }

  /** An instant lies on `day` exactly when it is between the day's first and last minute. */
  lemma OnDayBounds(t: Instant, day: int)
    ensures DayOf(t) == day <==> StartOfDay(day) <= t <= EndOfDay(day)
  {
    if StartOfDay(day) <= t <= EndOfDay(day) {
      DivModUnique(t, day, t - StartOfDay(day));
    }
  }
}

=== FILE: wrappers.dfy ===
/** Failure-compatible wrappers shared by the whole model. */
module Wrappers {

  /** A value that may be absent: `None` also stands for JavaScript's `NaN`
      and for an Invalid Date. */
  datatype Option<+T> = None | Some(value: T) {

    /** The wrapped value, or `default` when there is none. */
    function GetOr(default: T): T {
      match this
      case Some(v) => v
      case None => default
    }
  }

  /** The outcome of a step that either produces a value or fails with an error. */
  datatype Result<+T, +E> = Success(value: T) | Failure(error: E) {
    predicate IsFailure() {
      Failure?
    }
  }
}
